=== FILE: README.md ===
# oVirtBackup in Dafny

A model of the oVirtBackup tool (`backup.py`, `config.py`, `vmtools.py`,
`vmlist.py`). The tool backs up the virtual machines of an oVirt engine.
For each configured VM it does the following, in order:

1. removes the clone a previous run left behind;
2. removes that run's snapshots;
3. checks the free space on the storage domain;
4. takes a snapshot and clones it into a new VM;
5. removes the snapshot again;
6. prunes old backups on the export domain;
7. exports the clone, then deletes it.

A failure list and a `has_errors` flag decide the exit status.

Everything the engine would answer is a parameter of the model:

- The inventory of storage domains, clusters and VMs.
- For each VM: whether it still exists, its disk sizes, the free space,
  whether the new snapshot is listed, and the first exception raised
  (and in which phase).
- The traces of poll results that the waiting loops read.
- The trace of attempt outcomes the snapshot deletion sees.
- The names the export domain lists.

Python's `int` is unbounded, like Dafny's. Float arithmetic on the space
threshold is modelled with exact `real`s.

| module | file | models |
|---|---|---|
| `Wrappers` | wrappers.dfy | `Option` and `Result` |
| `Strings` | strings.dfy | substring test, lower-casing, code-point ordering of strings, line splitting, `strip` |
| `Decimal` | decimal.dfy | `int(...)` / `str(...)` of integers (with whitespace around the digits), zero padding |
| `JsonString` | json_string.dfy | the escaping of one string by `json.dumps` (with `ensure_ascii`), and the decoding of a JSON string body as its reference |
| `ReTemplate` | re_template.dfy | the expansion of `re.sub`'s replacement template |
| `VmNamesJson` | vmnames_json.dfy | `json.dumps` / `json.loads` of the VM name list, with any JSON whitespace between the tokens, and the list as `re.sub`'s template |
| `Config` | config.dfy | the configuration reader, the clone suffix, the keep counts, `set_vm_names`, `write_update` |
| `VmList` | vmlist.dfy | `get_vm_list` |
| `Waiter` | waiter.dfy | the polling loops `wait_for_snapshot_operation`, `wait_for_vm_operation` and the "until gone" loops |
| `SnapshotCleanup` | snapshots.dfy | `delete_snapshots` with its retry on `status: 409` |
| `CloneCleanup` | clone_cleanup.dfy | `delete_vm` |
| `Retention` | retention.dfy | `delete_old_backups` |
| `FreeSpace` | free_space.dfy | `check_free_space` |
| `Backup` | batch.dfy | `arguments_to_dict`, the checks before the loop, the phases of one VM, the loop, the failure list and the exit status |

## Model

| member | source | states |
|---|---|---|
| Config.Override | config.py:31-33 | The merged section holds exactly the file's keys and the keys the command line gives a non-`None` value. A given value replaces the file's as `str(val)`. Every other file value is kept. |
| Config.LoadedText | config.py:35-56 | Every text option of a loaded configuration is what the parser returns for that key in the merged section. |
| Config.CliOverridesFile | config.py:31-44 | A command-line value wins over the file. A `None` value leaves the file's value in place. |
| Config.PersistMemorystate | config.py:13-17 | `persist_memorystate` is true iff the command line, else the file, else the default `"false"` spells a true word, in any letter case. |
| Config.RequiredOptionMissing | config.py:35-59 | A file without the `[config]` section is rejected. So is any option without a default that neither the file nor the command line sets. |
| Config.LoadParts | config.py:35-56 | A loaded configuration is assembled from the three reading stages, each of which succeeded on the merged section. |
| Config.SuffixBeforeClear | config.py:37-38 | Right after loading, the suffix is the bare `"_"`. The attribute access `self.clear_vm_suffix` calls nothing. |
| Config.SuffixAt | config.py:74-77 | The suffix is `_` and then digits. The long form is 16 characters with `_` at position 9. The short form is 7 characters. |
| Config.ClearVmSuffix | config.py:74-77 | Only the suffix changes. The new suffix is the clock reading in the configured form. |
| Config.LongSuffixRoundTrip | config.py:75 | The long suffix can be read back into the complete clock reading. |
| Config.ShortSuffixRoundTrip | config.py:76-77 | The short suffix can be read back into month, day and second. |
| Config.KeepCountCoercion | config.py:112-121 | A count written as text comes back as that integer. It is truthy iff it is non-zero. The empty text stays empty and is falsy. |
| Config.SetThenGetVmNames | config.py:64-68 | After `set_vm_names(xs)`, `get_vm_names()` is `xs`. The parser's `vm_names` text parses back to `xs`. No other option changes. |
| Config.SkipSpaces | config.py:171 | The ` *` of the pattern: the position of the first non-space after the option name. |
| Config.RewriteLines | config.py:173 | The substitution is applied line by line and keeps the number of lines. |
| Config.WriteUpdateRoundTrip | config.py:157-175 | When the file has a `vm_names` line and the names need no escaping, reading `vm_names` back from the rewritten file gives the names last set. |
| Config.WriteUpdateAccepted | config.py:170-173 | After `set_vm_names`, whatever the names, `re.sub` accepts the line as its template, so `write_update` does not raise. |
| Config.WriteUpdateTemplateSafe | config.py:170-173 | For names without a backslash and without the control characters that have a short JSON escape, the template expansion changes nothing: the file gets exactly the `json.dumps` text. |
| Config.WriteUpdateRejected | config.py:170-173 | A `vm_names` text from the file that holds a group reference (`\1`) makes `write_update` raise `re.error`, unless the file has no lines. |
| Config.WriteUpdateUnescapes | config.py:170-173 | As written, a name `a\b` is dumped as `a\\b`, the template halves the backslashes, and the file gets `["a\b"]`, which JSON reads as `a` and a backspace. |
| Config.WriteUpdateKeepsText | config.py:157-175 | With the value written literally, for any names, the reload sees exactly the `json.dumps` text of the names last set. |
| Config.SetVmNamesEscapes | config.py:64-68 | `set_vm_names` stores the escaped text: a quote in a name is written `\"`. |
| Config.FixtureRejected | config.py:47 | As written, the constructor fails on the test fixture with `NoOptionError` for `backup_keep_count_by_number`. |
| Config.FixtureLoadsAsIntended | tests/test_config.py:27-38 | With that option optional, the fixture loads and the first test's assertions hold: the command-line credentials win, the cluster keeps the file's value, the memory-state flag is false, and the names are `vm1` and `vm2`. |
| Config.IntendedPolicy | tests/test_config.py:5-24 | With that option optional, the fixture's timeout, keep counts and flags read without error. |
| Config.IntendedStorage | tests/test_config.py:58-74 | With that option optional, the fixture's storage options read, and `persist_memorystate` defaults to false. |
| VmNamesJson.ParseDumps | config.py:64-68 | `json.loads(json.dumps(xs)) == xs` for names that need no escaping. |
| VmNamesJson.DumpsSafe | config.py:66 | For names that need no escaping, `json.dumps` writes each name as it is between quotes. |
| VmNamesJson.DumpsKept | config.py:170-173 | For names without a backslash and without the control characters with a short escape, `re.sub` inserts the JSON text unchanged. |
| VmNamesJson.DumpsAccepted | config.py:173 | For any names, `re.sub` accepts the JSON text as a template: `json.dumps` writes a backslash only before `"`, `\`, `b`, `f`, `n`, `r`, `t` or `u`, never before a group reference. |
| JsonString.UnescapeEscape | config.py:66 | Decoding a JSON string body gives back every text `json.dumps` escaped, whatever its characters. |
| JsonString.EscapePrintable | config.py:66 | The escaped text is printable ASCII, whatever the input. |
| JsonString.EscapeVerbatim | config.py:66 | The escaped text equals the input iff every character is printable ASCII other than `"` and `\`. It is never shorter than the input. |
| JsonString.EscapeExamples | config.py:66 | `"` is written `\"`, `\` is written `\\`, and `é` is written `\u00e9`. |
| JsonString.SurrogateExample | config.py:66 | U+1F600 is written as the surrogate pair `\ud83d\ude00`. |
| JsonString.BackslashUnescapes | config.py:35 | JSON reads `a\b` as `a` and a backspace, and `a\\b` as `a`, a backslash and `b`. |
| ReTemplate.PlainKept | config.py:173 | A template without a backslash is inserted as it is. |
| ReTemplate.ExpandAppend | config.py:173 | The expansion of two templates side by side is the two expansions side by side. A rejected second half rejects the whole. |
| ReTemplate.OtherEscapeKept | config.py:173 | A backslash before a character that is no template escape, digit or `g` stays as the two characters. |
| ReTemplate.HalveBackslash | config.py:173 | A doubled backslash is inserted as one. |
| ReTemplate.TemplateExamples | config.py:173 | `\\` gives one backslash, `\n` a newline, and `\"` stays as it is. A lone backslash is rejected. |
| ReTemplate.HalveBetween | config.py:173 | Between two templates without a backslash, a doubled backslash is inserted as one and nothing else changes. |
| ReTemplate.HalvedBackslash | config.py:173 | The template `["a\\b"]` is inserted as `["a\b"]`. |
| VmNamesJson.DumpsParse | config.py:35 | Every text the list parser accepts is a layout of the list it returns: the list's tokens with nothing but JSON whitespace before, between and after them, and names that need no escaping. |
| VmNamesJson.ParseLayout | config.py:35 | Conversely, every such layout, whatever its whitespace, reads back as its names. |
| VmNamesJson.ParsePair | config.py:35 | Two names written `["a","b"]`, without the space `json.dumps` puts after the comma, read as the two names. |
| VmNamesJson.DumpsShape | config.py:66 | The JSON text of any list is one printable line from `[` to `]`, since `ensure_ascii` escapes every other character. |
| VmNamesJson.ParseFixture | tests/test_config.py:7 | The fixture value `["vm1", "vm2"]` reads as those two names. |
| Decimal.ParseShowInt | config.py:114 | `int(str(n)) == n` for every integer. |
| Decimal.ParseIntPadded | config.py:45 | Whitespace before and after the number does not change what `getint` and `int` read. |
| Config.UnsignedPoint | config.py:53 | Digits with a point read as their decimal value when either side of the point is empty (`5.`, `.5`). The bare point is rejected. |
| Config.ParseRealPadded | config.py:53 | Whitespace before and after the number does not change what `getfloat` reads. |
| Config.DecimalRead | config.py:53 | Digits around a point, with any whitespace around them, read as whole part plus fraction over the matching power of ten. |
| Config.ThresholdForms | config.py:53 | A threshold of a tenth reads the same written `0.1` or `.1`. |
| VmList.BuildVmString | vmlist.py:11-14 | The loop builds `vm_names: ` followed by the names, each between quotes with nothing escaped, as a bracketed list. With no names there is no line, because `vms[-1]` raises `IndexError`. |
| VmList.GetVmList | vmlist.py:16-21 | The substitution keeps the number of lines. |
| VmList.GetVmListLines | vmlist.py:18-23 | A line starting with `vm_names` becomes the expanded template and keeps its own newline. Every other line is unchanged. When `re.sub` rejects the template, the exception is swallowed and every line is unchanged. |
| VmList.GetVmListPlain | vmlist.py:11-19 | For names without a backslash, every `vm_names` line becomes exactly the built string. |
| VmList.GetVmListRejected | vmlist.py:19-23 | A name `\1` is a group reference to `re.sub`: the error is swallowed and the file is left unchanged. |
| VmList.GetVmListEmpty | vmlist.py:22-23 | With no names the exception is swallowed and the file is left unchanged. |
| VmList.VmListReadsBack | vmlist.py:11-19 | The written line is a `vm_names` line the configuration reader accepts, and its value parses back to the names. |
| Waiter.FirstStop | vmtools.py:24-32 | The poll loop ends at the first poll that stops it. When the trace has no such poll, none of them stops. |
| Waiter.WaitForSnapshot | vmtools.py:24-32 | The loop ends at the first poll that lists no snapshot, or whose first snapshot's status contains `ok`. Every earlier poll listed a first snapshot without `ok`. |
| Waiter.OnlyFirstSnapshotCounts | vmtools.py:27 | Only the first listed snapshot is looked at. `["locked", "ok"]` keeps waiting. `[]` and `["ok", "locked"]` stop. |
| Waiter.WaitForVm | vmtools.py:122-138 | The loop ends at the first poll where the composed name is missing or its state lower-cases to `down`. |
| Waiter.VmStateCase | vmtools.py:131-133 | `DOWN` and a missing VM end the wait. `powering_down` does not. |
| Waiter.WaitUntilGone | vmtools.py:101-103 | The loop ends at the first poll in which the name is absent. |
| SnapshotCleanup.Attempts | vmtools.py:48-71 | Never more attempts than the trace holds. The completed snapshots are a prefix of the schedule still due, and the loop finishes iff they are all of it. An attempt that raises without `409` is the last one consumed and ends the program. While retrying, the whole trace is consumed. |
| SnapshotCleanup.AttemptTargets | vmtools.py:50-62 | The first attempt addresses the current snapshot. A `409` failure retries the same snapshot. A completed attempt moves to the next one. Every target is a listed snapshot. |
| SnapshotCleanup.RunPasses | vmtools.py:41-73 | With no snapshots nothing happens. In dry-run no `delete()` is issued; otherwise one is issued per attempt. The run finishes iff the completed attempts are the whole schedule. It exits iff some attempt raised without `409`, and that is the last attempt. "Snapshots deleted" is logged iff the run finished after at least one completion. |
| SnapshotCleanup.EachSnapshotNTimes | vmtools.py:45-48 | As written, a finished run has completed each of the `n` snapshots `n` times. |
| SnapshotCleanup.NestedLoopRepeats | vmtools.py:45-57 | Two snapshots whose deletions all complete get four `delete()` calls: `0, 1, 0, 1`. |
| SnapshotCleanup.EachSnapshotOnce | vmtools.py:48-71 | With one pass, a finished run has completed each snapshot exactly once. |
| SnapshotCleanup.ScheduleCount | vmtools.py:45-48 | From any position of the loop nest, a snapshot is still due once in the current pass if it is not yet behind, and once in every later pass. |
| CloneCleanup.QueryCoversClone | vmtools.py:85 | The searched prefix is a prefix of the clone name composed with any suffix. |
| CloneCleanup.LiveDeletes | vmtools.py:86-104 | A VM is deleted iff the search returned it and it still existed when looked up again. |
| CloneCleanup.LiveOrder | vmtools.py:98-104 | Every deletion comes right after lifting the delete protection and right before the wait for the VM to be gone. |
| CloneCleanup.DeleteVm | vmtools.py:76-109 | The exact query, which is searched in dry-run too. In dry-run there is no unprotect, delete or wait call, and nothing is logged as deleted. In live mode "deleted" is logged iff the search found something, a VM is deleted iff it is still there, and every deletion is guarded. |
| Retention.Sort | vmtools.py:152 | `sorted`: the result is in code-point order and is a permutation of the names. |
| Retention.Selection | vmtools.py:152 | The deleted names are a prefix of the sorted names. A keep count of 0 deletes nothing, `k > 0` deletes all but `k`, and `k < 0` deletes `-k`. |
| Retention.KeepsGreatest | vmtools.py:148-153 | For `k >= 1`, the names split into those deleted and those kept. At most `k` are kept. Every deleted name sorts before every kept one. Deletion is in ascending order. |
| Retention.NothingWhenFew | vmtools.py:152 | With at most `k` backups, or `k == 0`, nothing is deleted. |
| Retention.NegativeKeepDeletesLeast | vmtools.py:152 | A negative count deletes the `-k` smallest names. |
| Retention.DeleteOldBackups | vmtools.py:141-160 | The name pattern is searched and the selection is `sorted(names)[:-k]`. Dry-run makes no delete call and no wait, although the listing and the lookups still happen. In live mode each deletion is immediately followed by its wait. |
| FreeSpace.VmSizeIsSumOfReported | vmtools.py:304-308 | The VM size is the sum of the reported disk sizes. Unreported sizes add nothing. |
| FreeSpace.VmSizeAppend | vmtools.py:305-308 | Sizes add up across a split of the disk list. |
| FreeSpace.Required | vmtools.py:312 | The required space is never less than the VM size. |
| FreeSpace.Raises | vmtools.py:298-314 | The check raises iff available space minus size times (1 + threshold) is not positive. No free space always raises. |
| FreeSpace.NonPositiveThresholdIgnored | vmtools.py:309-313 | With a threshold of at most 0, the check raises iff `available <= size`. |
| FreeSpace.ThresholdMonotone | vmtools.py:309-313 | A larger threshold never lets through a VM that a smaller one stops. |
| FreeSpace.MoreDisksMonotone | vmtools.py:304-313 | Another disk never lets through a VM that was stopped without it. |
| Backup.IgnoredOptionsKeepFileValues | backup.py:187-198 | `config_file`, `dry_run` and `debug` never override the file. Every other given option does. |
| Backup.FirstUnknown | backup.py:249-253 | The first configured VM the engine does not know, if any. |
| Backup.Precheck | backup.py:230-259 | The run passes the checks iff all hold: the export domain, cluster and storage domain exist, every VM exists, and the middle part is non-empty. Each failure is reported iff every earlier check passed and its own check fails. The order is export domain, cluster, storage domain, VMs, middle part. An unknown VM is reported by the name `FirstUnknown` gives. |
| Backup.Handle | backup.py:296-376 | Snapshot creation and export have their own handlers, which record an error. Elsewhere a `ConnectionError` loses the VM, a `RequestError` records an error, and any other exception ends the program. `sys.exit` passes every handler. |
| Backup.Walk | backup.py:276-364 | The phases entered come from the schedule. Every creating call was entered. Dry-run creates nothing. |
| Backup.WalkOrder | backup.py:276-364 | The phases are entered in schedule order. |
| Backup.WalkOutcome | backup.py:276-376 | The VM succeeds iff no phase stops it. Otherwise its outcome is that of the first phase that stops. |
| Backup.RunVmShape | backup.py:276-364 | The phases are entered in order, and dry-run creates nothing. A successful VM entered the export and the clone removal. In live mode it also created the snapshot, the clone and the export. |
| Backup.SuccessEnters | backup.py:276-364 | A successful VM entered every phase except the two retention phases. |
| Backup.FirstStopDecides | backup.py:276-376 | The first phase that stops decides the VM's outcome. |
| Backup.SpaceShortageIsFatal | backup.py:293 | A failed space check ends the program. Its exception reaches the generic handler. |
| Backup.SuccessNeedsNoKeepCountByNumber | backup.py:336-337 | A VM can succeed only when `backup_keep_count_by_number` is empty or 0. |
| Backup.CloneName | backup.py:264-265 | The clone name's length is the VM name's length plus the middle part's, plus 16, or 7 when short. |
| Backup.Succeeded | backup.py:263-364 | A name is among the successes iff some processed VM of that name succeeded. There is at most one success per processed VM. |
| Backup.Loop | backup.py:263-376 | Each outcome is the VM's own outcome, and every VM processed passed the name-length guard. The loop ends after the last VM, at the first clone name that is too long, or at the first outcome that ends the program. |
| Backup.NameGuardStopsAt | backup.py:263-273 | The loop processes every VM before the first clone name that is too long, and stops there. |
| Backup.LoopAll | backup.py:263-376 | When every clone name fits and no VM ends the program, the loop processes every VM and records each VM's own outcome. |
| Backup.RemoveFirst | backup.py:364 | `list.remove` removes one occurrence of the name. Python raises `ValueError` when the name is absent, and the model keeps the list unchanged instead. `main` only removes names from its own list, so that case cannot arise there. |
| Backup.RemoveFirstAt | backup.py:364 | The removed occurrence is the first one, and the rest keep their order. |
| Backup.Failures | backup.py:261-364 | The failure list is the configured list minus one entry per successful VM. |
| Backup.SelectVms | backup.py:215-228 | `--vm-tag` wins over `--all-vms`, which wins over the configured list. |
| Backup.Main | backup.py:230-388 | The run is rejected iff a check fails. Otherwise the exit status is 0 iff every VM was processed and none set `has_errors`, and the failure list is the configured list minus the successes. |
| Backup.MainExitsZero | backup.py:378-388 | A run that processed every VM with no outcome setting `has_errors` exits with status 0. |
| Backup.UnhandledFailureExitsZero | backup.py:281-287 | VMs that vanished or lost the connection stay on the failure list but leave the exit status at 0. |
| Backup.ConnectionLossExample | backup.py:365-368 | A single VM that loses the connection while its old clone is cleaned up exits 0, with that VM on the failure list. |

## Left out

- The oVirt SDK, network access, `connect()` and `api.disconnect()`, logging, `time.sleep`, reading the command line with `argparse`, and the file I/O. The engine's answers, clock readings and file contents are parameters.
- Polling loops are modelled over finite traces of poll results. A loop that never ends is the `None` result, or the `Retrying` end of the snapshot deletion.
- `Backup.RunVm`: it sees each phase as atomic and takes the first exception from the observation. It does not compose the phase models (`SnapshotCleanup`, `CloneCleanup`, `Retention`, `FreeSpace`): they are proved separately. A `sys.exit(1)` inside `delete_snapshots` is the `ExitCall` kind of fault.
- `Backup.Main`: starts after the configuration is loaded and after the VM list was chosen (`SelectVms`). It leaves out the durations it logs.
- `delete_old_templates`, `delete_old_backups_by_number`, `backup_to_*` and `logger.py` are not part of this model. `delete_old_backups_by_number` is not defined in `vmtools.py`: the model treats calling it as the attribute error it raises.
- Config: INI parsing, section handling other than "section missing", and option-name case folding are not modelled. The file is given as the `[config]` section's key/value map.
- Config: `getfloat` is modelled for an optional sign and digits with at most one point, with whitespace around them. Exponents, `inf`, `nan` and whitespace between the sign and the digits are left out, and such texts are the error result. The same holds for whitespace after the sign in `getint` and `int`, which Python 2 skips.
- Config: `json.loads` of the whole list is modelled only for a flat list of names that need no escaping (`VmNamesJson.SafeNames`: printable ASCII other than `"`, `\` and `;`). Escape sequences, non-ASCII and control characters, and any other JSON value are the error result, although `json.loads` accepts them. The escaping of `json.dumps` is modelled for all names, and `JsonString.Unescape` decodes it for one string.
- Names are sequences of Unicode code points. Python 2 byte strings, and the UTF-8 decoding `json.dumps` applies to them first, are left out.
- Config.WriteUpdateRoundTrip: the reload sees only the lines the rewrite pattern `^vm_names *[:=].*$` matches. The configuration parser also takes lines that pattern misses: a tab before the separator, another letter case of the option name, continuation lines. A file whose `vm_names` is set that way is neither rewritten nor read back by the model, so the round trip is not promised for it.
- ReTemplate.Expand: group references (`\g<...>`, `\1`) and octal escapes (`\0`) are treated like a rejected template. With the fixed patterns of this tool, which have no groups, `\g<0>` and `\0` would be accepted and inserted as the matched line or an octal character, which the model does not promise.
- Config.SuffixAt: clock years are limited to 1000..9999, so that `%Y` has four digits.
- `re.sub` in `write_update` and `get_vm_list` is modelled for the two fixed patterns only, one line at a time.
- Retention.DeleteOldBackups: does not model the crash of `vm.get_name()` when a selected backup vanished between the listing and the lookup.
- The `.encode('ascii', 'ignore')` of the retention pattern is left out: names are taken to be ASCII.
- Where the code and the tool's documentation differ, the model follows the code:
  - retention keeps the `k` greatest names, not the backups of the last `k` days;
  - a `ConnectionError` moves on to the next VM without retrying;
  - a VM that vanished or lost the connection stays on the failure list but does not change the exit status.

## Findings

| source | as written | input that shows it | evidently intended | confidence | as-written member | corrected member |
|---|---|---|---|---|---|---|
| config.py:170-173 | `write_update` passes the line `vm_names = <json.dumps text>` to `re.sub` as a template, so the escapes `json.dumps` wrote are expanded again. | `set_vm_names(["a\\b"])`, then `write_update`: the file gets `["a\b"]`, which reloads as `a` and a backspace. | The value written as it is, for example with a replacement function. | not executed; medium | Config.WriteUpdateUnescapes | Config.WriteUpdateKeepsText |
| config.py:47 | `backup_keep_count_by_number` is read with `get` but has no default, so a file without it is rejected with `NoOptionError`. | The `[config]` fixture of tests/test_config.py:5-24, which does not set the option. | The option is optional and empty when absent, as the tests expect. | not executed; high | Config.FixtureRejected | Config.FixtureLoadsAsIntended |
| vmtools.py:45-48 | `for i in snapshots` nested inside another `for i in snapshots` runs the deletion of every snapshot once per outer pass, `n` times in all. | Two snapshots whose deletions all complete: four `delete()` calls, `0, 1, 0, 1`, the last two on snapshots already gone. | One pass: each snapshot deleted once. | not executed; medium | SnapshotCleanup.NestedLoopRepeats | SnapshotCleanup.EachSnapshotOnce |

=== FILE: batch.dfy ===
/**
 `backup.py`: the command-line options handed to the configuration, the
 checks made before any VM is touched, the phases of one VM's backup and
 how their outcomes add up to the failure list and the exit status.

 The engine is seen only through observations: which domains, clusters and
 VMs exist, and for each VM whether it is still there, its disks, the free
 space, whether the snapshot is listed, and the first exception raised, if
 any, with the phase that raised it.
 */
module Backup {

  import opened Wrappers
  import Config
  import FreeSpace
  import Waiter

  // ----- arguments_to_dict -----

  /** Options that have no place in the configuration file. */
  const Ignored: set<string> := {"config_file", "dry_run", "debug"}

  /** The options passed to the configuration: every one outside `Ignored` whose value is not `None`. */
  function ArgumentsToDict(opts: map<string, Config.CliValue>): (d: map<string, Config.CliValue>)
    ensures forall k :: k in d <==> k in opts && k !in Ignored && !opts[k].Absent?
    ensures forall k :: k in d ==> d[k] == opts[k]
  {
    map k | k in opts && k !in Ignored && !opts[k].Absent? :: opts[k]
  }

  /**
   `--dry-run` and `--debug` never reach the configuration's section: the
   file's own values for them survive the override, whatever the command
   line says; every other given option replaces the file's value.
   */
  lemma IgnoredOptionsKeepFileValues(file: Config.Section, opts: map<string, Config.CliValue>, k: string)
    ensures var merged := Config.Override(file, ArgumentsToDict(opts));
      && (k in Ignored ==> (k in merged <==> k in file) && (k in file ==> merged[k] == file[k]))
      && (k !in Ignored && Config.Given(opts, k) ==> k in merged && merged[k] == Config.CliString(opts[k]))
  {
    var d := ArgumentsToDict(opts);
    assert k in Ignored ==> !Config.Given(d, k);
    assert k !in Ignored && Config.Given(opts, k) ==> Config.Given(d, k) && d[k] == opts[k];
  }

  // ----- checks before the batch -----

  /** What exists on the engine when the checks run. */
  datatype Inventory = Inventory(storageDomains: set<string>, clusters: set<string>, vms: set<string>)

  /** The check that failed; each one disconnects and exits with status 1. */
  datatype PrecheckFailure = BadExportDomain | BadCluster | BadStorageDomain | UnknownVm(name: string) | EmptyMiddle

  /** The first configured VM the engine does not know. */
  function FirstUnknown(names: seq<string>, vms: set<string>): (r: Option<string>)
    ensures r.None? <==> forall i :: 0 <= i < |names| ==> names[i] in vms
    ensures r.Some? ==> exists i :: (0 <= i < |names| && names[i] == r.value && r.value !in vms
      && forall j :: 0 <= j < i ==> names[j] in vms)
  {
    if |names| == 0 then None
    else if names[0] !in vms then Some(names[0])
    else
      var r := FirstUnknown(names[1..], vms);
      if r.Some? then
        var i :| 0 <= i < |names[1..]| && names[1..][i] == r.value && r.value !in vms
          && forall j :: 0 <= j < i ==> names[1..][j] in vms;
        assert names[i + 1] == r.value;
        r
      else r
  }

  /** The checks in the order `main` makes them: export domain, cluster, storage domain, every VM, middle part. */
  function Precheck(c: Config.Config, inv: Inventory): (r: Option<PrecheckFailure>)
    ensures r.None? <==> (c.exportDomain in inv.storageDomains && c.clusterName in inv.clusters
      && c.storageDomain in inv.storageDomains && (forall i :: 0 <= i < |c.vmNames| ==> c.vmNames[i] in inv.vms)
      && |c.vmMiddle| > 0)
    ensures r == Some(BadExportDomain) <==> c.exportDomain !in inv.storageDomains
    ensures r == Some(BadCluster) <==> c.exportDomain in inv.storageDomains && c.clusterName !in inv.clusters
    ensures r == Some(BadStorageDomain) <==> (c.exportDomain in inv.storageDomains && c.clusterName in inv.clusters
      && c.storageDomain !in inv.storageDomains)
    ensures (r.Some? && r.value.UnknownVm?) <==> (c.exportDomain in inv.storageDomains && c.clusterName in inv.clusters
      && c.storageDomain in inv.storageDomains && FirstUnknown(c.vmNames, inv.vms).Some?)
    ensures r.Some? && r.value.UnknownVm? ==> (r.value.name == FirstUnknown(c.vmNames, inv.vms).value
      && r.value.name in c.vmNames && r.value.name !in inv.vms)
    ensures r == Some(EmptyMiddle) <==> (c.exportDomain in inv.storageDomains && c.clusterName in inv.clusters
      && c.storageDomain in inv.storageDomains && (forall i :: 0 <= i < |c.vmNames| ==> c.vmNames[i] in inv.vms)
      && |c.vmMiddle| == 0)
  {
    if c.exportDomain !in inv.storageDomains then Some(BadExportDomain)
    else if c.clusterName !in inv.clusters then Some(BadCluster)
    else if c.storageDomain !in inv.storageDomains then Some(BadStorageDomain)
    else match FirstUnknown(c.vmNames, inv.vms)
      case Some(name) => Some(UnknownVm(name))
      case None => if |c.vmMiddle| == 0 then Some(EmptyMiddle) else None
  }

  // ----- one VM -----

  /** The steps of one VM's backup, in the order `main` takes them. */
  datatype Phase =
    | CleanupClone | LookupVm | CleanupSnapshots | CheckSpace | CreateSnapshot | FindSnapshot
    | CloneVm | RemoveSnapshots | Retention | RetentionByNumber | Export | RemoveClone

  function Rank(p: Phase): nat
  {
    match p
    case CleanupClone => 0
    case LookupVm => 1
    case CleanupSnapshots => 2
    case CheckSpace => 3
    case CreateSnapshot => 4
    case FindSnapshot => 5
    case CloneVm => 6
    case RemoveSnapshots => 7
    case Retention => 8
    case RetentionByNumber => 9
    case Export => 10
    case RemoveClone => 11
  }

  const Schedule: seq<Phase> :=
    [CleanupClone, LookupVm, CleanupSnapshots, CheckSpace, CreateSnapshot, FindSnapshot,
     CloneVm, RemoveSnapshots, Retention, RetentionByNumber, Export, RemoveClone]

  /** The steps that create something on the engine, skipped in dry-run. */
  predicate Creates(p: Phase)
  {
    p == CreateSnapshot || p == CloneVm || p == Export
  }

  /** The class of an exception: the SDK's two error types, any other `Exception`, or the `SystemExit` of `sys.exit(1)`. */
  datatype ErrorKind = ConnectionFailure | RequestFailure | OtherFailure | ExitCall

  datatype Fault = Fault(phase: Phase, kind: ErrorKind)

  /** What the engine shows while one VM is backed up. */
  datatype VmObs = VmObs(
    present: bool,
    disks: seq<Option<nat>>,
    available: int,
    snapshotListed: bool,
    fault: Option<Fault>)

  /** How one VM's backup ends. */
  datatype Outcome =
    | Vanished | SnapshotFailed | NoSnapshot | ExportFailed
    | RequestError | ConnectionLost | Fatal | Exited | Success

  /** The outcomes that set `has_errors`. */
  predicate SetsErrors(o: Outcome)
  {
    o == SnapshotFailed || o == NoSnapshot || o == ExportFailed || o == RequestError
  }

  /** The outcomes that end the whole program with status 1 at once. */
  predicate Aborts(o: Outcome)
  {
    o == Fatal || o == Exited
  }

  /**
   Where an exception raised in phase `p` lands.  Snapshot creation and
   export have their own `except Exception`; elsewhere the handlers of the
   loop body decide.  `SystemExit` is no `Exception` and passes all of them.
   */
  function Handle(p: Phase, kind: ErrorKind): (o: Outcome)
    ensures kind == ExitCall <==> o == Exited
    ensures kind != ExitCall && p == CreateSnapshot ==> o == SnapshotFailed
    ensures kind != ExitCall && p == Export ==> o == ExportFailed
    ensures p != CreateSnapshot && p != Export ==>
      (kind == ConnectionFailure <==> o == ConnectionLost) && (kind == RequestFailure <==> o == RequestError)
      && (kind == OtherFailure <==> o == Fatal)
  {
    if kind == ExitCall then Exited
    else if p == CreateSnapshot then SnapshotFailed
    else if p == Export then ExportFailed
    else match kind
      case ConnectionFailure => ConnectionLost
      case RequestFailure => RequestError
      case OtherFailure => Fatal
  }

  /** The options one VM's backup reads; a keep count of `None` is the `ValueError` of its getter. */
  datatype Settings = Settings(
    dryRun: bool,
    threshold: real,
    keepCount: Option<Config.KeepCount>,
    keepCountByNumber: Option<Config.KeepCount>)

  function SettingsOf(c: Config.Config): Settings
  {
    Settings(c.dryRun, c.storageSpaceThreshold,
             Config.KeepCountOf(c.backupKeepCount), Config.KeepCountOf(c.backupKeepCountByNumber))
  }

  /** One step: passed over, stopped (and whether the step was entered), or completed. */
  datatype Step = Skip | Stop(outcome: Outcome, entered: bool) | Go

  function StepOf(p: Phase, s: Settings, o: VmObs): Step
  {
    if p == Retention && s.keepCount.None? then Stop(Fatal, false)
    else if p == Retention && !s.keepCount.value.Truthy() then Skip
    else if p == RetentionByNumber && s.keepCountByNumber.None? then Stop(Fatal, false)
    else if p == RetentionByNumber && !s.keepCountByNumber.value.Truthy() then Skip
    // `delete_old_backups_by_number` does not exist: the attribute lookup raises.
    else if p == RetentionByNumber then Stop(Fatal, true)
    else if o.fault.Some? && o.fault.value.phase == p then Stop(Handle(p, o.fault.value.kind), true)
    else if p == LookupVm && !o.present then Stop(Vanished, true)
    else if p == CheckSpace && FreeSpace.Raises(o.available, o.disks, s.threshold) then Stop(Fatal, true)
    else if p == FindSnapshot && !o.snapshotListed then Stop(NoSnapshot, true)
    else Go
  }

  /** How one VM's backup went: its outcome, the steps entered, and the creating calls issued. */
  datatype VmRun = VmRun(outcome: Outcome, entered: seq<Phase>, created: seq<Phase>)

  predicate Ascending(ps: seq<Phase>)
  {
    forall i, j :: 0 <= i < j < |ps| ==> Rank(ps[i]) < Rank(ps[j])
  }

  /** Whether some step of `phases` before position `k` stops the backup. */
  predicate StopsBefore(phases: seq<Phase>, s: Settings, o: VmObs, k: int)
    requires k <= |phases|
  {
    exists j :: 0 <= j < k && StepOf(phases[j], s, o).Stop?
  }

  /** The remaining steps `phases`, taken in order until one stops the backup. */
  function Walk(phases: seq<Phase>, s: Settings, o: VmObs): (r: VmRun)
    ensures forall k :: 0 <= k < |r.entered| ==> r.entered[k] in phases
    ensures forall k :: 0 <= k < |r.created| ==> Creates(r.created[k]) && r.created[k] in r.entered
    ensures s.dryRun ==> r.created == []
    decreases |phases|
  {
    if |phases| == 0 then VmRun(Success, [], [])
    else
      var p := phases[0];
      var made := if Creates(p) && !s.dryRun then [p] else [];
      match StepOf(p, s, o)
      case Skip => Walk(phases[1..], s, o)
      case Stop(outcome, entered) =>
        VmRun(outcome, if entered then [p] else [], if entered then made else [])
      case Go =>
        var rest := Walk(phases[1..], s, o);
        VmRun(rest.outcome, [p] + rest.entered, made + rest.created)
  }

  /** The steps are entered in the order of the schedule. */
  lemma {:induction false} WalkOrder(phases: seq<Phase>, s: Settings, o: VmObs)
    requires Ascending(phases)
    ensures Ascending(Walk(phases, s, o).entered)
    decreases |phases|
  {
    if |phases| > 0 {
      var p := phases[0];
      assert Ascending(phases[1..]);
      WalkOrder(phases[1..], s, o);
      if StepOf(p, s, o).Go? {
        var rest := Walk(phases[1..], s, o);
        forall k | 0 <= k < |rest.entered|
          ensures Rank(p) < Rank(rest.entered[k])
        {
          var j :| 0 <= j < |phases[1..]| && phases[1..][j] == rest.entered[k];
          assert phases[j + 1] == rest.entered[k];
        }
        ConsAscending(p, rest.entered);
        assert Walk(phases, s, o).entered == [p] + rest.entered;
      }
    }
  }

  lemma ConsAscending(p: Phase, e: seq<Phase>)
    requires Ascending(e) && forall k :: 0 <= k < |e| ==> Rank(p) < Rank(e[k])
    ensures Ascending([p] + e)
  {
    var f := [p] + e;
    forall i, j | 0 <= i < j < |f|
      ensures Rank(f[i]) < Rank(f[j])
    {
      assert f[j] == e[j - 1];
      if i > 0 {
        assert f[i] == e[i - 1];
      }
    }
  }

  /**
   The backup succeeds exactly when no step stops it; otherwise its
   outcome is that of the first step that stops it.
   */
  lemma {:induction false} WalkOutcome(phases: seq<Phase>, s: Settings, o: VmObs)
    ensures var r := Walk(phases, s, o);
      && (r.outcome.Success? <==> !StopsBefore(phases, s, o, |phases|))
      && (!r.outcome.Success? ==> exists k :: (0 <= k < |phases| && !StopsBefore(phases, s, o, k)
            && StepOf(phases[k], s, o).Stop? && StepOf(phases[k], s, o).outcome == r.outcome))
    decreases |phases|
  {
    if |phases| > 0 {
      var p := phases[0];
      var tail := phases[1..];
      WalkOutcome(tail, s, o);
      assert !StopsBefore(phases, s, o, 0);
      forall k | 0 <= k < |tail|
        ensures StopsBefore(tail, s, o, k) ==> StopsBefore(phases, s, o, k + 1)
        ensures !StepOf(p, s, o).Stop? && StopsBefore(phases, s, o, k + 1) ==> StopsBefore(tail, s, o, k)
      {
        if StopsBefore(tail, s, o, k) {
          var j :| 0 <= j < k && StepOf(tail[j], s, o).Stop?;
          assert phases[j + 1] == tail[j];
        }
        if !StepOf(p, s, o).Stop? && StopsBefore(phases, s, o, k + 1) {
          var j :| 0 <= j < k + 1 && StepOf(phases[j], s, o).Stop?;
          assert j > 0 && tail[j - 1] == phases[j];
        }
      }
      if !StepOf(p, s, o).Stop? {
        if StopsBefore(phases, s, o, |phases|) {
          var j :| 0 <= j < |phases| && StepOf(phases[j], s, o).Stop?;
          assert tail[j - 1] == phases[j];
        }
        if StopsBefore(tail, s, o, |tail|) {
          var j :| 0 <= j < |tail| && StepOf(tail[j], s, o).Stop?;
          assert phases[j + 1] == tail[j];
        }
        if !Walk(phases, s, o).outcome.Success? {
          var k :| 0 <= k < |tail| && !StopsBefore(tail, s, o, k)
            && StepOf(tail[k], s, o).Stop? && StepOf(tail[k], s, o).outcome == Walk(tail, s, o).outcome;
          assert phases[k + 1] == tail[k];
        }
      }
    }
  }

  /** The backup of one VM. */
  function RunVm(s: Settings, o: VmObs): (r: VmRun)
    ensures s.dryRun ==> r.created == []
    ensures forall k :: 0 <= k < |r.created| ==> Creates(r.created[k]) && r.created[k] in r.entered
  {
    Walk(Schedule, s, o)
  }
  lemma ScheduleAscending()
    ensures Ascending(Schedule)
  {
    assert forall i :: 0 <= i < |Schedule| ==> Rank(Schedule[i]) == i;
  }

  /** In a walk that succeeds, every step that is not passed over is entered. */
  lemma {:induction false} WalkEntersUnskipped(phases: seq<Phase>, s: Settings, o: VmObs, k: nat)
    requires k < |phases| && !StepOf(phases[k], s, o).Skip? && Walk(phases, s, o).outcome.Success?
    ensures phases[k] in Walk(phases, s, o).entered
    decreases |phases|
  {
    if k > 0 && !StepOf(phases[0], s, o).Stop? {
      assert phases[1..][k - 1] == phases[k];
      WalkEntersUnskipped(phases[1..], s, o, k - 1);
    }
  }

  /**
   One VM's backup: its steps follow the schedule, so retention always
   comes before the export; in dry-run nothing is created; a backup that
   succeeds has passed the export step, and issued the export unless in
   dry-run.
   */
  lemma RunVmShape(s: Settings, o: VmObs)
    ensures var r := RunVm(s, o);
      && Ascending(r.entered)
      && (s.dryRun ==> r.created == [])
      && (r.outcome.Success? ==> Export in r.entered && RemoveClone in r.entered)
      && (r.outcome.Success? && !s.dryRun ==> CreateSnapshot in r.created && CloneVm in r.created && Export in r.created)
  {
    ScheduleAscending();
    WalkOrder(Schedule, s, o);
    if RunVm(s, o).outcome.Success? {
      SuccessEntersAll(s, o);
      if !s.dryRun {
        SuccessCreates(s, o);
      }
    }
  }

  lemma SuccessEntersAll(s: Settings, o: VmObs)
    requires RunVm(s, o).outcome.Success?
    ensures var e := RunVm(s, o).entered;
      CreateSnapshot in e && CloneVm in e && Export in e && RemoveClone in e
  {
    SuccessEnters(s, o, CreateSnapshot);
    SuccessEnters(s, o, CloneVm);
    SuccessEnters(s, o, Export);
    SuccessEnters(s, o, RemoveClone);
  }

  lemma SuccessCreates(s: Settings, o: VmObs)
    requires !s.dryRun
    requires var e := RunVm(s, o).entered; CreateSnapshot in e && CloneVm in e && Export in e
    ensures var c := RunVm(s, o).created; CreateSnapshot in c && CloneVm in c && Export in c
  {
    CreatedWhenEntered(Schedule, s, o, CreateSnapshot);
    CreatedWhenEntered(Schedule, s, o, CloneVm);
    CreatedWhenEntered(Schedule, s, o, Export);
  }

  /** A VM that succeeds has entered every step of the schedule other than the two retention steps. */
  lemma SuccessEnters(s: Settings, o: VmObs, p: Phase)
    requires RunVm(s, o).outcome.Success?
    requires p != Retention && p != RetentionByNumber
    ensures p in RunVm(s, o).entered
  {
    var k := Rank(p);
    ScheduleRanks();
    WalkEntersUnskipped(Schedule, s, o, k);
  }

  lemma ScheduleRanks()
    ensures |Schedule| == 12
    ensures forall p :: Schedule[Rank(p)] == p
  {
  }

  /** Outside dry-run, every creating step that is entered issues its call. */
  lemma {:induction false} CreatedWhenEntered(phases: seq<Phase>, s: Settings, o: VmObs, p: Phase)
    requires !s.dryRun && Creates(p) && p in Walk(phases, s, o).entered
    ensures p in Walk(phases, s, o).created
    decreases |phases|
  {
    var q := phases[0];
    match StepOf(q, s, o)
    case Skip =>
      CreatedWhenEntered(phases[1..], s, o, p);
    case Stop(_, _) =>
    case Go =>
      if p != q {
        CreatedWhenEntered(phases[1..], s, o, p);
      }
  }

  /** Which step stops the backup decides its outcome: the first one that stops it. */
  lemma FirstStopDecides(s: Settings, o: VmObs, k: nat)
    requires k < |Schedule| && StepOf(Schedule[k], s, o).Stop? && !StopsBefore(Schedule, s, o, k)
    ensures RunVm(s, o).outcome == StepOf(Schedule[k], s, o).outcome
  {
    WalkOutcome(Schedule, s, o);
    assert StopsBefore(Schedule, s, o, |Schedule|);
    var r := RunVm(s, o);
    var m :| 0 <= m < |Schedule| && !StopsBefore(Schedule, s, o, m)
      && StepOf(Schedule[m], s, o).Stop? && StepOf(Schedule[m], s, o).outcome == r.outcome;
  }

  /**
   A failed free-space check raises a plain exception outside the inner
   `try` blocks: the generic handler ends the whole program.
   */
  lemma SpaceShortageIsFatal(s: Settings, o: VmObs)
    requires !StopsBefore(Schedule, s, o, 3)
    requires !(o.fault.Some? && o.fault.value.phase == CheckSpace)
    requires FreeSpace.Raises(o.available, o.disks, s.threshold)
    ensures RunVm(s, o).outcome == Fatal
  {
    FirstStopDecides(s, o, 3);
  }

  /**
   `delete_old_backups_by_number` is not defined: a truthy keep count by
   number ends the program once a backup reaches retention, so no backup
   succeeds unless that count is empty or zero.
   */
  lemma SuccessNeedsNoKeepCountByNumber(s: Settings, o: VmObs)
    requires RunVm(s, o).outcome.Success?
    ensures s.keepCountByNumber.Some? && !s.keepCountByNumber.value.Truthy()
  {
    WalkOutcome(Schedule, s, o);
    assert Schedule[9] == RetentionByNumber;
  }

  // ----- the batch -----

  /** The clock reading `clear_vm_suffix` takes for one VM, and what the engine shows while it is backed up. */
  datatype VmInput = VmInput(clock: Config.Clock, obs: VmObs)

  predicate ValidInputs(inputs: seq<VmInput>)
  {
    forall i :: 0 <= i < |inputs| ==> Config.ValidClock(inputs[i].clock)
  }

  /** The clone's name: the VM's name, the middle part and a fresh suffix, composed as the VM wait looks it up. */
  function CloneName(c: Config.Config, name: string, t: Config.Clock): (clone: string)
    requires Config.ValidClock(t)
    ensures |clone| == |name| + |c.vmMiddle| + (if c.useShortSuffix then 7 else 16)
  {
    Waiter.ComposedName(name, c.vmMiddle, Config.ClearVmSuffix(c, t).vmSuffix)
  }

  /** How the loop over the VMs ends: all processed, the name-length guard, or an exception that ends the program. */
  datatype BatchEnd = AllProcessed | NameTooLong(clone: string) | Aborted

  datatype BatchRun = BatchRun(outcomes: seq<Outcome>, end: BatchEnd)

  /**
   The loop of `main` over prepared clone names and per-VM outcomes: the
   name-length guard is checked first, then the VM is backed up; an
   outcome that ends the program stops the loop.
   */
  function Steps(maxLength: int, clones: seq<string>, outcomes: seq<Outcome>): (b: BatchRun)
    requires |clones| == |outcomes|
    ensures |b.outcomes| <= |clones| && b.outcomes == outcomes[..|b.outcomes|]
    ensures forall i :: 0 <= i < |b.outcomes| ==> |clones[i]| <= maxLength
    ensures b.end.AllProcessed? ==> |b.outcomes| == |clones|
    ensures b.end.NameTooLong? ==> (|b.outcomes| < |clones|
      && b.end.clone == clones[|b.outcomes|] && |b.end.clone| > maxLength)
    ensures b.end.Aborted? ==> 0 < |b.outcomes| && Aborts(b.outcomes[|b.outcomes| - 1])
    ensures forall i :: 0 <= i < |b.outcomes| - 1 ==> !Aborts(b.outcomes[i])
    ensures !b.end.Aborted? ==> forall i :: 0 <= i < |b.outcomes| ==> !Aborts(b.outcomes[i])
  {
    if |clones| == 0 then BatchRun([], AllProcessed)
    else if |clones[0]| > maxLength then BatchRun([], NameTooLong(clones[0]))
    else if Aborts(outcomes[0]) then BatchRun([outcomes[0]], Aborted)
    else
      var rest := Steps(maxLength, clones[1..], outcomes[1..]);
      assert outcomes == [outcomes[0]] + outcomes[1..];
      BatchRun([outcomes[0]] + rest.outcomes, rest.end)
  }

  /** The clone name each VM gets from its clock reading. */
  function Clones(c: Config.Config, names: seq<string>, inputs: seq<VmInput>): (clones: seq<string>)
    requires |inputs| == |names| && ValidInputs(inputs)
    ensures |clones| == |names|
    ensures forall i :: 0 <= i < |names| ==> clones[i] == CloneName(c, names[i], inputs[i].clock)
  {
    seq(|names|, i requires 0 <= i < |names| && ValidInputs(inputs) => CloneName(c, names[i], inputs[i].clock))
  }

  /** The outcome of each VM's backup. */
  function Outcomes(c: Config.Config, inputs: seq<VmInput>): (outcomes: seq<Outcome>)
    ensures |outcomes| == |inputs|
    ensures forall i :: 0 <= i < |inputs| ==> outcomes[i] == RunVm(SettingsOf(c), inputs[i].obs).outcome
  {
    seq(|inputs|, i requires 0 <= i < |inputs| => RunVm(SettingsOf(c), inputs[i].obs).outcome)
  }

  /** The loop of `main` over the configured VMs. */
  function Loop(c: Config.Config, names: seq<string>, inputs: seq<VmInput>): (b: BatchRun)
    requires |inputs| == |names| && ValidInputs(inputs)
    ensures |b.outcomes| <= |names|
    ensures forall i :: 0 <= i < |b.outcomes| ==> b.outcomes[i] == RunVm(SettingsOf(c), inputs[i].obs).outcome
    ensures forall i :: 0 <= i < |b.outcomes| ==> |CloneName(c, names[i], inputs[i].clock)| <= c.vmNameMaxLength
    ensures b.end.AllProcessed? ==> |b.outcomes| == |names|
    ensures b.end.NameTooLong? ==> (|b.outcomes| < |names|
      && b.end.clone == CloneName(c, names[|b.outcomes|], inputs[|b.outcomes|].clock)
      && |b.end.clone| > c.vmNameMaxLength)
    ensures b.end.Aborted? ==> 0 < |b.outcomes| && Aborts(b.outcomes[|b.outcomes| - 1])
    ensures forall i :: 0 <= i < |b.outcomes| - 1 ==> !Aborts(b.outcomes[i])
    ensures !b.end.Aborted? ==> forall i :: 0 <= i < |b.outcomes| ==> !Aborts(b.outcomes[i])
  {
    LoopOutcomes(c, names, inputs);
    LoopGuard(c, names, inputs);
    Steps(c.vmNameMaxLength, Clones(c, names, inputs), Outcomes(c, inputs))
  }

  lemma LoopOutcomes(c: Config.Config, names: seq<string>, inputs: seq<VmInput>)
    requires |inputs| == |names| && ValidInputs(inputs)
    ensures var b := Steps(c.vmNameMaxLength, Clones(c, names, inputs), Outcomes(c, inputs));
      forall i :: 0 <= i < |b.outcomes| ==> b.outcomes[i] == RunVm(SettingsOf(c), inputs[i].obs).outcome
  {
    var outcomes := Outcomes(c, inputs);
    var b := Steps(c.vmNameMaxLength, Clones(c, names, inputs), outcomes);
    forall i | 0 <= i < |b.outcomes|
      ensures b.outcomes[i] == RunVm(SettingsOf(c), inputs[i].obs).outcome
    {
      assert b.outcomes[i] == outcomes[i];
    }
  }

  lemma LoopGuard(c: Config.Config, names: seq<string>, inputs: seq<VmInput>)
    requires |inputs| == |names| && ValidInputs(inputs)
    ensures var b := Steps(c.vmNameMaxLength, Clones(c, names, inputs), Outcomes(c, inputs));
      && (forall i :: 0 <= i < |b.outcomes| ==> |CloneName(c, names[i], inputs[i].clock)| <= c.vmNameMaxLength)
      && (b.end.NameTooLong? ==> (|b.outcomes| < |names|
        && b.end.clone == CloneName(c, names[|b.outcomes|], inputs[|b.outcomes|].clock)
        && |b.end.clone| > c.vmNameMaxLength))
  {
    var clones := Clones(c, names, inputs);
    var b := Steps(c.vmNameMaxLength, clones, Outcomes(c, inputs));
    forall i | 0 <= i < |b.outcomes|
      ensures |CloneName(c, names[i], inputs[i].clock)| <= c.vmNameMaxLength
    {
      assert clones[i] == CloneName(c, names[i], inputs[i].clock);
    }
  }

  /**
   `list.remove`: drops the first occurrence of `x`.  Python raises
   `ValueError` when `x` is absent; `main` removes only names taken from the
   same list, so that never happens there, and the model returns the list as it is.
   */
  function RemoveFirst(xs: seq<string>, x: string): (r: seq<string>)
    ensures multiset(r) == multiset(xs) - multiset{x}
    ensures x in xs ==> |r| == |xs| - 1
    ensures x !in xs ==> r == xs
  {
    if |xs| == 0 then []
    else if xs[0] == x then
      assert xs == [x] + xs[1..];
      xs[1..]
    else
      assert xs == [xs[0]] + xs[1..];
      [xs[0]] + RemoveFirst(xs[1..], x)
  }

  /** The occurrence `list.remove` drops is the first one; the rest keep their order. */
  lemma {:induction false} RemoveFirstAt(xs: seq<string>, x: string) returns (i: nat)
    requires x in xs
    ensures i < |xs| && xs[i] == x && x !in xs[..i]
    ensures RemoveFirst(xs, x) == xs[..i] + xs[i + 1..]
  {
    if xs[0] == x {
      RemoveFirstHead(xs, x);
      i := 0;
    } else {
      TailHas(xs, x);
      var j := RemoveFirstAt(xs[1..], x);
      RemoveFirstShift(xs, x, j);
      i := j + 1;
    }
  }

  /** `RemoveFirstAt` when `x` is the head. */
  lemma RemoveFirstHead(xs: seq<string>, x: string)
    requires |xs| > 0 && xs[0] == x
    ensures x !in xs[..0] && RemoveFirst(xs, x) == xs[..0] + xs[1..]
  {
    assert xs[..0] + xs[1..] == xs[1..];
  }

  /** A name in the list that is not its head is in its tail. */
  lemma TailHas(xs: seq<string>, x: string)
    requires x in xs && xs[0] != x
    ensures x in xs[1..]
  {
    assert xs == [xs[0]] + xs[1..];
  }

  /** One step of `RemoveFirstAt`: a head other than `x` stays in front. */
  lemma RemoveFirstShift(xs: seq<string>, x: string, j: nat)
    requires |xs| > 0 && xs[0] != x && j < |xs| - 1
    requires xs[1..][j] == x && x !in xs[1..][..j]
    requires RemoveFirst(xs[1..], x) == xs[1..][..j] + xs[1..][j + 1..]
    ensures xs[j + 1] == x && x !in xs[..j + 1]
    ensures RemoveFirst(xs, x) == xs[..j + 1] + xs[j + 2..]
  {
    ConsSplit(xs, j);
    assert RemoveFirst(xs, x) == [xs[0]] + (xs[1..][..j] + xs[1..][j + 1..]);
  }

  /** Cutting a list after position `j + 1` is cutting its tail after `j`. */
  lemma ConsSplit(xs: seq<string>, j: nat)
    requires j < |xs| - 1
    ensures xs[..j + 1] == [xs[0]] + xs[1..][..j]
    ensures xs[..j + 1] + xs[j + 2..] == [xs[0]] + (xs[1..][..j] + xs[1..][j + 1..])
  {
    assert xs[..j + 1] == [xs[0]] + xs[1..][..j];
    assert xs[j + 2..] == xs[1..][j + 1..];
  }

  /** The names of the VMs whose backup succeeded, in the order they were processed. */
  function Succeeded(names: seq<string>, outcomes: seq<Outcome>): (done: seq<string>)
    requires |outcomes| <= |names|
    ensures |done| <= |outcomes|
    ensures forall i :: 0 <= i < |outcomes| && outcomes[i] == Success ==> names[i] in done
    ensures forall x :: x in done ==> exists i :: 0 <= i < |outcomes| && outcomes[i] == Success && names[i] == x
    ensures forall x :: x in done ==> x in names
  {
    if |outcomes| == 0 then []
    else
      var n := |outcomes| - 1;
      var before := Succeeded(names, outcomes[..n]);
      assert forall i :: 0 <= i < n ==> outcomes[..n][i] == outcomes[i];
      before + (if outcomes[n] == Success then [names[n]] else [])
  }

  /** `vms_with_failures` after the loop: each success removes one occurrence of its name. */
  function Failures(list: seq<string>, done: seq<string>): (r: seq<string>)
    ensures multiset(r) == multiset(list) - multiset(done)
  {
    if |done| == 0 then list
    else
      var last := |done| - 1;
      assert done == done[..last] + [done[last]];
      RemoveFirst(Failures(list, done[..last]), done[last])
  }

  /** Whether some processed VM set `has_errors`. */
  predicate HasErrors(outcomes: seq<Outcome>)
  {
    exists i :: 0 <= i < |outcomes| && SetsErrors(outcomes[i])
  }

  /** The whole program after the configuration is loaded. */
  datatype MainRun =
    | Rejected(failure: PrecheckFailure)
    | Ran(batch: BatchRun, failures: seq<string>, exitCode: int)

  /**
   The VM list `main` works on: `--all-vms` replaces the configured list
   with every VM the engine lists, then `--vm-tag` with the tagged ones.
   */
  function SelectVms(c: Config.Config, allVms: Option<seq<string>>, tagged: Option<seq<string>>): (c': Config.Config)
    ensures c'.vmNames == if tagged.Some? then tagged.value else if allVms.Some? then allVms.value else c.vmNames
    ensures c'.vmMiddle == c.vmMiddle && c'.vmNameMaxLength == c.vmNameMaxLength
  {
    var c1 := if allVms.Some? then Config.SetVmNames(c, allVms.value) else c;
    if tagged.Some? then Config.SetVmNames(c1, tagged.value) else c1
  }

  /** `main` from the checks to the exit status. */
  function Main(c: Config.Config, inv: Inventory, inputs: seq<VmInput>): (m: MainRun)
    requires |inputs| == |c.vmNames| && ValidInputs(inputs)
    ensures m.Rejected? <==> Precheck(c, inv).Some?
    ensures m.Ran? ==> m.batch == Loop(c, c.vmNames, inputs)
    ensures m.Ran? ==> (m.exitCode == 0 || m.exitCode == 1)
    ensures m.Ran? ==> (m.exitCode == 0 <==> m.batch.end.AllProcessed? && !HasErrors(m.batch.outcomes))
    ensures m.Ran? ==> multiset(m.failures) == multiset(c.vmNames) - multiset(Succeeded(c.vmNames, m.batch.outcomes))
  {
    match Precheck(c, inv)
    case Some(f) => Rejected(f)
    case None =>
      var b := Loop(c, c.vmNames, inputs);
      var code := if !b.end.AllProcessed? || HasErrors(b.outcomes) then 1 else 0;
      Ran(b, Failures(c.vmNames, Succeeded(c.vmNames, b.outcomes)), code)
  }

  /** The exit status of the process: 1 after a failed check, otherwise as the batch decides. */
  function ExitStatus(m: MainRun): int
  {
    if m.Rejected? then 1 else m.exitCode
  }

  /**
   A VM that vanished or lost the connection stays on the failure list but
   does not make the exit status non-zero.
   */
  lemma UnhandledFailureExitsZero(c: Config.Config, inv: Inventory, inputs: seq<VmInput>)
    requires |inputs| == |c.vmNames| && ValidInputs(inputs)
    requires Precheck(c, inv).None?
    requires forall i :: 0 <= i < |c.vmNames| ==> |CloneName(c, c.vmNames[i], inputs[i].clock)| <= c.vmNameMaxLength
    requires forall i :: 0 <= i < |inputs| ==>
      RunVm(SettingsOf(c), inputs[i].obs).outcome in {Success, Vanished, ConnectionLost}
    ensures var m := Main(c, inv, inputs);
      && ExitStatus(m) == 0
      && multiset(m.failures) == multiset(c.vmNames) - multiset(Succeeded(c.vmNames, m.batch.outcomes))
  {
    var outcomes := Outcomes(c, inputs);
    UnhandledOutcomes(c, inputs);
    LoopAll(c, c.vmNames, inputs);
    MainExitsZero(c, inv, inputs, outcomes);
    assert Main(c, inv, inputs).Ran?;
  }

  /** Success, a vanished VM and a lost connection neither end the loop nor set the error flag. */
  lemma UnhandledOutcomes(c: Config.Config, inputs: seq<VmInput>)
    requires ValidInputs(inputs)
    requires forall i :: 0 <= i < |inputs| ==>
      RunVm(SettingsOf(c), inputs[i].obs).outcome in {Success, Vanished, ConnectionLost}
    ensures forall i :: 0 <= i < |inputs| ==> !Aborts(Outcomes(c, inputs)[i]) && !SetsErrors(Outcomes(c, inputs)[i])
  {
    var outcomes := Outcomes(c, inputs);
    forall i | 0 <= i < |inputs|
      ensures !Aborts(outcomes[i]) && !SetsErrors(outcomes[i])
    {
      assert outcomes[i] in {Success, Vanished, ConnectionLost};
    }
  }

  /** A run that processed every VM without an outcome that sets the error flag exits with status 0. */
  lemma MainExitsZero(c: Config.Config, inv: Inventory, inputs: seq<VmInput>, outcomes: seq<Outcome>)
    requires |inputs| == |c.vmNames| && ValidInputs(inputs)
    requires Precheck(c, inv).None?
    requires Loop(c, c.vmNames, inputs) == BatchRun(outcomes, AllProcessed)
    requires forall i :: 0 <= i < |outcomes| ==> !SetsErrors(outcomes[i])
    ensures ExitStatus(Main(c, inv, inputs)) == 0
  {
    assert !HasErrors(outcomes);
  }

  /** When every clone name fits and no VM ends the program, the loop processes every VM. */
  lemma LoopAll(c: Config.Config, names: seq<string>, inputs: seq<VmInput>)
    requires |inputs| == |names| && ValidInputs(inputs)
    requires forall i :: 0 <= i < |names| ==> |CloneName(c, names[i], inputs[i].clock)| <= c.vmNameMaxLength
    requires forall i :: 0 <= i < |inputs| ==> !Aborts(Outcomes(c, inputs)[i])
    ensures Loop(c, names, inputs) == BatchRun(Outcomes(c, inputs), AllProcessed)
  {
    var clones := Clones(c, names, inputs);
    var outcomes := Outcomes(c, inputs);
    var b := Steps(c.vmNameMaxLength, clones, outcomes);
    assert forall i :: 0 <= i < |clones| ==> |clones[i]| <= c.vmNameMaxLength;
    assert !b.end.NameTooLong?;
    assert !b.end.Aborted?;
    assert b.outcomes == outcomes;
  }

  /**
   The name-length guard runs inside the loop: when the first clone name
   that is too long belongs to VM `i`, the VMs before it have already been
   backed up; a name exactly as long as the limit passes.
   */
  lemma NameGuardStopsAt(c: Config.Config, names: seq<string>, inputs: seq<VmInput>, i: nat)
    requires |inputs| == |names| && ValidInputs(inputs) && i < |names|
    requires forall j :: 0 <= j < i ==> (|CloneName(c, names[j], inputs[j].clock)| <= c.vmNameMaxLength
      && !Aborts(RunVm(SettingsOf(c), inputs[j].obs).outcome))
    requires |CloneName(c, names[i], inputs[i].clock)| > c.vmNameMaxLength
    ensures Loop(c, names, inputs) == BatchRun(Outcomes(c, inputs)[..i], NameTooLong(CloneName(c, names[i], inputs[i].clock)))
  {
    StepsStopAt(c.vmNameMaxLength, Clones(c, names, inputs), Outcomes(c, inputs), i);
  }

  lemma {:induction false} StepsStopAt(maxLength: int, clones: seq<string>, outcomes: seq<Outcome>, i: nat)
    requires |clones| == |outcomes| && i < |clones|
    requires forall j :: 0 <= j < i ==> |clones[j]| <= maxLength && !Aborts(outcomes[j])
    requires |clones[i]| > maxLength
    ensures Steps(maxLength, clones, outcomes) == BatchRun(outcomes[..i], NameTooLong(clones[i]))
    decreases i
  {
    if i > 0 {
      StepsStopAt(maxLength, clones[1..], outcomes[1..], i - 1);
      assert outcomes[..i] == [outcomes[0]] + outcomes[1..][..i - 1];
    }
  }

  /**
   A single VM whose first step loses the connection: `main` reconnects and
   moves on, the VM stays on the failure list, and the exit status is 0.
   */
  lemma ConnectionLossExample(c: Config.Config, inv: Inventory, t: Config.Clock, o: VmObs)
    requires c.vmNames == ["web"] && Precheck(c, inv).None? && Config.ValidClock(t)
    requires |CloneName(c, "web", t)| <= c.vmNameMaxLength
    requires o.fault == Some(Fault(CleanupClone, ConnectionFailure))
    ensures var m := Main(c, inv, [VmInput(t, o)]);
      ExitStatus(m) == 0 && m.failures == ["web"] && m.batch.outcomes == [ConnectionLost]
  {
    var inputs := [VmInput(t, o)];
    FirstStepLost(SettingsOf(c), o);
    var outcomes := Outcomes(c, inputs);
    assert outcomes == [ConnectionLost];
    LoopAll(c, c.vmNames, inputs);
    MainExitsZero(c, inv, inputs, outcomes);
    assert Succeeded(c.vmNames, outcomes) == [];
  }

  lemma FirstStepLost(s: Settings, o: VmObs)
    requires o.fault == Some(Fault(CleanupClone, ConnectionFailure))
    ensures RunVm(s, o).outcome == ConnectionLost
  {
    assert Schedule[0] == CleanupClone;
    assert StepOf(CleanupClone, s, o) == Stop(ConnectionLost, true);
  }
}

=== FILE: clone_cleanup.dfy ===
/**
 `VMTools.delete_vm`: removes the clones a backup run left behind.  The
 engine's search result is a parameter: for each VM the search returned,
 its name and whether it still existed when looked up again.
 */
module CloneCleanup {

  import Waiter

  /** One VM returned by the search, and whether the later lookup by name still found it. */
  datatype Found = Found(name: string, stillThere: bool)

  /**
   A changing call into the engine made for one clone, or the wait after
   it.  The search and the lookup by name, which change nothing, are not
   recorded: the search happens in dry-run too.
   */
  datatype VmCall = Unprotect(name: string) | Delete(name: string) | AwaitGone(name: string)

  /** The search the engine is asked for: a name prefix followed by the wildcard. */
  function SearchQuery(vmName: string, middle: string): (q: string)
    ensures |q| == 6 + |vmName| + |middle|
    ensures q[..5] == "name=" && q[|q| - 1] == '*'
    ensures q[5..|q| - 1] == vmName + middle
  {
    "name=" + vmName + middle + "*"
  }

  /**
   The search matches every clone of this VM, whatever suffix the run that
   created it used: the text between `name=` and `*` is a prefix of the
   composed clone name.
   */
  lemma QueryCoversClone(vmName: string, middle: string, suffix: string)
    ensures var q := SearchQuery(vmName, middle);
      q[5..|q| - 1] <= Waiter.ComposedName(vmName, middle, suffix)
  {
    var q := SearchQuery(vmName, middle);
    var c := Waiter.ComposedName(vmName, middle, suffix);
    assert c == (vmName + middle) + suffix;
  }

  /** The calls made for one VM in live mode: a VM that is gone is skipped; one still there is unprotected, deleted, and waited for. */
  function Block(f: Found): seq<VmCall>
  {
    if f.stillThere then [Unprotect(f.name), Delete(f.name), AwaitGone(f.name)] else []
  }

  function LiveCalls(found: seq<Found>): seq<VmCall>
  {
    if |found| == 0 then [] else Block(found[0]) + LiveCalls(found[1..])
  }

  /** A clone is deleted exactly when the search returned it and it was still there. */
  lemma {:induction false} LiveDeletes(found: seq<Found>)
    ensures forall x :: Delete(x) in LiveCalls(found) <==> Found(x, true) in found
  {
    if |found| > 0 {
      LiveDeletes(found[1..]);
      assert found == [found[0]] + found[1..];
      assert LiveCalls(found) == Block(found[0]) + LiveCalls(found[1..]);
    }
  }

  /** Every deletion is preceded by lifting the delete protection and followed by the wait until the VM is gone. */
  predicate Guarded(calls: seq<VmCall>)
  {
    forall k :: 0 <= k < |calls| && calls[k].Delete? ==>
      1 <= k < |calls| - 1 && calls[k - 1] == Unprotect(calls[k].name) && calls[k + 1] == AwaitGone(calls[k].name)
  }

  lemma {:induction false} LiveOrder(found: seq<Found>)
    ensures Guarded(LiveCalls(found))
  {
    if |found| > 0 {
      LiveOrder(found[1..]);
      var b := Block(found[0]);
      var rest := LiveCalls(found[1..]);
      var calls := LiveCalls(found);
      assert calls == b + rest;
      forall k | 0 <= k < |calls| && calls[k].Delete?
        ensures 1 <= k < |calls| - 1 && calls[k - 1] == Unprotect(calls[k].name) && calls[k + 1] == AwaitGone(calls[k].name)
      {
        if k >= |b| {
          var j := k - |b|;
          assert calls[k] == rest[j];
          assert rest[j].Delete?;
          assert 1 <= j < |rest| - 1;
          assert calls[k - 1] == rest[j - 1];
          assert calls[k + 1] == rest[j + 1];
        }
      }
    }
  }

  /**
   The outcome of one call: the query sent, the engine calls made, whether
   `done` was set (which logs "Cloned VM deleted").
   */
  datatype Cleanup = Cleanup(query: string, calls: seq<VmCall>, done: bool)

  function DeleteVm(vmName: string, middle: string, dryRun: bool, found: seq<Found>): (r: Cleanup)
    ensures r.query == "name=" + vmName + middle + "*"
    ensures dryRun ==> r.calls == [] && !r.done
    ensures !dryRun ==> (r.done <==> |found| > 0)
    ensures !dryRun ==> forall x :: Delete(x) in r.calls <==> Found(x, true) in found
    ensures Guarded(r.calls)
  {
    LiveOrder(found);
    LiveDeletes(found);
    Cleanup(SearchQuery(vmName, middle), if dryRun then [] else LiveCalls(found), !dryRun && |found| > 0)
  }
}

=== FILE: config.dfy ===
/**
 The configuration object of `config.py`: the `[config]` section of the
 file with command-line values written over it, the typed options read
 from it, the clone-name suffix, the keep counts and the rewrite of the
 `vm_names` line when the list of VMs is replaced.
 */
module Config {

  import opened Wrappers
  import opened Strings
  import opened Decimal
  import opened JsonString
  import opened VmNamesJson
  import opened ReTemplate

  /** Raw option text of the `[config]` section, keyed by (lower-case) option name. */
  type Section = map<string, string>

  /** Parser defaults; `None` is Python's `None`. */
  type Defaults = map<string, Option<string>>

  /** The defaults `config.py` gives the parser. */
  const BuiltinDefaults: Defaults :=
    map[
      "logger_fmt" := Some("%(asctime)s: %(message)s"),
      "logger_file_path" := None,
      "persist_memorystate" := Some("false")
    ]

  /** A command-line value after parsing: `Absent` is `None`, `Flag` a boolean switch. */
  datatype CliValue = Absent | Text(text: string) | Flag(on: bool)

  /** `str(val)` of a value that is not `None`. */
  function CliString(v: CliValue): string
    requires !v.Absent?
  {
    match v
    case Text(t) => t
    case Flag(b) => if b then "True" else "False"
  }

  predicate Given(args: map<string, CliValue>, key: string)
  {
    key in args && !args[key].Absent?
  }

  /**
   Why the configuration cannot be built.  `MissingSection` and
   `MissingOption` are caught and end the process with `sys.exit(1)`;
   `BadValue` is the `ValueError` of an int, float, boolean or JSON
   conversion, which is not caught.  `BadReplacement` is the `re.error`
   that `write_update` meets when its replacement is no valid template.
   */
  datatype LoadError = MissingSection | MissingOption(key: string) | BadValue(key: string) | BadReplacement

  /** The file's section with every non-`None` command-line value written over it. */
  function Override(file: Section, args: map<string, CliValue>): (merged: Section)
    ensures forall k :: k in merged <==> k in file || Given(args, k)
    ensures forall k :: Given(args, k) ==> merged[k] == CliString(args[k])
    ensures forall k :: k in file && !Given(args, k) ==> merged[k] == file[k]
  {
    file + map k | k in args && !args[k].Absent? :: CliString(args[k])
  }

  /** `RawConfigParser.get`: the section's value, else the default, else `NoOptionError`. */
  function Get(defaults: Defaults, s: Section, key: string): Result<Option<string>, LoadError>
  {
    if key in s then Ok(Some(s[key]))
    else if key in defaults then Ok(defaults[key])
    else Err(MissingOption(key))
  }

  function GetText(defaults: Defaults, s: Section, key: string): Result<string, LoadError>
  {
    var v :- Get(defaults, s, key);
    if v.Some? then Ok(v.value) else Err(BadValue(key))
  }

  /** `RawConfigParser.getint`. */
  function GetInt(defaults: Defaults, s: Section, key: string): Result<int, LoadError>
  {
    var t :- GetText(defaults, s, key);
    match ParseInt(t)
    case Some(n) => Ok(n)
    case None => Err(BadValue(key))
  }

  const TrueWords: set<string> := {"1", "yes", "true", "on"}
  const FalseWords: set<string> := {"0", "no", "false", "off"}

  /** The words `RawConfigParser.getboolean` accepts, in any letter case. */
  function ParseBool(t: string): Option<bool>
  {
    var w := Lower(t);
    if w in TrueWords then Some(true)
    else if w in FalseWords then Some(false)
    else None
  }

  function GetBool(defaults: Defaults, s: Section, key: string): Result<bool, LoadError>
  {
    var t :- GetText(defaults, s, key);
    match ParseBool(t)
    case Some(b) => Ok(b)
    case None => Err(BadValue(key))
  }

  /**
   `float(t)` on decimals: whitespace is stripped, then an optional sign
   and digits with at most one point, at least one digit in all.
   */
  function ParseReal(t: string): Option<real>
  {
    ParseSignedReal(Strip(t))
  }

  /** `float` on text already stripped of whitespace. */
  function ParseSignedReal(u: string): Option<real>
  {
    if |u| > 0 && u[0] == '-' then
      match ParseUnsigned(u[1..])
      case Some(x) => Some(-x)
      case None => None
    else if |u| > 0 && u[0] == '+' then ParseUnsigned(u[1..])
    else ParseUnsigned(u)
  }

  /** The value of the digits `whole` and `fraction` either side of a point. */
  function DecimalValue(whole: string, fraction: string): real
    requires AllDigits(whole) && AllDigits(fraction)
  {
    DigitsValue(whole) as real + DigitsValue(fraction) as real / Pow10(|fraction|) as real
  }

  function ParseUnsigned(t: string): Option<real>
  {
    var dot := IndexOf(t, '.', 0);
    var whole := t[..dot];
    var fraction := if dot < |t| then t[dot + 1..] else "";
    if !AllDigits(whole) || !AllDigits(fraction) || |whole| + |fraction| == 0 then None
    else Some(DecimalValue(whole, fraction))
  }

  /** In digits, a point and digits, the point is the first one. */
  lemma PointAt(whole: string, fraction: string)
    requires AllDigits(whole)
    ensures var t := whole + "." + fraction;
      && IndexOf(t, '.', 0) == |whole|
      && t[..|whole|] == whole && t[|whole| + 1..] == fraction
  {
    var t := whole + "." + fraction;
    forall j | 0 <= j < |whole|
      ensures t[j] != '.'
    {
      assert t[j] == whole[j];
    }
    assert t[|whole|] == '.';
  }

  /**
   Digits with a point read as their value whichever side of the point is
   empty (`5.`, `.5`); only the bare point is rejected.
   */
  lemma UnsignedPoint(whole: string, fraction: string)
    requires AllDigits(whole) && AllDigits(fraction)
    ensures ParseUnsigned(whole + "." + fraction) == if |whole| + |fraction| == 0 then None else Some(DecimalValue(whole, fraction))
  {
    PointAt(whole, fraction);
  }

  /** Digits alone read as their integer value. */
  lemma UnsignedDigits(whole: string)
    requires |whole| > 0 && AllDigits(whole)
    ensures ParseUnsigned(whole) == Some(DigitsValue(whole) as real)
  {
    var k := IndexOf(whole, '.', 0);
    if k < |whole| {
      assert false;
    }
    assert whole[..k] == whole;
    assert DigitsValue("") == 0 && Pow10(0) == 1;
    assert DecimalValue(whole, "") == DigitsValue(whole) as real;
  }

  /** Whitespace around the number does not change what `float` reads. */
  lemma ParseRealPadded(w1: string, t: string, w2: string)
    requires AllSpace(w1) && AllSpace(w2)
    ensures ParseReal(w1 + t + w2) == ParseReal(t)
  {
    StripPadded(w1, t, w2);
  }

  function GetReal(defaults: Defaults, s: Section, key: string): Result<real, LoadError>
  {
    var t :- GetText(defaults, s, key);
    match ParseReal(t)
    case Some(x) => Ok(x)
    case None => Err(BadValue(key))
  }

  /** `json.loads` of the `vm_names` option. */
  function GetVmNames(defaults: Defaults, s: Section): Result<seq<string>, LoadError>
  {
    var t :- GetText(defaults, s, "vm_names");
    match ParseList(t)
    case Some(names) => Ok(names)
    case None => Err(BadValue("vm_names"))
  }

  datatype Config = Config(
    section: Section,
    vmNames: seq<string>,
    vmMiddle: string,
    vmSuffix: string,
    server: string,
    username: string,
    password: string,
    snapshotDescription: string,
    clusterName: string,
    exportDomain: string,
    timeout: int,
    backupKeepCount: string,
    backupKeepCountByNumber: string,
    dryRun: bool,
    debug: bool,
    vmNameMaxLength: int,
    useShortSuffix: bool,
    storageDomain: string,
    storageSpaceThreshold: real,
    loggerFmt: string,
    loggerFilePath: Option<string>,
    persistMemorystate: bool)

  /** The options the constructor reads first: names, connection, placement. */
  datatype Naming = Naming(
    vmNames: seq<string>, vmMiddle: string, server: string, username: string,
    password: string, snapshotDescription: string, clusterName: string, exportDomain: string)

  /** The options read next: timing, retention, run mode, name length. */
  datatype Policy = Policy(
    timeout: int, backupKeepCount: string, backupKeepCountByNumber: string,
    dryRun: bool, vmNameMaxLength: int, useShortSuffix: bool)

  /** The options read last: storage check, logging, memory state. */
  datatype Storage = Storage(
    storageDomain: string, storageSpaceThreshold: real, loggerFmt: string,
    loggerFilePath: Option<string>, persistMemorystate: bool)

  function ReadNaming(d: Defaults, s: Section): (r: Result<Naming, LoadError>)
    ensures r.Ok? ==> GetVmNames(d, s) == Ok(r.value.vmNames)
    ensures r.Ok? ==> GetText(d, s, "vm_middle") == Ok(r.value.vmMiddle)
    ensures r.Ok? ==> GetText(d, s, "server") == Ok(r.value.server)
    ensures r.Ok? ==> GetText(d, s, "username") == Ok(r.value.username)
    ensures r.Ok? ==> GetText(d, s, "password") == Ok(r.value.password)
    ensures r.Ok? ==> GetText(d, s, "snapshot_description") == Ok(r.value.snapshotDescription)
    ensures r.Ok? ==> GetText(d, s, "cluster_name") == Ok(r.value.clusterName)
    ensures r.Ok? ==> GetText(d, s, "export_domain") == Ok(r.value.exportDomain)
  {
    var vmNames :- GetVmNames(d, s);
    var vmMiddle :- GetText(d, s, "vm_middle");
    var server :- GetText(d, s, "server");
    var username :- GetText(d, s, "username");
    var password :- GetText(d, s, "password");
    var snapshotDescription :- GetText(d, s, "snapshot_description");
    var clusterName :- GetText(d, s, "cluster_name");
    var exportDomain :- GetText(d, s, "export_domain");
    Ok(Naming(vmNames, vmMiddle, server, username, password, snapshotDescription, clusterName, exportDomain))
  }

  function ReadPolicy(d: Defaults, s: Section): (r: Result<Policy, LoadError>)
    ensures r.Ok? ==> GetInt(d, s, "timeout") == Ok(r.value.timeout)
    ensures r.Ok? ==> GetText(d, s, "backup_keep_count") == Ok(r.value.backupKeepCount)
    ensures r.Ok? ==> GetText(d, s, "backup_keep_count_by_number") == Ok(r.value.backupKeepCountByNumber)
    ensures r.Ok? ==> GetBool(d, s, "dry_run") == Ok(r.value.dryRun)
    ensures r.Ok? ==> GetInt(d, s, "vm_name_max_length") == Ok(r.value.vmNameMaxLength)
    ensures r.Ok? ==> GetBool(d, s, "use_short_suffix") == Ok(r.value.useShortSuffix)
  {
    var timeout :- GetInt(d, s, "timeout");
    var backupKeepCount :- GetText(d, s, "backup_keep_count");
    var backupKeepCountByNumber :- GetText(d, s, "backup_keep_count_by_number");
    var dryRun :- GetBool(d, s, "dry_run");
    var vmNameMaxLength :- GetInt(d, s, "vm_name_max_length");
    var useShortSuffix :- GetBool(d, s, "use_short_suffix");
    Ok(Policy(timeout, backupKeepCount, backupKeepCountByNumber, dryRun, vmNameMaxLength, useShortSuffix))
  }

  function ReadStorage(d: Defaults, s: Section): (r: Result<Storage, LoadError>)
    ensures r.Ok? ==> GetText(d, s, "storage_domain") == Ok(r.value.storageDomain)
    ensures r.Ok? ==> GetReal(d, s, "storage_space_threshold") == Ok(r.value.storageSpaceThreshold)
    ensures r.Ok? ==> GetText(d, s, "logger_fmt") == Ok(r.value.loggerFmt)
    ensures r.Ok? ==> Get(d, s, "logger_file_path") == Ok(r.value.loggerFilePath)
    ensures r.Ok? ==> GetBool(d, s, "persist_memorystate") == Ok(r.value.persistMemorystate)
  {
    var storageDomain :- GetText(d, s, "storage_domain");
    var storageSpaceThreshold :- GetReal(d, s, "storage_space_threshold");
    var loggerFmt :- GetText(d, s, "logger_fmt");
    var loggerFilePath :- Get(d, s, "logger_file_path");
    var persistMemorystate :- GetBool(d, s, "persist_memorystate");
    Ok(Storage(storageDomain, storageSpaceThreshold, loggerFmt, loggerFilePath, persistMemorystate))
  }

  /**
   `Config.__init__` with the given parser defaults: override the file's
   section with the command line, then read every option in the order
   the constructor reads them; the first one that fails decides the error.
   `file` is `None` when the file has no `[config]` section.
   */
  function LoadWith(defaults: Defaults, file: Option<Section>, debug: bool, args: map<string, CliValue>): (r: Result<Config, LoadError>)
    ensures r.Ok? ==> file.Some? && r.value.section == Override(file.value, args) && r.value.vmSuffix == "_"
  {
    if file.None? then Err(MissingSection)
    else
      var s := Override(file.value, args);
      var n :- ReadNaming(defaults, s);
      var p :- ReadPolicy(defaults, s);
      var t :- ReadStorage(defaults, s);
      Ok(Assemble(s, n, p, t, debug))
  }

  function Assemble(s: Section, n: Naming, p: Policy, t: Storage, debug: bool): Config
  {
    Config(s, n.vmNames, n.vmMiddle, "_", n.server, n.username, n.password,
           n.snapshotDescription, n.clusterName, n.exportDomain, p.timeout,
           p.backupKeepCount, p.backupKeepCountByNumber, p.dryRun, debug,
           p.vmNameMaxLength, p.useShortSuffix, t.storageDomain,
           t.storageSpaceThreshold, t.loggerFmt, t.loggerFilePath, t.persistMemorystate)
  }

  /** A loaded configuration is assembled from the three successful reading stages. */
  lemma LoadParts(defaults: Defaults, file: Option<Section>, debug: bool, args: map<string, CliValue>, c: Config)
    requires LoadWith(defaults, file, debug, args) == Ok(c)
    ensures file.Some?
    ensures var s := Override(file.value, args);
            && ReadNaming(defaults, s).Ok? && ReadPolicy(defaults, s).Ok? && ReadStorage(defaults, s).Ok?
            && c == Assemble(s, ReadNaming(defaults, s).value, ReadPolicy(defaults, s).value, ReadStorage(defaults, s).value, debug)
  {
  }

  /** `Config.__init__` as written. */
  function Load(file: Option<Section>, debug: bool, args: map<string, CliValue>): Result<Config, LoadError>
  {
    LoadWith(BuiltinDefaults, file, debug, args)
  }

  /** The text-valued options, by name. */
  function TextOption(c: Config, key: string): Option<string>
  {
    match key
    case "vm_middle" => Some(c.vmMiddle)
    case "server" => Some(c.server)
    case "username" => Some(c.username)
    case "password" => Some(c.password)
    case "snapshot_description" => Some(c.snapshotDescription)
    case "cluster_name" => Some(c.clusterName)
    case "export_domain" => Some(c.exportDomain)
    case "backup_keep_count" => Some(c.backupKeepCount)
    case "backup_keep_count_by_number" => Some(c.backupKeepCountByNumber)
    case "storage_domain" => Some(c.storageDomain)
    case "logger_fmt" => Some(c.loggerFmt)
    case _ => None
  }

  lemma LoadedText(defaults: Defaults, file: Option<Section>, debug: bool, args: map<string, CliValue>, c: Config, key: string)
    requires LoadWith(defaults, file, debug, args) == Ok(c)
    requires TextOption(c, key).Some?
    ensures file.Some? && c.section == Override(file.value, args)
    ensures GetText(defaults, c.section, key) == Ok(TextOption(c, key).value)
  {
    LoadParts(defaults, file, debug, args, c);
    var s := Override(file.value, args);
    var n := ReadNaming(defaults, s).value;
    var p := ReadPolicy(defaults, s).value;
    var t := ReadStorage(defaults, s).value;
    if key in {"vm_middle", "server", "username", "password", "snapshot_description", "cluster_name", "export_domain"} {
      NamingText(defaults, s, n, p, t, debug, key);
    } else if key in {"backup_keep_count", "backup_keep_count_by_number"} {
      PolicyText(defaults, s, n, p, t, debug, key);
    } else {
      StorageText(defaults, s, n, p, t, debug, key);
    }
  }

  lemma NamingText(d: Defaults, s: Section, n: Naming, p: Policy, t: Storage, debug: bool, key: string)
    requires ReadNaming(d, s) == Ok(n)
    requires key in {"vm_middle", "server", "username", "password", "snapshot_description", "cluster_name", "export_domain"}
    ensures TextOption(Assemble(s, n, p, t, debug), key).Some?
    ensures GetText(d, s, key) == Ok(TextOption(Assemble(s, n, p, t, debug), key).value)
  {
  }

  lemma PolicyText(d: Defaults, s: Section, n: Naming, p: Policy, t: Storage, debug: bool, key: string)
    requires GetText(d, s, "backup_keep_count") == Ok(p.backupKeepCount)
    requires GetText(d, s, "backup_keep_count_by_number") == Ok(p.backupKeepCountByNumber)
    requires key in {"backup_keep_count", "backup_keep_count_by_number"}
    ensures TextOption(Assemble(s, n, p, t, debug), key).Some?
    ensures GetText(d, s, key) == Ok(TextOption(Assemble(s, n, p, t, debug), key).value)
  {
  }

  lemma StorageText(d: Defaults, s: Section, n: Naming, p: Policy, t: Storage, debug: bool, key: string)
    requires GetText(d, s, "storage_domain") == Ok(t.storageDomain)
    requires GetText(d, s, "logger_fmt") == Ok(t.loggerFmt)
    requires key in {"storage_domain", "logger_fmt"}
    ensures TextOption(Assemble(s, n, p, t, debug), key).Some?
    ensures GetText(d, s, key) == Ok(TextOption(Assemble(s, n, p, t, debug), key).value)
  {
  }

  /**
   Every command-line value that is not `None` replaces the file's value
   of that option; an option the command line leaves `None` keeps the
   file's value.
   */
  lemma CliOverridesFile(defaults: Defaults, file: Section, debug: bool, args: map<string, CliValue>, c: Config, key: string)
    requires LoadWith(defaults, Some(file), debug, args) == Ok(c)
    requires TextOption(c, key).Some?
    ensures Given(args, key) ==> TextOption(c, key) == Some(CliString(args[key]))
    ensures !Given(args, key) && key in file ==> TextOption(c, key) == Some(file[key])
  {
    LoadedText(defaults, Some(file), debug, args, c, key);
  }

  /**
   `persist_memorystate` is true exactly when the command line, else the
   file, else the default `"false"` spells a true word.
   */
  lemma PersistMemorystate(file: Section, debug: bool, args: map<string, CliValue>, c: Config)
    requires Load(Some(file), debug, args) == Ok(c)
    ensures var text := if Given(args, "persist_memorystate") then CliString(args["persist_memorystate"])
                        else if "persist_memorystate" in file then file["persist_memorystate"]
                        else "false";
            c.persistMemorystate <==> Lower(text) in TrueWords
  {
    LoadParts(BuiltinDefaults, Some(file), debug, args, c);
    var s := Override(file, args);
    var text := if Given(args, "persist_memorystate") then CliString(args["persist_memorystate"])
                else if "persist_memorystate" in file then file["persist_memorystate"]
                else "false";
    PersistText(file, args);
    BoolWord(BuiltinDefaults, s, "persist_memorystate", text, c.persistMemorystate);
  }

  /** The text `getboolean("persist_memorystate")` reads: command line, else file, else the default. */
  lemma PersistText(file: Section, args: map<string, CliValue>)
    ensures var text := if Given(args, "persist_memorystate") then CliString(args["persist_memorystate"])
                        else if "persist_memorystate" in file then file["persist_memorystate"]
                        else "false";
            GetText(BuiltinDefaults, Override(file, args), "persist_memorystate") == Ok(text)
  {
    assert BuiltinDefaults["persist_memorystate"] == Some("false");
  }

  lemma BoolWord(d: Defaults, s: Section, key: string, text: string, b: bool)
    requires GetText(d, s, key) == Ok(text) && GetBool(d, s, key) == Ok(b)
    ensures b <==> Lower(text) in TrueWords
  {
  }

  const NamingOptions: set<string> :=
    {"vm_names", "vm_middle", "server", "username", "password", "snapshot_description", "cluster_name", "export_domain"}
  const PolicyOptions: set<string> :=
    {"timeout", "backup_keep_count", "backup_keep_count_by_number", "dry_run", "vm_name_max_length", "use_short_suffix"}
  const StorageOptions: set<string> := {"storage_domain", "storage_space_threshold"}

  /** The options the constructor reads that have no default. */
  const RequiredOptions: set<string> := NamingOptions + PolicyOptions + StorageOptions

  lemma NamingNeeds(d: Defaults, s: Section, key: string)
    requires key in NamingOptions && key !in s && key !in d
    ensures ReadNaming(d, s).Err?
  {
    assert GetText(d, s, key).Err?;
    assert key == "vm_names" ==> GetVmNames(d, s).Err?;
  }

  lemma PolicyNeeds(d: Defaults, s: Section, key: string)
    requires key in PolicyOptions && key !in s && key !in d
    ensures ReadPolicy(d, s).Err?
  {
    MissingRejected(d, s, key);
    if ReadPolicy(d, s).Ok? {
      PolicyTexts(d, s);
      PolicyKey(key);
      assert false;
    }
  }

  lemma PolicyKey(key: string)
    requires key in PolicyOptions
    ensures key == "timeout" || key == "backup_keep_count" || key == "backup_keep_count_by_number"
      || key == "dry_run" || key == "vm_name_max_length" || key == "use_short_suffix"
  {
  }

  /** A policy that reads has every one of its options present. */
  lemma PolicyTexts(d: Defaults, s: Section)
    requires ReadPolicy(d, s).Ok?
    ensures Get(d, s, "timeout").Ok? && Get(d, s, "backup_keep_count").Ok?
    ensures Get(d, s, "backup_keep_count_by_number").Ok? && Get(d, s, "dry_run").Ok?
    ensures Get(d, s, "vm_name_max_length").Ok? && Get(d, s, "use_short_suffix").Ok?
  {
    var p := ReadPolicy(d, s).value;
    IntPresent(d, s, "timeout");
    IntPresent(d, s, "vm_name_max_length");
    BoolPresent(d, s, "dry_run");
    BoolPresent(d, s, "use_short_suffix");
  }

  lemma IntPresent(d: Defaults, s: Section, key: string)
    requires GetInt(d, s, key).Ok?
    ensures Get(d, s, key).Ok?
  {
  }

  lemma BoolPresent(d: Defaults, s: Section, key: string)
    requires GetBool(d, s, key).Ok?
    ensures Get(d, s, key).Ok?
  {
  }

  lemma StorageNeeds(d: Defaults, s: Section, key: string)
    requires key in StorageOptions && key !in s && key !in d
    ensures ReadStorage(d, s).Err?
  {
    MissingRejected(d, s, key);
  }

  /** An option neither the section nor the defaults hold is an error whatever type it is read as. */
  lemma MissingRejected(d: Defaults, s: Section, key: string)
    requires key !in s && key !in d
    ensures Get(d, s, key).Err? && GetText(d, s, key).Err? && GetInt(d, s, key).Err? && GetBool(d, s, key).Err? && GetReal(d, s, key).Err?
  {
  }

  /**
   A required option that neither the file nor the command line sets makes
   the constructor fail (with `NoOptionError` unless an earlier option
   already failed), and so does a file without the `[config]` section.
   */
  lemma RequiredOptionMissing(file: Section, debug: bool, args: map<string, CliValue>, key: string)
    requires key in RequiredOptions && key !in file && !Given(args, key)
    ensures Load(Some(file), debug, args).Err?
    ensures Load(None, debug, args) == Err(MissingSection)
  {
    var s := Override(file, args);
    RequiredNotDefaulted(key);
    if key in NamingOptions {
      NamingNeeds(BuiltinDefaults, s, key);
    } else if key in PolicyOptions {
      PolicyNeeds(BuiltinDefaults, s, key);
    } else {
      StorageNeeds(BuiltinDefaults, s, key);
    }
    StageFailureFails(BuiltinDefaults, file, debug, args);
  }

  lemma RequiredNotDefaulted(key: string)
    requires key in RequiredOptions
    ensures key !in BuiltinDefaults
  {
  }

  /** A stage that fails makes the whole constructor fail. */
  lemma StageFailureFails(d: Defaults, file: Section, debug: bool, args: map<string, CliValue>)
    ensures var s := Override(file, args);
      ReadNaming(d, s).Err? || ReadPolicy(d, s).Err? || ReadStorage(d, s).Err? ==> LoadWith(d, Some(file), debug, args).Err?
  {
  }

  /** Until the batch asks for a fresh suffix, the suffix is the bare `"_"`. */
  lemma SuffixBeforeClear(defaults: Defaults, file: Option<Section>, debug: bool, args: map<string, CliValue>, c: Config)
    requires LoadWith(defaults, file, debug, args) == Ok(c)
    ensures c.vmSuffix == "_"
  {
  }

  // ----- clone-name suffix -----

  /** The wall-clock fields `strftime` reads. */
  datatype Clock = Clock(year: nat, month: nat, day: nat, hour: nat, minute: nat, second: nat)

  predicate ValidClock(t: Clock)
  {
    1000 <= t.year <= 9999 && 1 <= t.month <= 12 && 1 <= t.day <= 31
    && t.hour <= 23 && t.minute <= 59 && t.second <= 61
  }

  /** `"_" + strftime("%Y%m%d_%H%M%S")`, or `"_" + strftime("%m%d%S")` when short. */
  function SuffixAt(short: bool, t: Clock): (s: string)
    requires ValidClock(t)
    ensures |s| == (if short then 7 else 16) && s[0] == '_'
    ensures short ==> AllDigits(s[1..])
    ensures !short ==> AllDigits(s[1..9]) && s[9] == '_' && AllDigits(s[10..])
  {
    if short then "_" + Pad(t.month, 2) + Pad(t.day, 2) + Pad(t.second, 2)
    else "_" + Pad(t.year, 4) + Pad(t.month, 2) + Pad(t.day, 2) + "_" + Pad(t.hour, 2) + Pad(t.minute, 2) + Pad(t.second, 2)
  }

  /** `clear_vm_suffix`: a fresh suffix from the clock; nothing else changes. */
  function ClearVmSuffix(c: Config, t: Clock): (c': Config)
    requires ValidClock(t)
    ensures c' == c.(vmSuffix := c'.vmSuffix)
    ensures c'.vmSuffix == SuffixAt(c.useShortSuffix, t)
  {
    c.(vmSuffix := SuffixAt(c.useShortSuffix, t))
  }

  /** Reads the clock fields back out of a long suffix. */
  function LongSuffixClock(s: string): Clock
    requires |s| == 16 && AllDigits(s[1..9]) && AllDigits(s[10..])
  {
    forall i | 1 <= i < 16 && i != 9
      ensures IsDigit(s[i])
    {
      if i < 9 {
        assert s[1..9][i - 1] == s[i];
      } else {
        assert s[10..][i - 10] == s[i];
      }
    }
    Clock(DigitsValue(s[1..5]), DigitsValue(s[5..7]), DigitsValue(s[7..9]),
          DigitsValue(s[10..12]), DigitsValue(s[12..14]), DigitsValue(s[14..]))
  }

  /** The long suffix encodes the whole clock reading. */
  lemma LongSuffixRoundTrip(t: Clock)
    requires ValidClock(t)
    ensures LongSuffixClock(SuffixAt(false, t)) == t
  {
    var s := SuffixAt(false, t);
    assert s[1..5] == Pad(t.year, 4);
    assert s[5..7] == Pad(t.month, 2);
    assert s[7..9] == Pad(t.day, 2);
    assert s[10..12] == Pad(t.hour, 2);
    assert s[12..14] == Pad(t.minute, 2);
    assert s[14..] == Pad(t.second, 2);
    PadValue(t.year, 4);
    PadValue(t.month, 2);
    PadValue(t.day, 2);
    PadValue(t.hour, 2);
    PadValue(t.minute, 2);
    PadValue(t.second, 2);
  }

  /** The short suffix encodes month, day and second, and nothing else. */
  lemma ShortSuffixRoundTrip(t: Clock)
    requires ValidClock(t)
    ensures var s := SuffixAt(true, t);
            DigitsValue(s[1..3]) == t.month && DigitsValue(s[3..5]) == t.day && DigitsValue(s[5..]) == t.second
  {
    var s := SuffixAt(true, t);
    assert s[1..3] == Pad(t.month, 2);
    assert s[3..5] == Pad(t.day, 2);
    assert s[5..] == Pad(t.second, 2);
    PadValue(t.month, 2);
    PadValue(t.day, 2);
    PadValue(t.second, 2);
  }

  // ----- keep counts -----

  /** A keep count as the getter returns it: the empty text, or an int. */
  datatype KeepCount = Unset | Count(n: int)
  {
    /** Python truthiness: `""` and `0` are false. */
    predicate Truthy()
    {
      Count? && n != 0
    }
  }

  /**
   `get_backup_keep_count` / `get_backup_keep_count_by_number`: non-empty
   text becomes an int; empty text stays as it is.  `None` is the
   `ValueError` of `int(...)`.
   */
  function KeepCountOf(raw: string): Option<KeepCount>
  {
    if |raw| == 0 then Some(Unset)
    else match ParseInt(raw)
      case Some(n) => Some(Count(n))
      case None => None
  }

  /** An integer written as text comes back as that count; the empty text is falsy. */
  lemma KeepCountCoercion(n: int)
    ensures KeepCountOf(ShowInt(n)) == Some(Count(n))
    ensures KeepCountOf(ShowInt(n)).value.Truthy() <==> n != 0
    ensures KeepCountOf("") == Some(Unset) && !Unset.Truthy()
  {
    ParseShowInt(n);
    assert |ShowInt(n)| > 0;
  }

  // ----- vm_names -----

  /** `set_vm_names`: the parser now holds the JSON text of the list. */
  function SetVmNames(c: Config, names: seq<string>): Config
  {
    c.(section := c.section["vm_names" := Dumps(names)], vmNames := names)
  }

  /** After `set_vm_names(xs)`, `get_vm_names()` is `xs` and the parser's text reads back as `xs`. */
  lemma SetThenGetVmNames(c: Config, names: seq<string>)
    requires SafeNames(names)
    ensures SetVmNames(c, names).vmNames == names
    ensures ParseList(SetVmNames(c, names).section["vm_names"]) == Some(names)
    ensures SetVmNames(c, names).section - {"vm_names"} == c.section - {"vm_names"}
  {
    ParseDumps(names);
  }

  /** The position after the spaces that follow the option name. */
  function SkipSpaces(s: string, from: nat): (k: nat)
    requires from <= |s|
    ensures from <= k <= |s|
    ensures k < |s| ==> s[k] != ' '
    ensures forall j :: from <= j < k ==> s[j] == ' '
    decreases |s| - from
  {
    if from < |s| && s[from] == ' ' then SkipSpaces(s, from + 1) else from
  }

  /**
   The lines `re.sub("^vm_names *[:=].*$", ...)` rewrites: `vm_names`,
   spaces, then `:` or `=`, on a line without an inner newline (the
   pattern's `$` matches only at the end or before a final newline).
   */
  predicate IsVmNamesLine(line: string)
  {
    && "vm_names" <= line
    && SingleLine(line)
    && var k := SkipSpaces(line, 8);
       k < |line| && (line[k] == ':' || line[k] == '=')
  }

  /** One line after the substitution: the match ends before the line's own newline, which stays. */
  function RewriteLine(line: string, replacement: string): string
  {
    if IsVmNamesLine(line) then replacement + LineEnd(line) else line
  }

  /** The replacement `write_update` writes for the current `vm_names` text. */
  function VmNamesLine(json: string): string
  {
    "vm_names = " + json + "\n"
  }

  function Concat(parts: seq<string>): string
  {
    if |parts| == 0 then "" else parts[0] + Concat(parts[1..])
  }

  function RewriteLines(lines: seq<string>, replacement: string): (out: seq<string>)
    ensures |out| == |lines|
    ensures forall i :: 0 <= i < |lines| ==> out[i] == RewriteLine(lines[i], replacement)
  {
    if |lines| == 0 then [] else [RewriteLine(lines[0], replacement)] + RewriteLines(lines[1..], replacement)
  }

  /**
   `write_update`: the file's lines with every `vm_names` line replaced by
   the parser's current value, joined into the new file text.  The value
   is `re.sub`'s replacement, so it is expanded as a template first; a
   template `re.sub` rejects raises at its first call, so an empty file
   never meets it.
   */
  function WriteUpdate(c: Config, lines: seq<string>): Result<string, LoadError>
  {
    var json :- GetText(BuiltinDefaults, c.section, "vm_names");
    match Expand(VmNamesLine(json))
    case Some(r) => Ok(Concat(RewriteLines(lines, r)))
    case None => if |lines| == 0 then Ok("") else Err(BadReplacement)
  }

  /**
   `write_update` as evidently intended: the value written as it is, which
   a replacement function instead of a template string would give.
   */
  function WriteUpdateLiteral(c: Config, lines: seq<string>): Result<string, LoadError>
  {
    var json :- GetText(BuiltinDefaults, c.section, "vm_names");
    Ok(Concat(RewriteLines(lines, VmNamesLine(json))))
  }

  /** The replacement line expands as its value does: the text around the value holds no backslash. */
  lemma ExpandLine(json: string)
    requires Expand(json).Some?
    ensures Expand(VmNamesLine(json)) == Some(VmNamesLine(Expand(json).value))
  {
    var pre, nl := "vm_names = ", "\n";
    PlainKept(pre);
    PlainKept(nl);
    ExpandAppend(pre, json);
    ExpandAppend(pre + json, nl);
  }

  /** What the parser reads as the value of a `vm_names` line: the text after the delimiter, stripped. */
  function LineValue(line: string): string
    requires IsVmNamesLine(line)
  {
    Strip(line[SkipSpaces(line, 8) + 1..])
  }

  /** The `vm_names` value of a file's lines; a later assignment wins over an earlier one. */
  function ReadVmNamesText(lines: seq<string>): Option<string>
  {
    if |lines| == 0 then None
    else
      var later := ReadVmNamesText(lines[1..]);
      if later.Some? then later
      else if IsVmNamesLine(lines[0]) then Some(LineValue(lines[0]))
      else None
  }

  /** Reading `vm_names` back from the text of a file. */
  function ReadVmNames(text: string): Option<seq<string>>
  {
    match ReadVmNamesText(SplitLines(text))
    case Some(t) => ParseList(t)
    case None => None
  }

  /** The lines `readlines` can return: non-empty, one newline at most and only at the end, only the last without it. */
  predicate ReadlinesShape(lines: seq<string>)
  {
    forall i :: 0 <= i < |lines| ==>
      |lines[i]| > 0 && SingleLine(lines[i]) && (i < |lines| - 1 ==> lines[i][|lines[i]| - 1] == '\n')
  }

  /** The physical lines of one rewritten line, as `readlines` would see them again. */
  function ReadAgain(line: string, replacement: string): seq<string>
  {
    if IsVmNamesLine(line) then [replacement] + (if LineEnd(line) == "" then [] else ["\n"]) else [line]
  }

  function ReadAgainAll(lines: seq<string>, replacement: string): seq<string>
  {
    if |lines| == 0 then [] else ReadAgain(lines[0], replacement) + ReadAgainAll(lines[1..], replacement)
  }

  lemma {:induction false} SplitRewritten(lines: seq<string>, json: string)
    requires ReadlinesShape(lines) && Printable(json)
    ensures SplitLines(Concat(RewriteLines(lines, VmNamesLine(json)))) == ReadAgainAll(lines, VmNamesLine(json))
    decreases |lines|
  {
    if |lines| > 0 {
      var r := VmNamesLine(json);
      ReadlinesShapeTail(lines);
      SplitRewritten(lines[1..], json);
      var rest := Concat(RewriteLines(lines[1..], r));
      assert RewriteLines(lines, r)[1..] == RewriteLines(lines[1..], r);
      assert Concat(RewriteLines(lines, r)) == RewriteLine(lines[0], r) + rest;
      if |lines| == 1 {
        assert rest == "";
      }
      SplitOne(lines[0], rest, json);
    }
  }

  lemma ReadlinesShapeTail(lines: seq<string>)
    requires ReadlinesShape(lines) && |lines| > 0
    ensures ReadlinesShape(lines[1..])
    ensures |lines[0]| > 0 && SingleLine(lines[0]) && (|lines| > 1 ==> lines[0][|lines[0]| - 1] == '\n')
  {
    forall i | 0 <= i < |lines[1..]|
      ensures |lines[1..][i]| > 0 && SingleLine(lines[1..][i])
      ensures i < |lines[1..]| - 1 ==> lines[1..][i][|lines[1..][i]| - 1] == '\n'
    {
      assert lines[1..][i] == lines[i + 1];
    }
  }

  /** One rewritten line, read back: the replacement, then the line's own newline as a line of its own. */
  lemma SplitOne(l: string, rest: string, json: string)
    requires |l| > 0 && SingleLine(l) && Printable(json)
    requires l[|l| - 1] != '\n' ==> rest == ""
    ensures SplitLines(RewriteLine(l, VmNamesLine(json)) + rest) == ReadAgain(l, VmNamesLine(json)) + SplitLines(rest)
  {
    var r := VmNamesLine(json);
    VmNamesLineSingle(json);
    if IsVmNamesLine(l) {
      SplitReplaced(l, rest, r);
    } else if l[|l| - 1] == '\n' {
      assert RewriteLine(l, r) == l;
      SplitLinesCons(l, rest);
    } else {
      assert RewriteLine(l, r) + rest == l;
      SplitLinesLast(l);
    }
  }

  /** A replaced line reads back as the replacement, followed by the old line's own newline if it had one. */
  lemma SplitReplaced(l: string, rest: string, r: string)
    requires IsVmNamesLine(l) && |r| > 0 && SingleLine(r) && r[|r| - 1] == '\n'
    requires LineEnd(l) == "" ==> rest == ""
    ensures SplitLines(RewriteLine(l, r) + rest) == ReadAgain(l, r) + SplitLines(rest)
  {
    if LineEnd(l) == "" {
      assert RewriteLine(l, r) == r;
      SplitLinesCons(r, rest);
    } else {
      assert RewriteLine(l, r) + rest == r + ("\n" + rest);
      assert ReadAgain(l, r) == [r, "\n"];
      SplitTwo(r, rest);
    }
  }

  lemma SplitTwo(r: string, rest: string)
    requires |r| > 0 && SingleLine(r) && r[|r| - 1] == '\n'
    ensures SplitLines(r + ("\n" + rest)) == [r, "\n"] + SplitLines(rest)
  {
    var nl := "\n";
    assert |nl| == 1 && nl[0] == '\n' && SingleLine(nl);
    SplitLinesTwo(r, nl, rest);
  }

  lemma {:induction false} ReadVmNamesTextAppend(a: seq<string>, b: seq<string>)
    ensures ReadVmNamesText(a + b) == if ReadVmNamesText(b).Some? then ReadVmNamesText(b) else ReadVmNamesText(a)
    decreases |a|
  {
    if |a| > 0 {
      assert (a + b)[1..] == a[1..] + b;
      ReadVmNamesTextAppend(a[1..], b);
    } else {
      assert a + b == b;
    }
  }

  lemma VmNamesLineSingle(json: string)
    requires Printable(json)
    ensures SingleLine(VmNamesLine(json))
  {
    var r := VmNamesLine(json);
    forall i | 0 <= i < |r| - 1
      ensures r[i] != '\n'
    {
      if 11 <= i {
        assert r[i] == json[i - 11];
      }
    }
  }

  lemma StripBracketed(json: string)
    requires |json| >= 2 && json[0] == '[' && json[|json| - 1] == ']'
    ensures Strip(" " + json + "\n") == json
  {
    var v := " " + json + "\n";
    assert v[1..] == json + "\n";
    assert TrimLeft(v) == json + "\n";
    var w := json + "\n";
    assert w[..|w| - 1] == json;
    assert TrimRight(w) == TrimRight(json);
  }

  /** The value the parser reads from the rewritten line is the JSON text that was written. */
  lemma ReplacementValue(json: string)
    requires Printable(json) && |json| >= 2 && json[0] == '[' && json[|json| - 1] == ']'
    ensures IsVmNamesLine(VmNamesLine(json)) && LineValue(VmNamesLine(json)) == json
  {
    var r := VmNamesLine(json);
    VmNamesLineSingle(json);
    assert r[8] == ' ' && r[9] == '=';
    assert SkipSpaces(r, 8) == 9;
    assert r[10..] == " " + json + "\n";
    StripBracketed(json);
  }

  lemma {:induction false} ReadAgainAllValue(lines: seq<string>, json: string)
    requires Printable(json) && |json| >= 2 && json[0] == '[' && json[|json| - 1] == ']'
    requires exists i :: 0 <= i < |lines| && IsVmNamesLine(lines[i])
    ensures ReadVmNamesText(ReadAgainAll(lines, VmNamesLine(json))) == Some(json)
    decreases |lines|
  {
    var r := VmNamesLine(json);
    var l := lines[0];
    var head := ReadAgain(l, r);
    var tail := ReadAgainAll(lines[1..], r);
    assert ReadAgainAll(lines, r) == head + tail;
    ReadVmNamesTextAppend(head, tail);
    if exists i :: 0 <= i < |lines[1..]| && IsVmNamesLine(lines[1..][i]) {
      ReadAgainAllValue(lines[1..], json);
    } else {
      LastAssignment(lines, json);
    }
  }

  /** When the first line is the last `vm_names` line, its replacement is what is read. */
  lemma LastAssignment(lines: seq<string>, json: string)
    requires Printable(json) && |json| >= 2 && json[0] == '[' && json[|json| - 1] == ']'
    requires exists i :: 0 <= i < |lines| && IsVmNamesLine(lines[i])
    requires !exists i :: 0 <= i < |lines[1..]| && IsVmNamesLine(lines[1..][i])
    ensures ReadVmNamesText(ReadAgain(lines[0], VmNamesLine(json))) == Some(json)
    ensures ReadVmNamesText(ReadAgainAll(lines[1..], VmNamesLine(json))) == None
  {
    forall i | 0 < i < |lines|
      ensures !IsVmNamesLine(lines[i])
    {
      assert lines[1..][i - 1] == lines[i];
    }
    assert IsVmNamesLine(lines[0]);
    ReadAgainAllNone(lines[1..], json);
    ReplacementValue(json);
    ReadAgainHead(lines[0], VmNamesLine(json));
  }

  /** The lines a replaced `vm_names` line reads back as give the new value. */
  lemma ReadAgainHead(l: string, r: string)
    requires IsVmNamesLine(l) && IsVmNamesLine(r)
    ensures ReadVmNamesText(ReadAgain(l, r)) == Some(LineValue(r))
  {
    if LineEnd(l) == "" {
      assert ReadAgain(l, r) == [r];
      ReadOne(r);
    } else {
      assert ReadAgain(l, r) == [r, "\n"];
      ReadPair(r, "\n");
    }
  }

  lemma ReadOne(r: string)
    requires IsVmNamesLine(r)
    ensures ReadVmNamesText([r]) == Some(LineValue(r))
  {
    ReadCons(r, []);
    assert [r] + [] == [r];
  }

  lemma ReadPair(r: string, x: string)
    requires IsVmNamesLine(r) && |x| < 8
    ensures ReadVmNamesText([r, x]) == Some(LineValue(r))
  {
    assert !IsVmNamesLine(x) by {
      assert !("vm_names" <= x);
    }
    ReadCons(x, []);
    assert [x] + [] == [x];
    ReadCons(r, [x]);
    assert [r] + [x] == [r, x];
  }

  /** One step of reading: a later assignment wins, else this line's own. */
  lemma ReadCons(a: string, rest: seq<string>)
    ensures ReadVmNamesText([a] + rest)
      == if ReadVmNamesText(rest).Some? then ReadVmNamesText(rest)
         else if IsVmNamesLine(a) then Some(LineValue(a)) else None
  {
    assert ([a] + rest)[1..] == rest;
  }

  lemma {:induction false} ReadAgainAllNone(lines: seq<string>, json: string)
    requires forall i :: 0 <= i < |lines| ==> !IsVmNamesLine(lines[i])
    ensures ReadVmNamesText(ReadAgainAll(lines, VmNamesLine(json))) == None
    decreases |lines|
  {
    if |lines| > 0 {
      var r := VmNamesLine(json);
      ReadAgainAllNone(lines[1..], json);
      assert ReadAgainAll(lines, r) == [lines[0]] + ReadAgainAll(lines[1..], r);
      ReadVmNamesTextAppend([lines[0]], ReadAgainAll(lines[1..], r));
      assert ReadVmNamesText([lines[0]]) == None by {
        assert [lines[0]][1..] == [];
      }
    }
  }

  /**
   Set, write, reload: after `set_vm_names(xs)` and `write_update`, a
   file that had a `vm_names` line reads back as `xs`.
   */
  lemma WriteUpdateRoundTrip(c: Config, names: seq<string>, lines: seq<string>)
    requires SafeNames(names)
    requires ReadlinesShape(lines)
    requires exists i :: 0 <= i < |lines| && IsVmNamesLine(lines[i])
    ensures WriteUpdate(SetVmNames(c, names), lines).Ok?
    ensures ReadVmNames(WriteUpdate(SetVmNames(c, names), lines).value) == Some(names)
  {
    SafeTemplateSafe(names);
    WriteUpdateTemplateSafe(c, names, lines);
    ParseDumps(names);
  }

  /** Safe names hold no backslash and no control character. */
  lemma SafeTemplateSafe(names: seq<string>)
    requires SafeNames(names)
    ensures TemplateSafeNames(names)
  {
    forall i, j | 0 <= i < |names| && 0 <= j < |names[i]|
      ensures TemplateSafe(names[i][j])
    {
      assert SafeName(names[i]);
    }
  }

  /**
   For names without a backslash and without the control characters that
   have a short JSON escape, the template leaves the value alone: the
   rewrite is the literal one, and the reload sees the `json.dumps` text.
   */
  lemma WriteUpdateTemplateSafe(c: Config, names: seq<string>, lines: seq<string>)
    requires TemplateSafeNames(names)
    requires ReadlinesShape(lines)
    requires exists i :: 0 <= i < |lines| && IsVmNamesLine(lines[i])
    ensures WriteUpdate(SetVmNames(c, names), lines) == WriteUpdateLiteral(SetVmNames(c, names), lines)
    ensures WriteUpdate(SetVmNames(c, names), lines).Ok?
    ensures ReadVmNamesText(SplitLines(WriteUpdate(SetVmNames(c, names), lines).value)) == Some(Dumps(names))
  {
    DumpsKept(names);
    ExpandLine(Dumps(names));
    WriteUpdateKeepsText(c, names, lines);
  }

  /**
   After `set_vm_names`, `write_update` never meets a rejected template:
   whatever the names, the update succeeds.
   */
  lemma WriteUpdateAccepted(c: Config, names: seq<string>, lines: seq<string>)
    ensures WriteUpdate(SetVmNames(c, names), lines).Ok?
  {
    DumpsAccepted(names);
    ExpandLine(Dumps(names));
    assert GetText(BuiltinDefaults, SetVmNames(c, names).section, "vm_names") == Ok(Dumps(names));
  }

  /**
   A `vm_names` text read from the file, rather than set by
   `set_vm_names`, can hold a group reference: then `write_update` raises
   unless the file is empty.
   */
  lemma WriteUpdateRejected(c: Config, lines: seq<string>)
    requires c.section == map["vm_names" := "[\"\\1\"]"]
    ensures |lines| > 0 <==> WriteUpdate(c, lines) == Err(BadReplacement)
  {
    var pre, post := "vm_names = [\"", "\\1\"]\n";
    assert VmNamesLine("[\"\\1\"]") == pre + post;
    PlainKept(pre);
    assert Token(post).None?;
    ExpandAppend(pre, post);
  }

  /**
   The corrected rewrite: whatever the names, the file keeps its
   `vm_names` value on one line, and the reload sees exactly the
   `json.dumps` text, since the escaping leaves no newline in it.
   */
  lemma WriteUpdateKeepsText(c: Config, names: seq<string>, lines: seq<string>)
    requires ReadlinesShape(lines)
    requires exists i :: 0 <= i < |lines| && IsVmNamesLine(lines[i])
    ensures WriteUpdateLiteral(SetVmNames(c, names), lines).Ok?
    ensures ReadVmNamesText(SplitLines(WriteUpdateLiteral(SetVmNames(c, names), lines).value)) == Some(Dumps(names))
  {
    var json := Dumps(names);
    DumpsShape(names);
    assert GetText(BuiltinDefaults, SetVmNames(c, names).section, "vm_names") == Ok(json);
    SplitRewritten(lines, json);
    ReadAgainAllValue(lines, json);
  }

  /**
   As written, a backslash in a name does not survive: `json.dumps` doubles
   it, the template halves it again, and the reload sees `\b`, which JSON
   reads as a backspace.
   */
  lemma WriteUpdateUnescapes(c: Config, lines: seq<string>)
    requires ReadlinesShape(lines)
    requires exists i :: 0 <= i < |lines| && IsVmNamesLine(lines[i])
    ensures Dumps(["a\\b"]) == "[\"a\\\\b\"]"
    ensures WriteUpdate(SetVmNames(c, ["a\\b"]), lines).Ok?
    ensures ReadVmNamesText(SplitLines(WriteUpdate(SetVmNames(c, ["a\\b"]), lines).value)) == Some("[\"a\\b\"]")
    ensures Unescape("a\\b") == Some("a" + [8 as char]) && Unescape("a\\\\b") == Some("a\\b")
  {
    var json := "[\"a\\\\b\"]";
    var written := "[\"a\\b\"]";
    BackslashName();
    HalvedBackslash();
    ExpandLine(json);
    var c' := SetVmNames(c, ["a\\b"]);
    assert GetText(BuiltinDefaults, c'.section, "vm_names") == Ok(json);
    assert WriteUpdate(c', lines) == Ok(Concat(RewriteLines(lines, VmNamesLine(written))));
    WrittenShape();
    SplitRewritten(lines, written);
    ReadAgainAllValue(lines, written);
    BackslashUnescapes();
  }

  lemma BackslashName()
    ensures Dumps(["a\\b"]) == "[\"a\\\\b\"]"
  {
    assert Escape("a\\b") == "a\\\\b" by {
      assert "a\\b"[1..] == "\\b" && "\\b"[1..] == "b";
    }
    assert EscapeAll(["a\\b"]) == ["a\\\\b"];
  }

  lemma WrittenShape()
    ensures var w := "[\"a\\b\"]"; Printable(w) && |w| >= 2 && w[0] == '[' && w[|w| - 1] == ']'
  {
  }

  /** `set_vm_names` stores the escaped text: a quote in a name is written `\"`, as `json.dumps` does. */
  lemma SetVmNamesEscapes(c: Config)
    ensures SetVmNames(c, ["a\"b"]).section["vm_names"] == "[\"a\\\"b\"]"
  {
    assert Escape("a\"b") == "a\\\"b" by {
      assert "a\"b"[1..] == "\"b" && "\"b"[1..] == "b";
    }
    assert EscapeAll(["a\"b"]) == ["a\\\"b"];
  }

  // ----- the test fixture -----

  /** The `[config]` section of the fixture in tests/test_config.py. */
  const Fixture: Section :=
    map[
      "vm_names" := "[\"vm1\", \"vm2\"]",
      "vm_middle" := "_BACKUP",
      "snapshot_description" := "Snapshot for backup script",
      "server" := "https://my-ovirt/ovirt-engine/api/",
      "username" := "admin@internal",
      "password" := "secret",
      "export_domain" := "backup",
      "timeout" := "5",
      "cluster_name" := "Default",
      "backup_keep_count" := "3",
      "dry_run" := "False",
      "vm_name_max_length" := "32",
      "use_short_suffix" := "False",
      "storage_domain" := "storage",
      "storage_space_threshold" := "0.1",
      "logger_fmt" := "%(asctime)s: %(message)s",
      "logger_file_path" := ""
    ]

  /** The fixture with the two credentials given on the command line. */
  const FixtureWithCli: Section := Fixture["password" := "newsecret"]["username" := "newadmin@internal"]

  /** The command line of the first test: two credentials, and `None` for the cluster. */
  const FixtureCli: map<string, CliValue> :=
    map["password" := Text("newsecret"), "username" := Text("newadmin@internal"), "cluster_name" := Absent]

  /** An empty command line leaves the file's section as it is. */
  lemma OverrideNothing(file: Section)
    ensures Override(file, map[]) == file
  {
  }

  /** Two credentials given and the cluster left `None`: only the credentials change. */
  lemma OverrideCredentials(file: Section, password: string, username: string)
    ensures Override(file, map["password" := Text(password), "username" := Text(username), "cluster_name" := Absent])
         == file["password" := password]["username" := username]
  {
    var args := map["password" := Text(password), "username" := Text(username), "cluster_name" := Absent];
    var m := Override(file, args);
    var e := file["password" := password]["username" := username];
    forall k
      ensures k in m <==> k in e
      ensures k in m ==> m[k] == e[k]
    {
      if k != "password" && k != "username" {
        assert !Given(args, k);
      }
    }
  }

  lemma OverrideFixture()
    ensures Override(Fixture, FixtureCli) == FixtureWithCli
  {
    OverrideCredentials(Fixture, "newsecret", "newadmin@internal");
  }

  /** A stage reads when each of its options does. */
  lemma NamingReads(d: Defaults, s: Section)
    requires GetVmNames(d, s).Ok? && GetText(d, s, "vm_middle").Ok?
    requires GetText(d, s, "server").Ok? && GetText(d, s, "username").Ok? && GetText(d, s, "password").Ok?
    requires GetText(d, s, "snapshot_description").Ok? && GetText(d, s, "cluster_name").Ok?
    requires GetText(d, s, "export_domain").Ok?
    ensures ReadNaming(d, s).Ok?
  {
  }

  lemma PolicyReads(d: Defaults, s: Section)
    requires GetInt(d, s, "timeout").Ok? && GetInt(d, s, "vm_name_max_length").Ok?
    requires GetText(d, s, "backup_keep_count").Ok? && GetText(d, s, "backup_keep_count_by_number").Ok?
    requires GetBool(d, s, "dry_run").Ok? && GetBool(d, s, "use_short_suffix").Ok?
    ensures ReadPolicy(d, s).Ok?
  {
  }

  lemma StorageReads(d: Defaults, s: Section)
    requires GetText(d, s, "storage_domain").Ok? && GetReal(d, s, "storage_space_threshold").Ok?
    requires GetText(d, s, "logger_fmt").Ok? && Get(d, s, "logger_file_path").Ok?
    requires GetBool(d, s, "persist_memorystate").Ok?
    ensures ReadStorage(d, s).Ok?
  {
  }

  /** The constructor succeeds when all three stages read. */
  lemma LoadReads(d: Defaults, file: Section, debug: bool, args: map<string, CliValue>)
    requires var s := Override(file, args);
      ReadNaming(d, s).Ok? && ReadPolicy(d, s).Ok? && ReadStorage(d, s).Ok?
    ensures var s := Override(file, args);
      LoadWith(d, Some(file), debug, args)
        == Ok(Assemble(s, ReadNaming(d, s).value, ReadPolicy(d, s).value, ReadStorage(d, s).value, debug))
  {
  }

  /** An option the section sets reads as its text, whatever the defaults. */
  lemma TextOf(d: Defaults, s: Section, key: string)
    requires key in s
    ensures GetText(d, s, key) == Ok(s[key])
  {
  }

  lemma IntOf(d: Defaults, s: Section, key: string, n: int)
    requires key in s && ParseInt(s[key]) == Some(n)
    ensures GetInt(d, s, key) == Ok(n)
  {
  }

  lemma BoolOf(d: Defaults, s: Section, key: string, b: bool)
    requires key in s && ParseBool(s[key]) == Some(b)
    ensures GetBool(d, s, key) == Ok(b)
  {
  }

  lemma SmallInts()
    ensures ParseInt("5") == Some(5) && ParseInt("32") == Some(32)
  {
    ParseOneDigit('5');
    ParseTwoDigits('3', '2');
  }

  lemma FixtureNamingKeys()
    ensures "vm_names" in Fixture && "vm_middle" in Fixture && "server" in Fixture && "username" in Fixture
    ensures "password" in Fixture && "snapshot_description" in Fixture && "cluster_name" in Fixture
    ensures "export_domain" in Fixture
    ensures Fixture["vm_names"] == "[\"vm1\", \"vm2\"]" && Fixture["cluster_name"] == "Default"
  {
    FixtureKeysA();
    FixtureKeysB();
    FixtureKeysC();
  }

  lemma FixtureKeysA()
    ensures "vm_names" in Fixture && Fixture["vm_names"] == "[\"vm1\", \"vm2\"]" && "vm_middle" in Fixture
  {
  }

  lemma FixtureKeysB()
    ensures "server" in Fixture && "username" in Fixture && "password" in Fixture
  {
  }

  lemma FixtureKeysC()
    ensures "snapshot_description" in Fixture && "cluster_name" in Fixture && "export_domain" in Fixture
    ensures Fixture["cluster_name"] == "Default"
  {
  }

  /** The command line adds no option and changes only the credentials. */
  lemma FixtureWithCliKeeps()
    ensures forall k :: k in Fixture ==> k in FixtureWithCli
    ensures forall k :: k in Fixture && k != "password" && k != "username" ==> FixtureWithCli[k] == Fixture[k]
    ensures FixtureWithCli["password"] == "newsecret" && FixtureWithCli["username"] == "newadmin@internal"
  {
  }

  /** The naming options read on both fixture sections. */
  lemma FixtureNaming(d: Defaults, s: Section)
    requires s == Fixture || s == FixtureWithCli
    ensures ReadNaming(d, s).Ok? && ReadNaming(d, s).value.vmNames == ["vm1", "vm2"]
    ensures ReadNaming(d, s).value.clusterName == "Default"
    ensures s == FixtureWithCli ==> ReadNaming(d, s).value.password == "newsecret"
    ensures s == FixtureWithCli ==> ReadNaming(d, s).value.username == "newadmin@internal"
  {
    FixtureNamingKeys();
    FixtureWithCliKeeps();
    TextOf(d, s, "vm_names");
    ParseFixture();
    assert GetVmNames(d, s) == Ok(["vm1", "vm2"]);
    TextOf(d, s, "vm_middle");
    TextOf(d, s, "server");
    TextOf(d, s, "username");
    TextOf(d, s, "password");
    TextOf(d, s, "snapshot_description");
    TextOf(d, s, "cluster_name");
    TextOf(d, s, "export_domain");
    NamingReads(d, s);
  }

  lemma FixturePolicyTexts(s: Section)
    requires s == Fixture || s == FixtureWithCli
    ensures "timeout" in s && s["timeout"] == "5" && "vm_name_max_length" in s && s["vm_name_max_length"] == "32"
    ensures "dry_run" in s && s["dry_run"] == "False" && "use_short_suffix" in s && s["use_short_suffix"] == "False"
    ensures "backup_keep_count" in s && "backup_keep_count_by_number" !in s
  {
    FixtureWithCliKeeps();
    FixtureIntKeys();
    FixtureBoolKeys();
    FixtureLacksByNumber();
  }

  /** Neither fixture section sets `backup_keep_count_by_number`. */
  lemma FixtureLacksByNumber()
    ensures "backup_keep_count_by_number" !in Fixture && "backup_keep_count_by_number" !in FixtureWithCli
  {
    assert "backup_keep_count_by_number" !in Fixture;
  }

  lemma FixtureIntKeys()
    ensures "timeout" in Fixture && Fixture["timeout"] == "5"
    ensures "vm_name_max_length" in Fixture && Fixture["vm_name_max_length"] == "32"
  {
  }

  lemma FixtureBoolKeys()
    ensures "dry_run" in Fixture && Fixture["dry_run"] == "False"
    ensures "use_short_suffix" in Fixture && Fixture["use_short_suffix"] == "False"
    ensures "backup_keep_count" in Fixture
  {
  }

  lemma FixtureInts(d: Defaults, s: Section)
    requires s == Fixture || s == FixtureWithCli
    ensures GetInt(d, s, "timeout") == Ok(5) && GetInt(d, s, "vm_name_max_length") == Ok(32)
  {
    FixturePolicyTexts(s);
    SmallInts();
    IntOf(d, s, "timeout", 5);
    IntOf(d, s, "vm_name_max_length", 32);
  }

  lemma FixturePolicyRejected()
    ensures ReadPolicy(BuiltinDefaults, Fixture) == Err(MissingOption("backup_keep_count_by_number"))
  {
    FixturePolicyTexts(Fixture);
    FixtureInts(BuiltinDefaults, Fixture);
    TextOf(BuiltinDefaults, Fixture, "backup_keep_count");
    assert Get(BuiltinDefaults, Fixture, "backup_keep_count_by_number") == Err(MissingOption("backup_keep_count_by_number"));
  }

  /**
   As written, the constructor reads `backup_keep_count_by_number`, which
   the fixture does not set and which has no default: the fixture is
   rejected before any assertion of the tests is reached.
   */
  lemma FixtureRejected()
    ensures Load(Some(Fixture), false, map[]) == Err(MissingOption("backup_keep_count_by_number"))
  {
    OverrideNothing(Fixture);
    FixtureNaming(BuiltinDefaults, Fixture);
    FixturePolicyRejected();
  }

  /** Defaults under which the retention-by-number option is optional (empty, so switched off). */
  const IntendedDefaults: Defaults := BuiltinDefaults["backup_keep_count_by_number" := Some("")]

  /** The constructor with `backup_keep_count_by_number` optional, as the tests expect. */
  function LoadIntended(file: Option<Section>, debug: bool, args: map<string, CliValue>): Result<Config, LoadError>
  {
    LoadWith(IntendedDefaults, file, debug, args)
  }

  /** With the option optional, the policy options of the fixture read without error. */
  lemma IntendedPolicy()
    ensures ReadPolicy(IntendedDefaults, FixtureWithCli).Ok?
    ensures ReadPolicy(IntendedDefaults, FixtureWithCli).value.backupKeepCountByNumber == ""
  {
    var s := FixtureWithCli;
    FixturePolicyTexts(s);
    FixtureInts(IntendedDefaults, s);
    LowerFalse();
    BoolOf(IntendedDefaults, s, "dry_run", false);
    BoolOf(IntendedDefaults, s, "use_short_suffix", false);
    TextOf(IntendedDefaults, s, "backup_keep_count");
    assert GetText(IntendedDefaults, s, "backup_keep_count_by_number") == Ok("");
    PolicyReads(IntendedDefaults, s);
  }

  lemma LowerFalse()
    ensures ParseBool("False") == Some(false) && ParseBool("false") == Some(false)
  {
    var a := Lower("False");
    assert |a| == 5 && a[0] == 'f' && a[1] == 'a' && a[2] == 'l' && a[3] == 's' && a[4] == 'e';
    assert a == "false";
    var b := Lower("false");
    assert |b| == 5 && b[0] == 'f' && b[1] == 'a' && b[2] == 'l' && b[3] == 's' && b[4] == 'e';
    assert b == "false";
  }

  lemma ThresholdParses()
    ensures ParseReal("0.1").Some?
  {
    ThresholdForms();
  }

  /** A threshold of a tenth reads the same written `0.1` or `.1`. */
  lemma ThresholdForms()
    ensures ParseReal("0.1") == Some(0.1) && ParseReal(".1") == Some(0.1)
  {
    TenthPlain();
    TenthNoWhole();
  }

  lemma TenthPlain()
    ensures ParseReal("0.1") == Some(0.1)
  {
    PointDigits('0', '1');
    assert DigitValue('0') == 0 && DigitValue('1') == 1;
    assert ['0', '.', '1'] == "0.1";
  }

  lemma TenthNoWhole()
    ensures ParseReal(".1") == Some(0.1)
  {
    PointDigit('1');
    assert DigitValue('1') == 1;
    assert ['.', '1'] == ".1";
  }

  /** A digit, a point and a digit read as units and tenths. */
  lemma PointDigits(a: char, b: char)
    requires IsDigit(a) && IsDigit(b)
    ensures ParseReal([a, '.', b]) == Some(DigitValue(a) as real + DigitValue(b) as real / 10.0)
  {
    var t := [a, '.', b];
    StripPlain(t);
    assert ParseSignedReal(t) == ParseUnsigned(t);
    assert IndexOf(t, '.', 0) == 1;
    assert t[..1] == [a] && t[2..] == [b];
    OneDigitValue(a);
    Tenths([a], b);
  }

  /** A point and a digit, the whole part left out, read as tenths. */
  lemma PointDigit(b: char)
    requires IsDigit(b)
    ensures ParseReal(['.', b]) == Some(DigitValue(b) as real / 10.0)
  {
    var t := ['.', b];
    StripPlain(t);
    assert ParseSignedReal(t) == ParseUnsigned(t);
    assert IndexOf(t, '.', 0) == 0;
    assert t[..0] == [] && t[1..] == [b];
    Tenths([], b);
  }

  /** One digit after the point counts in tenths. */
  lemma Tenths(whole: string, b: char)
    requires AllDigits(whole) && IsDigit(b)
    ensures DecimalValue(whole, [b]) == DigitsValue(whole) as real + DigitValue(b) as real / 10.0
  {
    OneDigitValue(b);
    assert Pow10(|[b]|) == 10;
  }

  lemma OneDigitValue(a: char)
    requires IsDigit(a)
    ensures AllDigits([a]) && DigitsValue([a]) == DigitValue(a)
  {
    assert [a][..0] == [];
  }

  lemma PointTextPlain(whole: string, fraction: string)
    requires AllDigits(whole) && AllDigits(fraction)
    ensures Strip(whole + "." + fraction) == whole + "." + fraction
  {
    var t := whole + "." + fraction;
    assert !IsSpace(t[0]) by {
      if |whole| > 0 {
        assert t[0] == whole[0] && IsDigit(whole[0]);
      }
    }
    assert !IsSpace(t[|t| - 1]) by {
      if |fraction| > 0 {
        assert t[|t| - 1] == fraction[|fraction| - 1] && IsDigit(fraction[|fraction| - 1]);
      }
    }
    StripPlain(t);
  }

  /** Digits around a point, with any whitespace around them, read as their value. */
  lemma DecimalRead(w1: string, whole: string, fraction: string, w2: string)
    requires AllSpace(w1) && AllSpace(w2) && AllDigits(whole) && AllDigits(fraction) && |whole| + |fraction| > 0
    ensures ParseReal(w1 + whole + "." + fraction + w2) == Some(DecimalValue(whole, fraction))
  {
    var t := whole + "." + fraction;
    assert w1 + whole + "." + fraction + w2 == w1 + t + w2;
    StripPadded(w1, t, w2);
    PointTextPlain(whole, fraction);
    UnsignedPoint(whole, fraction);
    assert ParseSignedReal(t) == ParseUnsigned(t);
  }

  lemma FixtureStorageTexts()
    ensures "storage_domain" in FixtureWithCli && "storage_space_threshold" in FixtureWithCli
    ensures FixtureWithCli["storage_space_threshold"] == "0.1"
    ensures "logger_fmt" in FixtureWithCli && "logger_file_path" in FixtureWithCli
    ensures "persist_memorystate" !in FixtureWithCli
  {
  }

  /** With the option optional, the storage options of the fixture read, and the memory-state flag takes its default. */
  lemma IntendedStorage()
    ensures ReadStorage(IntendedDefaults, FixtureWithCli).Ok?
    ensures !ReadStorage(IntendedDefaults, FixtureWithCli).value.persistMemorystate
  {
    var s := FixtureWithCli;
    var d := IntendedDefaults;
    FixtureStorageTexts();
    TextOf(d, s, "storage_domain");
    FixtureThreshold(d, s);
    TextOf(d, s, "logger_fmt");
    assert Get(d, s, "logger_file_path").Ok?;
    IntendedMemorystate();
    StorageReads(d, s);
  }

  lemma FixtureThreshold(d: Defaults, s: Section)
    requires "storage_space_threshold" in s && s["storage_space_threshold"] == "0.1"
    ensures GetReal(d, s, "storage_space_threshold") == Ok(0.1)
  {
    TenthPlain();
  }

  /** The fixture does not set `persist_memorystate`, so the default `"false"` is read. */
  lemma IntendedMemorystate()
    ensures GetBool(IntendedDefaults, FixtureWithCli, "persist_memorystate") == Ok(false)
  {
    var s := FixtureWithCli;
    var d := IntendedDefaults;
    FixtureStorageTexts();
    assert "persist_memorystate" in d && d["persist_memorystate"] == Some("false");
    assert GetText(d, s, "persist_memorystate") == Ok("false");
    LowerFalse();
  }

  /**
   With the option optional, the fixture loads and the assertions of
   tests/test_config.py hold: command-line values win, a `None` value
   keeps the file's, and the memory-state flag defaults to false.
   */
  lemma FixtureLoadsAsIntended()
    ensures var r := LoadIntended(Some(Fixture), false, FixtureCli);
            && r.Ok?
            && r.value.password == "newsecret"
            && r.value.username == "newadmin@internal"
            && r.value.clusterName == "Default"
            && !r.value.persistMemorystate
            && r.value.vmNames == ["vm1", "vm2"]
  {
    OverrideFixture();
    FixtureNaming(IntendedDefaults, FixtureWithCli);
    IntendedPolicy();
    IntendedStorage();
    LoadReads(IntendedDefaults, Fixture, false, FixtureCli);
  }
}

=== FILE: decimal.dfy ===
/**
 Decimal digits: the zero-padded fields `strftime` writes, and Python's
 `int(...)` on option text (an optional sign followed by digits, with
 whitespace around them).
 */
module Decimal {

  import opened Wrappers
  import opened Strings

  predicate IsDigit(c: char)
  {
    '0' <= c <= '9'
  }

  predicate AllDigits(s: string)
  {
    forall i :: 0 <= i < |s| ==> IsDigit(s[i])
  }

  function DigitChar(d: nat): (c: char)
    requires d < 10
    ensures IsDigit(c)
  {
    (d + '0' as int) as char
  }

  function DigitValue(c: char): (d: nat)
    requires IsDigit(c)
    ensures d < 10
  {
    c as int - '0' as int
  }

  function Pow10(w: nat): (p: nat)
    ensures p >= 1
  {
    if w == 0 then 1 else 10 * Pow10(w - 1)
  }

  /** The value of a string of decimal digits, most significant first. */
  function DigitsValue(s: string): nat
    requires AllDigits(s)
  {
    if |s| == 0 then 0 else 10 * DigitsValue(s[..|s| - 1]) + DigitValue(s[|s| - 1])
  }

  /** `n` written with exactly `w` digits, zero-padded on the left (`%02d`, `%04d`). */
  function Pad(n: nat, w: nat): (s: string)
    requires n < Pow10(w)
    ensures |s| == w && AllDigits(s)
  {
    if w == 0 then "" else Pad(n / 10, w - 1) + [DigitChar(n % 10)]
  }

  /** Reading a padded field back gives the number that was written. */
  lemma {:induction false} PadValue(n: nat, w: nat)
    requires n < Pow10(w)
    ensures DigitsValue(Pad(n, w)) == n
  {
    if w > 0 {
      PadValue(n / 10, w - 1);
      var s := Pad(n, w);
      assert s[..|s| - 1] == Pad(n / 10, w - 1);
    }
  }

  /** `str(n)` for a natural number: the shortest decimal spelling. */
  function ShowNat(n: nat): (s: string)
    ensures |s| > 0 && AllDigits(s)
  {
    if n < 10 then [DigitChar(n)] else ShowNat(n / 10) + [DigitChar(n % 10)]
  }

  lemma {:induction false} ShowNatValue(n: nat)
    ensures DigitsValue(ShowNat(n)) == n
  {
    if n >= 10 {
      ShowNatValue(n / 10);
      var s := ShowNat(n);
      assert s[..|s| - 1] == ShowNat(n / 10);
    }
  }

  /** `str(i)` for an integer. */
  function ShowInt(i: int): string
  {
    if i < 0 then "-" + ShowNat(-i) else ShowNat(i)
  }

  /**
   Python's `int(s)` on option text: whitespace is stripped, then an
   optional `+` or `-` and at least one digit must remain.  `None` is the
   `ValueError` Python raises.
   */
  function ParseInt(s: string): Option<int>
  {
    ParseSigned(Strip(s))
  }

  /** `int` on text already stripped of whitespace. */
  function ParseSigned(t: string): (r: Option<int>)
    ensures r.Some? <==> (|t| > 0 && AllDigits(t)) || (|t| > 1 && (t[0] == '-' || t[0] == '+') && AllDigits(t[1..]))
  {
    if |t| > 0 && AllDigits(t) then Some(DigitsValue(t))
    else if |t| > 1 && t[0] == '-' && AllDigits(t[1..]) then Some(0 - DigitsValue(t[1..]) as int)
    else if |t| > 1 && t[0] == '+' && AllDigits(t[1..]) then Some(DigitsValue(t[1..]))
    else None
  }

  /** Plain digits read as their value. */
  lemma ParseDigits(t: string)
    requires |t| > 0 && AllDigits(t)
    ensures ParseInt(t) == Some(DigitsValue(t))
  {
    StripPlain(t);
  }

  /** One digit reads as its value. */
  lemma ParseOneDigit(a: char)
    requires IsDigit(a)
    ensures ParseInt([a]) == Some(DigitValue(a))
  {
    var t := [a];
    ParseDigits(t);
    assert t[..0] == [];
  }

  /** Two digits read as tens and units. */
  lemma ParseTwoDigits(a: char, b: char)
    requires IsDigit(a) && IsDigit(b)
    ensures ParseInt([a, b]) == Some(10 * DigitValue(a) + DigitValue(b))
  {
    var t := [a, b];
    assert AllDigits(t);
    ParseDigits(t);
    assert t[..1] == [a];
    assert DigitsValue([a]) == DigitValue(a) by {
      assert [a][..0] == [];
    }
  }

  /** Whitespace around the number does not change what `int` reads. */
  lemma ParseIntPadded(w1: string, t: string, w2: string)
    requires AllSpace(w1) && AllSpace(w2)
    ensures ParseInt(w1 + t + w2) == ParseInt(t)
  {
    StripPadded(w1, t, w2);
  }

  /** `int` reads a negative number's spelling back. */
  lemma ParseShowNegative(n: nat)
    requires n > 0
    ensures ParseInt("-" + ShowNat(n)) == Some(-(n as int))
  {
    var d := ShowNat(n);
    var s := "-" + d;
    assert s[1..] == d && s[0] == '-';
    assert s[|s| - 1] == d[|d| - 1];
    assert IsDigit(d[|d| - 1]);
    StripPlain(s);
    assert !AllDigits(s) by {
      assert !IsDigit(s[0]);
    }
    ShowNatValue(n);
    assert ParseSigned(s) == Some(0 - DigitsValue(d) as int);
  }

  /** `int` reads a natural number's spelling back. */
  lemma ParseShowNat(n: nat)
    ensures ParseInt(ShowNat(n)) == Some(n as int)
  {
    ShowNatValue(n);
    ParseDigits(ShowNat(n));
  }

  /** `int(str(i)) == i`. */
  lemma ParseShowInt(i: int)
    ensures ParseInt(ShowInt(i)) == Some(i)
  {
    if i < 0 {
      ShowIntNegative(i);
    } else {
      ShowIntNatural(i);
    }
  }

  lemma ShowIntNegative(i: int)
    requires i < 0
    ensures ParseInt(ShowInt(i)) == Some(i)
  {
    var n: nat := -i;
    assert ShowInt(i) == "-" + ShowNat(n);
    ParseShowNegative(n);
  }

  lemma ShowIntNatural(i: int)
    requires i >= 0
    ensures ParseInt(ShowInt(i)) == Some(i)
  {
    var n: nat := i;
    assert ShowInt(i) == ShowNat(n);
    ParseShowNat(n);
  }
}

=== FILE: free_space.dfy ===
/**
 `VMTools.check_free_space`: before a snapshot is taken, the storage domain
 must have more space available than the VM's disks need, enlarged by the
 configured safety threshold.  Sizes are in bytes; a disk whose size the
 engine does not report counts as zero.  Python's float arithmetic is
 modelled with exact `real`s.
 */
module FreeSpace {

  import opened Wrappers

  /** The summed size of the disks that report one. */
  function VmSize(disks: seq<Option<nat>>): nat
  {
    if |disks| == 0 then 0
    else (if disks[0].Some? then disks[0].value else 0) + VmSize(disks[1..])
  }

  /** The reported sizes alone, in order: a reference reading of which disks count. */
  function Reported(disks: seq<Option<nat>>): (sizes: seq<nat>)
    ensures |sizes| <= |disks|
    ensures forall k :: 0 <= k < |sizes| ==> Some(sizes[k]) in disks
  {
    if |disks| == 0 then []
    else if disks[0].Some? then [disks[0].value] + Reported(disks[1..])
    else Reported(disks[1..])
  }

  function Sum(sizes: seq<nat>): nat
  {
    if |sizes| == 0 then 0 else sizes[0] + Sum(sizes[1..])
  }

  /** The VM size is the plain sum of the sizes the engine reports; unreported sizes add nothing. */
  lemma {:induction false} VmSizeIsSumOfReported(disks: seq<Option<nat>>)
    ensures VmSize(disks) == Sum(Reported(disks))
  {
    if |disks| > 0 {
      VmSizeIsSumOfReported(disks[1..]);
    }
  }

  /** Sizes add up across a split of the disk list. */
  lemma {:induction false} VmSizeAppend(a: seq<Option<nat>>, b: seq<Option<nat>>)
    ensures VmSize(a + b) == VmSize(a) + VmSize(b)
  {
    if |a| > 0 {
      assert (a + b)[0] == a[0];
      assert (a + b)[1..] == a[1..] + b;
      VmSizeAppend(a[1..], b);
    } else {
      assert a + b == b;
    }
  }

  /** The threshold in effect: the configured one when positive, otherwise none. */
  function EffectiveThreshold(t: real): (e: real)
    ensures e >= 0.0
    ensures t > 0.0 ==> e == t
    ensures t <= 0.0 ==> e == 0.0
  {
    if t > 0.0 then t else 0.0
  }

  /** The space the backup is taken to need. */
  function Required(disks: seq<Option<nat>>, threshold: real): (need: real)
    ensures need >= VmSize(disks) as real
  {
    VmSize(disks) as real * (1.0 + EffectiveThreshold(threshold))
  }

  /** Whether `check_free_space` raises: the space left after the backup would not be positive. */
  function Raises(available: int, disks: seq<Option<nat>>, threshold: real): (raises: bool)
    ensures raises <==> available as real - VmSize(disks) as real * (1.0 + EffectiveThreshold(threshold)) <= 0.0
    ensures available <= 0 ==> raises
    ensures raises && threshold <= 0.0 ==> available <= VmSize(disks)
  {
    available as real - Required(disks, threshold) <= 0.0
  }

  /** A threshold that is zero or negative is ignored: the check is the plain comparison of sizes. */
  lemma NonPositiveThresholdIgnored(available: int, disks: seq<Option<nat>>, threshold: real)
    requires threshold <= 0.0
    ensures Raises(available, disks, threshold) == Raises(available, disks, 0.0)
    ensures Raises(available, disks, threshold) <==> available <= VmSize(disks)
  {
  }

  /** A larger threshold never lets through a VM that a smaller one stops. */
  lemma ThresholdMonotone(available: int, disks: seq<Option<nat>>, t1: real, t2: real)
    requires t1 <= t2 && Raises(available, disks, t1)
    ensures Raises(available, disks, t2)
  {
    assert EffectiveThreshold(t1) <= EffectiveThreshold(t2);
    FactorMonotone(VmSize(disks), 1.0 + EffectiveThreshold(t1), 1.0 + EffectiveThreshold(t2));
  }

  lemma FactorMonotone(n: nat, f1: real, f2: real)
    requires f1 <= f2
    ensures n as real * f1 <= n as real * f2
  {
    assert n as real * f2 - n as real * f1 == n as real * (f2 - f1);
  }

  /** Adding a disk never lets through a VM that was stopped without it. */
  lemma MoreDisksMonotone(available: int, disks: seq<Option<nat>>, extra: Option<nat>, threshold: real)
    requires Raises(available, disks, threshold)
    ensures Raises(available, disks + [extra], threshold)
  {
    RequiredMonotone(disks, extra, threshold);
  }

  lemma RequiredMonotone(disks: seq<Option<nat>>, extra: Option<nat>, threshold: real)
    ensures Required(disks, threshold) <= Required(disks + [extra], threshold)
  {
    VmSizeAppend(disks, [extra]);
    assert VmSize(disks + [extra]) == VmSize(disks) + VmSize([extra]);
    ScaleMonotone(VmSize(disks), VmSize(disks + [extra]), 1.0 + EffectiveThreshold(threshold));
  }

  lemma ScaleMonotone(a: nat, b: nat, f: real)
    requires a <= b && f >= 0.0
    ensures a as real * f <= b as real * f
  {
    assert b as real * f - a as real * f == (b - a) as real * f;
  }
}

=== FILE: json_string.dfy ===
/**
 The body of a JSON string as Python's `json.dumps` writes it with its
 default `ensure_ascii`: `"` and `\` are escaped with a backslash, the
 control characters that have a short form use it (`\b`, `\f`, `\n`, `\r`,
 `\t`), printable ASCII is copied, and every other character becomes
 `\uXXXX` with four lower-case hex digits, as a surrogate pair above
 U+FFFF.  `Unescape` is the decoding of a string body that section 7 of
 RFC 8259 defines; it is the reference the escaping is proved against.
 */
module JsonString {

  import opened Wrappers

  /** Printable ASCII only: in particular no newline. */
  predicate Printable(s: string)
  {
    forall i :: 0 <= i < |s| ==> ' ' <= s[i] <= '~'
  }

  /** A character `json.dumps` copies as it is. */
  predicate Verbatim(c: char)
  {
    ' ' <= c <= '~' && c != '"' && c != '\\'
  }

  // ----- hex digits -----

  /** The lower-case hex digit of `d`. */
  function HexDigit(d: nat): (c: char)
    requires d < 16
  {
    if d < 10 then ('0' as int + d) as char else ('a' as int + d - 10) as char
  }

  /** The value of a hex digit in either letter case. */
  function HexValue(c: char): (r: Option<nat>)
    ensures r.Some? ==> r.value < 16
  {
    if '0' <= c <= '9' then Some(c as int - '0' as int)
    else if 'a' <= c <= 'f' then Some(c as int - 'a' as int + 10)
    else if 'A' <= c <= 'F' then Some(c as int - 'A' as int + 10)
    else None
  }

  /** `n` as four lower-case hex digits, most significant first. */
  function Hex4(n: nat): (h: string)
    requires n < 0x10000
    ensures |h| == 4
  {
    var q1 := n / 16;
    var q2 := q1 / 16;
    [HexDigit(q2 / 16), HexDigit(q2 % 16), HexDigit(q1 % 16), HexDigit(n % 16)]
  }

  /** The value of four hex digits, or `None` if one of them is not a hex digit. */
  function Hex4Value(h: string): (r: Option<nat>)
    requires |h| == 4
    ensures r.Some? ==> r.value < 0x10000
  {
    match (HexValue(h[0]), HexValue(h[1]), HexValue(h[2]), HexValue(h[3]))
    case (Some(a), Some(b), Some(c), Some(d)) => Some(((a * 16 + b) * 16 + c) * 16 + d)
    case _ => None
  }

  lemma HexDigitValue(d: nat)
    requires d < 16
    ensures HexValue(HexDigit(d)) == Some(d)
  {
  }

  /** Four hex digits read back as the number they were written for. */
  lemma Hex4RoundTrip(n: nat)
    requires n < 0x10000
    ensures Hex4Value(Hex4(n)) == Some(n)
  {
    var q1 := n / 16;
    var q2 := q1 / 16;
    HexDigitValue(q2 / 16);
    HexDigitValue(q2 % 16);
    HexDigitValue(q1 % 16);
    HexDigitValue(n % 16);
  }

  // ----- escaping -----

  /** The high and low surrogate that stand for a character above U+FFFF. */
  function Surrogates(c: char): (p: (nat, nat))
    requires c as int >= 0x10000
    ensures 0xD800 <= p.0 < 0xDC00 && 0xDC00 <= p.1 < 0xE000
    ensures 0x10000 + (p.0 - 0xD800) * 1024 + (p.1 - 0xDC00) == c as int
  {
    var m := c as int - 0x10000;
    (0xD800 + m / 1024, 0xDC00 + m % 1024)
  }

  /** What `json.dumps` writes for one character of a string. */
  function EscapeChar(c: char): (e: string)
    ensures 0 < |e|
  {
    if c == '"' then "\\\""
    else if c == '\\' then "\\\\"
    else if c == '\n' then "\\n"
    else if c == '\r' then "\\r"
    else if c == '\t' then "\\t"
    else if c as int == 8 then "\\b"
    else if c as int == 12 then "\\f"
    else if ' ' <= c <= '~' then [c]
    else if c as int < 0x10000 then "\\u" + Hex4(c as int)
    else
      var p := Surrogates(c);
      "\\u" + Hex4(p.0) + "\\u" + Hex4(p.1)
  }

  /** What `json.dumps` writes between the quotes of a string. */
  function Escape(s: string): string
  {
    if |s| == 0 then "" else EscapeChar(s[0]) + Escape(s[1..])
  }

  // ----- the reference decoding -----

  /** The character a two-character escape `\e` stands for. */
  function ShortEscape(e: char): Option<char>
  {
    if e == '"' then Some('"')
    else if e == '\\' then Some('\\')
    else if e == '/' then Some('/')
    else if e == 'b' then Some(8 as char)
    else if e == 'f' then Some(12 as char)
    else if e == 'n' then Some('\n')
    else if e == 'r' then Some('\r')
    else if e == 't' then Some('\t')
    else None
  }

  /**
   A `\uXXXX` escape at the start of `s`: a high surrogate must be followed
   by a `\uXXXX` low surrogate, and a low surrogate alone stands for no
   character.
   */
  function ReadHexUnit(s: string): (r: Option<(char, nat)>)
    requires |s| >= 2 && s[0] == '\\' && s[1] == 'u'
    ensures r.Some? ==> 0 < r.value.1 <= |s|
  {
    if |s| < 6 then None
    else match Hex4Value(s[2..6])
      case None => None
      case Some(u) =>
        if 0xDC00 <= u < 0xE000 then None
        else if u < 0xD800 || 0xE000 <= u then Some((u as char, 6))
        else if |s| < 12 || s[6] != '\\' || s[7] != 'u' then None
        else match Hex4Value(s[8..12])
          case None => None
          case Some(l) =>
            if 0xDC00 <= l < 0xE000 then Some(((0x10000 + (u - 0xD800) * 1024 + (l - 0xDC00)) as char, 12))
            else None
  }

  /** The first character of a string body and how many characters of text stand for it. */
  function ReadUnit(s: string): (r: Option<(char, nat)>)
    requires |s| > 0
    ensures r.Some? ==> 0 < r.value.1 <= |s|
  {
    if s[0] == '"' || s[0] < ' ' then None
    else if s[0] != '\\' then Some((s[0], 1))
    else if |s| < 2 then None
    else if s[1] == 'u' then ReadHexUnit(s)
    else match ShortEscape(s[1])
      case Some(c) => Some((c, 2))
      case None => None
  }

  /** The text a JSON string body stands for, or `None` if it is not a valid body. */
  function Unescape(s: string): Option<string>
    decreases |s|
  {
    if |s| == 0 then Some("")
    else match ReadUnit(s)
      case None => None
      case Some((c, k)) =>
        match Unescape(s[k..])
        case None => None
        case Some(t) => Some([c] + t)
  }

  // ----- properties -----

  /** Reading one character's escape, followed by anything, gives that character back. */
  lemma ReadEscapeChar(c: char, rest: string)
    ensures ReadUnit(EscapeChar(c) + rest) == Some((c, |EscapeChar(c)|))
  {
    var s := EscapeChar(c) + rest;
    if c == '"' || c == '\\' || c == '\n' || c == '\r' || c == '\t' || c as int == 8 || c as int == 12 {
      assert s[0] == '\\' && s[1] == EscapeChar(c)[1];
    } else if ' ' <= c <= '~' {
      assert s[0] == c;
    } else if c as int < 0x10000 {
      ReadBmp(c, rest);
    } else {
      ReadPair(c, rest);
    }
  }

  lemma ReadBmp(c: char, rest: string)
    requires c as int < 0x10000 && !(' ' <= c <= '~')
    requires c != '\n' && c != '\r' && c != '\t' && c as int != 8 && c as int != 12
    ensures ReadUnit(EscapeChar(c) + rest) == Some((c, 6))
  {
    var s := EscapeChar(c) + rest;
    assert s == "\\u" + (Hex4(c as int) + rest);
    assert s[2..6] == Hex4(c as int);
    Hex4RoundTrip(c as int);
  }

  lemma ReadPair(c: char, rest: string)
    requires c as int >= 0x10000
    ensures ReadUnit(EscapeChar(c) + rest) == Some((c, 12))
  {
    var p := Surrogates(c);
    var s := EscapeChar(c) + rest;
    assert s == "\\u" + (Hex4(p.0) + ("\\u" + (Hex4(p.1) + rest)));
    assert s[2..6] == Hex4(p.0);
    assert s[8..12] == Hex4(p.1);
    Hex4RoundTrip(p.0);
    Hex4RoundTrip(p.1);
  }

  /** Decoding undoes `json.dumps`'s escaping: every text, whatever its characters, comes back. */
  lemma {:induction false} UnescapeEscape(s: string)
    ensures Unescape(Escape(s)) == Some(s)
    decreases |s|
  {
    if |s| > 0 {
      var e := EscapeChar(s[0]);
      ReadEscapeChar(s[0], Escape(s[1..]));
      assert (e + Escape(s[1..]))[|e|..] == Escape(s[1..]);
      UnescapeEscape(s[1..]);
      assert s == [s[0]] + s[1..];
    }
  }

  /** The escaped text is printable ASCII, whatever the input: this is `ensure_ascii`. */
  lemma {:induction false} EscapePrintable(s: string)
    ensures Printable(Escape(s))
    decreases |s|
  {
    if |s| > 0 {
      EscapeCharPrintable(s[0]);
      EscapePrintable(s[1..]);
    }
  }

  lemma HexDigitPrintable(d: nat)
    requires d < 16
    ensures ' ' <= HexDigit(d) <= '~'
  {
  }

  lemma Hex4Printable(n: nat)
    requires n < 0x10000
    ensures Printable(Hex4(n))
  {
    var q1 := n / 16;
    var q2 := q1 / 16;
    HexDigitPrintable(q2 / 16);
    HexDigitPrintable(q2 % 16);
    HexDigitPrintable(q1 % 16);
    HexDigitPrintable(n % 16);
  }

  lemma EscapeCharPrintable(c: char)
    ensures Printable(EscapeChar(c))
  {
    if c as int >= 0x10000 {
      var p := Surrogates(c);
      Hex4Printable(p.0);
      Hex4Printable(p.1);
    } else if !(' ' <= c <= '~') {
      Hex4Printable(c as int);
    }
  }

  /** The text is written as it is exactly when every character is copied verbatim. */
  lemma {:induction false} EscapeVerbatim(s: string)
    ensures Escape(s) == s <==> forall i :: 0 <= i < |s| ==> Verbatim(s[i])
    ensures |Escape(s)| >= |s|
    decreases |s|
  {
    if |s| > 0 {
      EscapeVerbatim(s[1..]);
      if Verbatim(s[0]) {
        assert s == [s[0]] + s[1..];
        assert forall i :: 0 < i < |s| ==> s[i] == s[1..][i - 1];
      } else {
        assert |EscapeChar(s[0])| >= 2;
        assert |Escape(s)| > |s|;
      }
    }
  }

  /** The escape of a few characters, written out. */
  lemma EscapeExamples()
    ensures EscapeChar('"') == "\\\"" && EscapeChar('\\') == "\\\\"
    ensures EscapeChar(233 as char) == "\\u00e9"
  {
    assert Hex4(233) == "00e9";
  }

  /** A character above U+FFFF, here U+1F600, is written as its surrogate pair. */
  lemma SurrogateExample()
    ensures EscapeChar(0x1F600 as char) == "\\ud83d\\ude00"
  {
    assert Surrogates(0x1F600 as char) == (0xD83D, 0xDE00);
    HighExample();
    LowExample();
  }

  lemma HighExample()
    ensures Hex4(0xD83D) == "d83d"
  {
  }

  lemma LowExample()
    ensures Hex4(0xDE00) == "de00"
  {
  }

  /** JSON reads `a\b` as `a` and a backspace, and `a\\b` as `a`, a backslash and `b`. */
  lemma BackslashUnescapes()
    ensures Unescape("a\\b") == Some("a" + [8 as char])
    ensures Unescape("a\\\\b") == Some("a\\b")
  {
    var bs := "a" + [8 as char];
    assert Escape(bs) == "a\\b" by {
      assert bs[0] == 'a' && bs[1..] == [8 as char] && bs[1..][1..] == "";
      assert EscapeChar(8 as char) == "\\b";
      assert Escape(bs[1..]) == "\\b" + "";
    }
    UnescapeEscape(bs);
    assert Escape("a\\b") == "a\\\\b" by {
      assert "a\\b"[1..] == "\\b" && "\\b"[1..] == "b";
    }
    UnescapeEscape("a\\b");
  }
}

=== FILE: re_template.dfy ===
/**
 The replacement template of Python 2's `re.sub`.  A backslash joins the
 character after it into one escape: `\a`, `\b`, `\f`, `\n`, `\r`, `\t`,
 `\v` and `\\` stand for one character each, and an escape of any other
 character that is no digit and no `g` stays as the two characters it is.
 A trailing backslash raises.  Group references (`\g<...>`, `\1`) and
 octal escapes (`\0`) are not modelled: like the raise, they give `None`.
 */
module ReTemplate {

  import opened Wrappers

  /** The character an escape `\e` stands for, when it is one of the template's escapes. */
  function EscapeValue(e: char): Option<char>
  {
    if e == 'a' then Some(7 as char)
    else if e == 'b' then Some(8 as char)
    else if e == 'f' then Some(12 as char)
    else if e == 'n' then Some('\n')
    else if e == 'r' then Some('\r')
    else if e == 't' then Some('\t')
    else if e == 'v' then Some(11 as char)
    else if e == '\\' then Some('\\')
    else None
  }

  /** An escape that names a group or an octal code. */
  predicate Reference(e: char)
  {
    e == 'g' || '0' <= e <= '9'
  }

  /** The text one token of the template stands for: one plain character, or a backslash and the character after it. */
  function Token(t: string): (r: Option<(string, nat)>)
    requires |t| > 0
    ensures r.Some? ==> 0 < r.value.1 <= |t|
  {
    if t[0] != '\\' then Some(([t[0]], 1))
    else if |t| == 1 || Reference(t[1]) then None
    else match EscapeValue(t[1])
      case Some(c) => Some(([c], 2))
      case None => Some((t[..2], 2))
  }

  /** The text `re.sub` inserts for the template `t`, or `None` where it raises. */
  function Expand(t: string): Option<string>
    decreases |t|
  {
    if |t| == 0 then Some("")
    else match Token(t)
      case None => None
      case Some((head, k)) =>
        match Expand(t[k..])
        case None => None
        case Some(rest) => Some(head + rest)
  }

  /** A template that `re.sub` inserts as it is. */
  predicate Kept(t: string)
  {
    Expand(t) == Some(t)
  }

  /** A template without a backslash is inserted as it is. */
  lemma {:induction false} PlainKept(t: string)
    requires forall i :: 0 <= i < |t| ==> t[i] != '\\'
    ensures Kept(t)
    decreases |t|
  {
    if |t| > 0 {
      PlainKept(t[1..]);
      assert t == [t[0]] + t[1..];
    }
  }

  /** Expanding two templates one after the other is expanding their concatenation, once the first one ends a token. */
  lemma {:induction false} ExpandAppend(a: string, b: string)
    requires Expand(a).Some?
    ensures Expand(a + b) == match Expand(b)
      case None => None
      case Some(y) => Some(Expand(a).value + y)
    decreases |a|
  {
    if |a| > 0 {
      var (head, k) := Token(a).value;
      TokenPrefix(a, b);
      assert (a + b)[k..] == a[k..] + b;
      ExpandAppend(a[k..], b);
      StepAppend(head, Expand(a[k..]).value, Expand(b));
    } else {
      assert a + b == b;
      if Expand(b).Some? {
        assert Expand(a).value + Expand(b).value == Expand(b).value;
      }
    }
  }

  /** The last step of `ExpandAppend`: the first token's text goes in front. */
  lemma StepAppend(head: string, x: string, y: Option<string>)
    ensures (match y case None => None case Some(z) => Some(head + x + z))
      == (match (match y case None => None case Some(z) => Some(x + z))
          case None => None case Some(w) => Some(head + w))
  {
    if y.Some? {
      assert head + (x + y.value) == head + x + y.value;
    }
  }

  /** A token that `a` starts with is unchanged by what follows `a`. */
  lemma TokenPrefix(a: string, b: string)
    requires |a| > 0 && Token(a).Some?
    ensures Token(a + b) == Token(a)
  {
    assert (a + b)[0] == a[0];
    if a[0] == '\\' {
      assert (a + b)[1] == a[1];
      assert (a + b)[..2] == a[..2];
    }
  }

  /** Two kept templates stay kept side by side. */
  lemma KeptAppend(a: string, b: string)
    requires Kept(a) && Kept(b)
    ensures Kept(a + b)
  {
    ExpandAppend(a, b);
  }

  /** Two templates `re.sub` accepts are accepted side by side. */
  lemma AcceptedAppend(a: string, b: string)
    requires Expand(a).Some? && Expand(b).Some?
    ensures Expand(a + b).Some?
  {
    ExpandAppend(a, b);
  }

  /** An escape that is none of the template's own is inserted as it is. */
  lemma OtherEscapeKept(e: char, rest: string)
    requires !Reference(e) && EscapeValue(e).None? && Kept(rest)
    ensures Kept("\\" + [e] + rest)
  {
    var t := "\\" + [e] + rest;
    assert t[0] == '\\' && t[1] == e && t[..2] == "\\" + [e] && t[2..] == rest;
  }

  /** A doubled backslash in front of a template is inserted as one. */
  lemma HalveBackslash(rest: string)
    requires Expand(rest).Some?
    ensures Expand("\\\\" + rest) == Some("\\" + Expand(rest).value)
  {
    var t := "\\\\" + rest;
    assert t[0] == '\\' && t[1] == '\\' && t[2..] == rest;
  }

  /** `\\` is inserted as one backslash, `\n` as a newline, and `\"` as it is; a lone backslash raises. */
  lemma TemplateExamples()
    ensures Expand("\\\\") == Some("\\")
    ensures Expand("\\n") == Some("\n")
    ensures Expand("\\\"") == Some("\\\"")
    ensures Expand("\\") == None
  {
    TwoCharToken("\\\\");
    TwoCharToken("\\n");
    TwoCharToken("\\\"");
    assert "\\\""[..2] == "\\\"";
  }

  lemma TwoCharToken(t: string)
    requires |t| == 2 && t[0] == '\\' && !Reference(t[1])
    ensures Expand(t) == Some(Token(t).value.0)
  {
    var head := Token(t).value.0;
    assert t[2..] == "" && Expand(t[2..]) == Some("");
    assert head + "" == head;
  }

  /** The template turns the doubled backslash back into one. */
  lemma HalvedBackslash()
    ensures Expand("[\"a\\\\b\"]") == Some("[\"a\\b\"]")
  {
    var pre, post := "[\"a", "b\"]";
    HalveBetween(pre, post);
    assert pre + ("\\\\" + post) == "[\"a\\\\b\"]";
    assert pre + ("\\" + post) == "[\"a\\b\"]";
  }

  /** A doubled backslash between two plain templates is inserted as one. */
  lemma HalveBetween(pre: string, post: string)
    requires forall i :: 0 <= i < |pre| ==> pre[i] != '\\'
    requires forall i :: 0 <= i < |post| ==> post[i] != '\\'
    ensures Expand(pre + ("\\\\" + post)) == Some(pre + ("\\" + post))
  {
    PlainKept(pre);
    PlainKept(post);
    HalveBackslash(post);
    ExpandAppend(pre, "\\\\" + post);
  }
}

=== FILE: retention.dfy ===
/**
 `VMTools.delete_old_backups`: retention on the export domain.  The names
 of the backups of one VM are sorted as Python sorts strings (by code
 point), and `sorted(names)[:-keep]` is deleted, so the `keep` greatest
 names are kept.  With the long suffix `_%Y%m%d_%H%M%S` these are the
 newest backups; the short suffix `_%m%d%S` has no year, hour or minute,
 so with it the order of the names is not the order of the dates.
 */
module Retention {

  import opened Strings

  predicate Sorted(s: seq<string>)
  {
    forall i, j :: 0 <= i < j < |s| ==> LexLe(s[i], s[j])
  }

  /** Inserts `x` before the first element it does not exceed. */
  function Insert(x: string, s: seq<string>): (r: seq<string>)
    requires Sorted(s)
    ensures Sorted(r) && |r| == |s| + 1
    ensures multiset(r) == multiset(s) + multiset{x}
  {
    if |s| == 0 then [x]
    else if LexLe(x, s[0]) then
      forall j | 0 < j < |s|
        ensures LexLe(x, s[j])
      {
        LexLeTransitive(x, s[0], s[j]);
      }
      [x] + s
    else
      LexLeTotal(x, s[0]);
      var tail := Insert(x, s[1..]);
      assert s == [s[0]] + s[1..];
      forall k | 0 <= k < |tail|
        ensures LexLe(s[0], tail[k])
      {
        assert tail[k] in multiset(s[1..]) + multiset{x};
        if tail[k] != x {
          assert tail[k] in s[1..];
          var j :| 0 <= j < |s[1..]| && s[1..][j] == tail[k];
          assert s[j + 1] == tail[k];
        }
      }
      [s[0]] + tail
  }

  /** `sorted(names)`. */
  function Sort(names: seq<string>): (r: seq<string>)
    ensures Sorted(r) && |r| == |names|
    ensures multiset(r) == multiset(names)
  {
    if |names| == 0 then []
    else
      assert names == [names[0]] + names[1..];
      Insert(names[0], Sort(names[1..]))
  }

  /** The end index of Python's slice `s[:stop]` on a sequence of length `len`. */
  function SliceEnd(len: nat, stop: int): (e: nat)
    ensures e <= len
    ensures stop >= 0 ==> e == if stop < len then stop else len
    ensures stop < 0 ==> e == if len + stop > 0 then len + stop else 0
  {
    if stop >= 0 then (if stop < len then stop else len)
    else if len + stop > 0 then len + stop else 0
  }

  /** The backups deleted: `sorted(names)[:-keep]`. */
  function Selection(names: seq<string>, keep: int): (sel: seq<string>)
    ensures |sel| <= |names| && sel == Sort(names)[..|sel|]
    ensures keep == 0 ==> sel == []
    ensures keep > 0 ==> |sel| == if |names| > keep then |names| - keep else 0
    ensures keep < 0 ==> |sel| == if -keep < |names| then -keep else |names|
  {
    var sorted := Sort(names);
    sorted[..SliceEnd(|sorted|, -keep)]
  }

  /**
   For a positive count, the selection is everything but the `keep`
   greatest names: selected and kept together are the names found, every
   selected name sorts before every kept one, at most `keep` are kept, and
   deletions go in ascending order.
   */
  lemma KeepsGreatest(names: seq<string>, keep: int)
    requires keep >= 1
    ensures var sel := Selection(names, keep);
      var kept := Sort(names)[|sel|..];
      && multiset(sel) + multiset(kept) == multiset(names)
      && |kept| == (if |names| < keep then |names| else keep)
      && (forall i, j :: 0 <= i < |sel| && 0 <= j < |kept| ==> LexLe(sel[i], kept[j]))
      && Sorted(sel)
  {
    var sorted := Sort(names);
    var sel := Selection(names, keep);
    var kept := sorted[|sel|..];
    assert sorted == sel + kept;
    forall i, j | 0 <= i < |sel| && 0 <= j < |kept|
      ensures LexLe(sel[i], kept[j])
    {
      assert sel[i] == sorted[i] && kept[j] == sorted[|sel| + j];
    }
  }

  /** With at most `keep` backups, or a count of zero, nothing is deleted. */
  lemma NothingWhenFew(names: seq<string>, keep: int)
    requires |names| <= keep || keep == 0
    ensures Selection(names, keep) == []
  {
  }

  /** A negative count turns the slice around: the `-keep` least names are deleted and the rest kept. */
  lemma NegativeKeepDeletesLeast(names: seq<string>, keep: int)
    requires keep < 0
    ensures var sel := Selection(names, keep);
      && |sel| == (if -keep < |names| then -keep else |names|)
      && forall i, j :: 0 <= i < |sel| <= j < |names| ==> LexLe(sel[i], Sort(names)[j])
  {
    var sorted := Sort(names);
    var sel := Selection(names, keep);
    forall i, j | 0 <= i < |sel| <= j < |names|
      ensures LexLe(sel[i], sorted[j])
    {
      assert sel[i] == sorted[i];
    }
  }

  /**
   A deleting call into the engine for one old backup.  The listing of the
   export domain and the lookup of each selected backup, which happen in
   dry-run too, change nothing and are not recorded.
   */
  datatype BackupCall = Delete(name: string) | AwaitGone(name: string)

  function LiveCalls(sel: seq<string>): (calls: seq<BackupCall>)
    ensures |calls| == 2 * |sel|
    ensures forall i :: 0 <= i < |sel| ==> calls[2 * i] == Delete(sel[i]) && calls[2 * i + 1] == AwaitGone(sel[i])
  {
    if |sel| == 0 then [] else [Delete(sel[0]), AwaitGone(sel[0])] + LiveCalls(sel[1..])
  }

  /** What one call did: the name pattern searched for, the backups selected, and the engine calls made. */
  datatype Cleanup = Cleanup(pattern: string, selected: seq<string>, calls: seq<BackupCall>)

  /**
   `delete_old_backups` with `names` the backups the export domain listed
   for the pattern.  In dry-run no backup is deleted and none awaited; in
   live mode each selected backup is deleted and then polled until gone.
   */
  function DeleteOldBackups(vmName: string, middle: string, names: seq<string>, keep: int, dryRun: bool): (r: Cleanup)
    ensures r.pattern == vmName + middle + "*"
    ensures r.selected == Selection(names, keep)
    ensures dryRun ==> r.calls == []
    ensures !dryRun ==> |r.calls| == 2 * |r.selected|
    ensures !dryRun ==> forall i :: 0 <= i < |r.selected| ==>
      r.calls[2 * i] == Delete(r.selected[i]) && r.calls[2 * i + 1] == AwaitGone(r.selected[i])
  {
    var sel := Selection(names, keep);
    Cleanup(vmName + middle + "*", sel, if dryRun then [] else LiveCalls(sel))
  }
}

=== FILE: snapshots.dfy ===
/**
 `VMTools.delete_snapshots`: deletes the backup snapshots of one VM.

 The snapshots found by description are numbered `0 .. n-1`.  The body of
 the inner `try` — issue the deletion (unless dry-run) and wait for the
 snapshot operation — is one attempt; the remote system is seen only as
 the trace of attempt outcomes.  An attempt that raises with `status: 409`
 in its message sleeps and retries the same snapshot; any other exception
 ends the program with exit status 1.
 */
module SnapshotCleanup {

  import opened Strings

  /** The outcome of one pass through the inner `try`. */
  datatype Attempt = Completed | Raised(message: string)

  /** The engine reports a conflicting operation still running. */
  predicate Retryable(a: Attempt)
  {
    a.Raised? && Contains("status: 409", a.message)
  }

  /** Any other exception: `sys.exit(1)`. */
  predicate Fatal(a: Attempt)
  {
    a.Raised? && !Contains("status: 409", a.message)
  }

  /** How the deletion loop ends: all slots done, `sys.exit(1)`, or still retrying when the trace ends. */
  datatype End = Finished | Exited | Retrying

  /** The snapshot the inner loop addresses after snapshot `index` of `n`, wrapping to the next outer pass. */
  function NextIndex(index: nat, n: nat): nat
  {
    if index + 1 < n then index + 1 else 0
  }

  /**
   The snapshots still to be deleted from position (`pass`, `index`) of the
   loop nest on: the rest of the current inner pass, then a full inner pass
   for every remaining outer pass.
   */
  function Schedule(n: nat, pass: nat, index: nat, passes: nat): seq<nat>
    requires index < n && pass <= passes
    decreases passes - pass, n - index
  {
    if pass == passes then []
    else if index + 1 < n then [index] + Schedule(n, pass, index + 1, passes)
    else [index] + Schedule(n, pass + 1, 0, passes)
  }

  /**
   The attempts consumed: `targets` holds the snapshot each attempt
   addressed, `completed` the snapshot of each attempt that completed.
   */
  datatype Progress = Progress(end: End, targets: seq<nat>, completed: seq<nat>)

  /**
   The inner `while True` from position (`pass`, `index`) of the loop
   nest: a completed attempt moves to the next snapshot, a retryable one
   stays on the same snapshot, a fatal one exits.
   */
  function Attempts(n: nat, pass: nat, index: nat, passes: nat, trace: seq<Attempt>): (p: Progress)
    requires index < n && pass <= passes
    ensures |p.targets| <= |trace|
    ensures p.completed <= Schedule(n, pass, index, passes)
    ensures p.end.Finished? <==> p.completed == Schedule(n, pass, index, passes)
    ensures p.end.Retrying? ==> |p.targets| == |trace|
    ensures p.end.Exited? ==> 0 < |p.targets| && Fatal(trace[|p.targets| - 1])
    ensures forall k :: 0 <= k < |p.targets| && Fatal(trace[k]) ==> p.end.Exited? && k == |p.targets| - 1
    decreases |trace|
  {
    if pass == passes then Progress(Finished, [], [])
    else if |trace| == 0 then Progress(Retrying, [], [])
    else
      match trace[0]
      case Completed =>
        if index + 1 < n then Advance(index, Attempts(n, pass, index + 1, passes, trace[1..]))
        else Advance(index, Attempts(n, pass + 1, 0, passes, trace[1..]))
      case Raised(message) =>
        if Contains("status: 409", message) then
          var rest := Attempts(n, pass, index, passes, trace[1..]);
          Progress(rest.end, [index] + rest.targets, rest.completed)
        else Progress(Exited, [index], [])
  }

  /** Prepends one completed attempt on snapshot `index`. */
  function Advance(index: nat, rest: Progress): (p: Progress)
    ensures p.end == rest.end && p.targets == [index] + rest.targets && p.completed == [index] + rest.completed
  {
    Progress(rest.end, [index] + rest.targets, [index] + rest.completed)
  }

  /**
   The snapshot an attempt addresses: the first is the current position; a
   retryable failure keeps the snapshot, a completed attempt moves on.
   */
  lemma {:induction false} AttemptTargets(n: nat, pass: nat, index: nat, passes: nat, trace: seq<Attempt>)
    requires index < n && pass <= passes
    ensures var p := Attempts(n, pass, index, passes, trace);
      && (forall k :: 0 <= k < |p.targets| ==> p.targets[k] < n)
      && (0 < |p.targets| ==> p.targets[0] == index)
      && (forall k :: 0 <= k < |p.targets| - 1 && Retryable(trace[k]) ==> p.targets[k + 1] == p.targets[k])
      && (forall k :: 0 <= k < |p.targets| - 1 && trace[k].Completed? ==> p.targets[k + 1] == NextIndex(p.targets[k], n))
    decreases |trace|
  {
    if pass < passes && |trace| > 0 {
      var p := Attempts(n, pass, index, passes, trace);
      match trace[0]
      case Completed =>
        if index + 1 < n {
          var rest := Attempts(n, pass, index + 1, passes, trace[1..]);
          AttemptTargets(n, pass, index + 1, passes, trace[1..]);
          TargetsCons(n, index, index + 1, rest.targets, trace);
        } else {
          var rest := Attempts(n, pass + 1, 0, passes, trace[1..]);
          AttemptTargets(n, pass + 1, 0, passes, trace[1..]);
          TargetsCons(n, index, 0, rest.targets, trace);
        }
      case Raised(message) =>
        if Contains("status: 409", message) {
          var rest := Attempts(n, pass, index, passes, trace[1..]);
          AttemptTargets(n, pass, index, passes, trace[1..]);
          TargetsCons(n, index, index, rest.targets, trace);
        }
    }
  }

  /** The target facts carry over when one attempt on `index` is put in front of the targets that follow it. */
  lemma TargetsCons(n: nat, index: nat, next: nat, rest: seq<nat>, trace: seq<Attempt>)
    requires index < n && |trace| > 0 && |rest| < |trace|
    requires Retryable(trace[0]) ==> next == index
    requires trace[0].Completed? ==> next == NextIndex(index, n)
    requires 0 < |rest| ==> rest[0] == next
    requires forall k :: 0 <= k < |rest| ==> rest[k] < n
    requires forall k :: 0 <= k < |rest| - 1 && Retryable(trace[1..][k]) ==> rest[k + 1] == rest[k]
    requires forall k :: 0 <= k < |rest| - 1 && trace[1..][k].Completed? ==> rest[k + 1] == NextIndex(rest[k], n)
    ensures var t := [index] + rest;
      && (forall k :: 0 <= k < |t| ==> t[k] < n)
      && (forall k :: 0 <= k < |t| - 1 && Retryable(trace[k]) ==> t[k + 1] == t[k])
      && (forall k :: 0 <= k < |t| - 1 && trace[k].Completed? ==> t[k + 1] == NextIndex(t[k], n))
  {
    var t := [index] + rest;
    forall k | 0 < k < |t|
      ensures t[k] == rest[k - 1] && (k < |t| - 1 ==> trace[k] == trace[1..][k - 1])
    {
    }
  }

  /**
   What one call did: how it ended, the snapshot each attempt addressed,
   the snapshot of every `delete()` issued, the snapshot of every completed
   attempt, and whether "Snapshots deleted" was logged.
   */
  datatype Run = Run(end: End, attempts: seq<nat>, deletes: seq<nat>, completed: seq<nat>, announced: bool)

  /** A run of the loop nest with `passes` outer passes over `n` snapshots. */
  function RunPasses(n: nat, passes: nat, dryRun: bool, trace: seq<Attempt>): (r: Run)
    ensures n == 0 ==> r == Run(Finished, [], [], [], false)
    ensures |r.attempts| <= |trace|
    ensures dryRun ==> r.deletes == []
    ensures !dryRun ==> r.deletes == r.attempts
    ensures forall k :: 0 <= k < |r.attempts| ==> r.attempts[k] < n
    ensures n > 0 ==> (r.end.Finished? <==> r.completed == Schedule(n, 0, 0, passes))
    ensures r.end.Exited? <==> exists k :: 0 <= k < |r.attempts| && Fatal(trace[k])
    ensures r.end.Exited? ==> Fatal(trace[|r.attempts| - 1])
    ensures r.end.Retrying? ==> |r.attempts| == |trace|
    ensures r.announced <==> r.end.Finished? && 0 < |r.completed|
  {
    if n == 0 then Run(Finished, [], [], [], false)
    else
      var p := Attempts(n, 0, 0, passes, trace);
      AttemptTargets(n, 0, 0, passes, trace);
      Run(p.end, p.targets, if dryRun then [] else p.targets, p.completed, p.end.Finished? && |p.completed| > 0)
  }

  /** The loop nest as written: `for i in snapshots` twice over the same list, so `n` outer passes. */
  function DeleteSnapshots(n: nat, dryRun: bool, trace: seq<Attempt>): (r: Run)
    ensures r == RunPasses(n, n, dryRun, trace)
  {
    RunPasses(n, n, dryRun, trace)
  }

  /** One pass over the snapshots, as the loop nest evidently intends. */
  function DeleteSnapshotsOnce(n: nat, dryRun: bool, trace: seq<Attempt>): (r: Run)
    ensures r == RunPasses(n, 1, dryRun, trace)
  {
    RunPasses(n, 1, dryRun, trace)
  }

  /** How often `j` occurs in `s`. */
  function Occurrences(s: seq<nat>, j: nat): nat
  {
    if |s| == 0 then 0 else (if s[0] == j then 1 else 0) + Occurrences(s[1..], j)
  }

  lemma {:induction false} OccurrencesCount(s: seq<nat>, j: nat)
    ensures Occurrences(s, j) == multiset(s)[j]
  {
    if |s| > 0 {
      OccurrencesCount(s[1..], j);
      assert s == [s[0]] + s[1..];
    }
  }

  /**
   How often snapshot `j` occurs in the schedule from position (`pass`,
   `index`): once more in the rest of the current pass if it is still
   ahead, and once in every later pass.
   */
  lemma {:induction false} ScheduleCount(n: nat, pass: nat, index: nat, passes: nat, j: nat)
    requires index < n && j < n && pass <= passes
    ensures Occurrences(Schedule(n, pass, index, passes), j)
      == if pass == passes then 0 else (if index <= j then 1 else 0) + (passes - pass - 1)
    decreases passes - pass, n - index
  {
    if pass < passes {
      if index + 1 < n {
        ScheduleCount(n, pass, index + 1, passes, j);
      } else {
        ScheduleCount(n, pass + 1, 0, passes, j);
      }
    }
  }

  /**
   When the loop nest finishes, every snapshot has been deleted
   successfully exactly `n` times: once per pass of the outer loop.
   */
  lemma EachSnapshotNTimes(n: nat, dryRun: bool, trace: seq<Attempt>, j: nat)
    requires j < n && DeleteSnapshots(n, dryRun, trace).end.Finished?
    ensures multiset(DeleteSnapshots(n, dryRun, trace).completed)[j] == n
  {
    ScheduleCount(n, 0, 0, n, j);
    OccurrencesCount(DeleteSnapshots(n, dryRun, trace).completed, j);
  }

  /** With one pass, every snapshot is deleted successfully exactly once. */
  lemma EachSnapshotOnce(n: nat, dryRun: bool, trace: seq<Attempt>, j: nat)
    requires j < n && DeleteSnapshotsOnce(n, dryRun, trace).end.Finished?
    ensures multiset(DeleteSnapshotsOnce(n, dryRun, trace).completed)[j] == 1
  {
    ScheduleCount(n, 0, 0, 1, j);
    OccurrencesCount(DeleteSnapshotsOnce(n, dryRun, trace).completed, j);
  }

  /**
   Two snapshots whose deletions all complete: the loop nest issues four
   deletions, addressing each snapshot again after it is already gone.
   */
  lemma NestedLoopRepeats()
    ensures DeleteSnapshots(2, false, [Completed, Completed, Completed, Completed]).deletes == [0, 1, 0, 1]
  {
  }
}

=== FILE: strings.dfy ===
/**
 String helpers shared by the model: substring search (Python's `in` on
 strings), ASCII lower-casing (`str.lower()` on the state names the engine
 reports) and Python's lexicographic string order (what `sorted` uses on a
 list of names).
 */
module Strings {

  /** Python's `needle in hay` on strings, defined by walking the haystack. */
  predicate Contains(needle: string, hay: string)
    decreases |hay|
  {
    needle <= hay || (|hay| > 0 && Contains(needle, hay[1..]))
  }

  /** The reference meaning of `Contains`: some window of `hay` spells `needle`. */
  ghost predicate OccursAt(needle: string, hay: string, i: int)
  {
    0 <= i && i + |needle| <= |hay| && hay[i..i + |needle|] == needle
  }

  lemma {:induction false} ContainsHasWitness(needle: string, hay: string) returns (i: int)
    requires Contains(needle, hay)
    ensures OccursAt(needle, hay, i)
    decreases |hay|
  {
    if needle <= hay {
      assert hay[0..|needle|] == needle;
      i := 0;
    } else {
      var j := ContainsHasWitness(needle, hay[1..]);
      assert hay[1..][j..j + |needle|] == hay[j + 1..j + 1 + |needle|];
      i := j + 1;
    }
  }

  lemma {:induction false} WitnessGivesContains(needle: string, hay: string, i: int)
    requires OccursAt(needle, hay, i)
    ensures Contains(needle, hay)
    decreases i
  {
    if i == 0 {
      assert hay[..|needle|] == needle;
    } else {
      assert hay[1..][i - 1..i - 1 + |needle|] == hay[i..i + |needle|];
      WitnessGivesContains(needle, hay[1..], i - 1);
    }
  }

  lemma ContainsIffOccurs(needle: string, hay: string)
    ensures Contains(needle, hay) <==> exists i :: OccursAt(needle, hay, i)
  {
    if Contains(needle, hay) {
      var i := ContainsHasWitness(needle, hay);
    }
    forall i | OccursAt(needle, hay, i)
      ensures Contains(needle, hay)
    {
      WitnessGivesContains(needle, hay, i);
    }
  }

  /** `str.lower()` restricted to ASCII: upper-case letters map to lower case. */
  function LowerChar(c: char): (r: char)
    ensures 'A' <= c <= 'Z' ==> 'a' <= r <= 'z' && r as int - c as int == 32
    ensures !('A' <= c <= 'Z') ==> r == c
  {
    if 'A' <= c <= 'Z' then (c as int + 32) as char else c
  }

  function Lower(s: string): (r: string)
    ensures |r| == |s|
    ensures forall i :: 0 <= i < |s| ==> r[i] == LowerChar(s[i])
  {
    if |s| == 0 then [] else [LowerChar(s[0])] + Lower(s[1..])
  }

  /**
   Python's `a <= b` on strings: `a` is a prefix of `b`, or at the first
   position where they differ `a` has the smaller code point.
   */
  predicate LexLe(a: string, b: string)
    decreases |a|
  {
    |a| == 0 || (|b| > 0 && (a[0] < b[0] || (a[0] == b[0] && LexLe(a[1..], b[1..]))))
  }

  lemma {:induction false} LexLeReflexive(a: string)
    ensures LexLe(a, a)
    decreases |a|
  {
    if |a| > 0 {
      LexLeReflexive(a[1..]);
    }
  }

  lemma {:induction false} LexLeAntisymmetric(a: string, b: string)
    requires LexLe(a, b) && LexLe(b, a)
    ensures a == b
    decreases |a|
  {
    if |a| > 0 {
      LexLeAntisymmetric(a[1..], b[1..]);
      assert a == [a[0]] + a[1..];
      assert b == [b[0]] + b[1..];
    }
  }

  lemma {:induction false} LexLeTransitive(a: string, b: string, c: string)
    requires LexLe(a, b) && LexLe(b, c)
    ensures LexLe(a, c)
    decreases |a|
  {
    if |a| > 0 && a[0] == b[0] && b[0] == c[0] {
      LexLeTransitive(a[1..], b[1..], c[1..]);
    }
  }

  lemma {:induction false} LexLeTotal(a: string, b: string)
    ensures LexLe(a, b) || LexLe(b, a)
    decreases |a|
  {
    if |a| > 0 && |b| > 0 && a[0] == b[0] {
      LexLeTotal(a[1..], b[1..]);
    }
  }

  /** The first index at or after `from` holding `c`, or `|t|` if there is none. */
  function IndexOf(t: string, c: char, from: nat): (k: nat)
    requires from <= |t|
    ensures from <= k <= |t|
    ensures k < |t| ==> t[k] == c
    ensures forall j :: from <= j < k ==> t[j] != c
    decreases |t| - from
  {
    if from == |t| then |t|
    else if t[from] == c then from
    else IndexOf(t, c, from + 1)
  }

  /** No newline except, possibly, as the last character: one line as `readlines` returns it. */
  predicate SingleLine(s: string)
  {
    forall i :: 0 <= i < |s| - 1 ==> s[i] != '\n'
  }

  /** The newline a line ends with, if any. */
  function LineEnd(s: string): string
  {
    if |s| > 0 && s[|s| - 1] == '\n' then "\n" else ""
  }

  /** `io.readlines`: the text cut after every newline; the last line may lack one. */
  function SplitLines(t: string): seq<string>
    decreases |t|
  {
    if |t| == 0 then []
    else
      var i := IndexOf(t, '\n', 0);
      if i == |t| then [t] else [t[..i + 1]] + SplitLines(t[i + 1..])
  }

  lemma SplitLinesCons(line: string, rest: string)
    requires |line| > 0 && SingleLine(line) && line[|line| - 1] == '\n'
    ensures SplitLines(line + rest) == [line] + SplitLines(rest)
  {
    var t := line + rest;
    forall j | 0 <= j < |line| - 1
      ensures t[j] != '\n'
    {
      assert t[j] == line[j];
    }
    assert t[|line| - 1] == '\n';
    assert IndexOf(t, '\n', 0) == |line| - 1;
    assert t[..|line|] == line;
    assert t[|line|..] == rest;
  }

  lemma SplitLinesTwo(a: string, b: string, rest: string)
    requires |a| > 0 && SingleLine(a) && a[|a| - 1] == '\n'
    requires |b| > 0 && SingleLine(b) && b[|b| - 1] == '\n'
    ensures SplitLines(a + (b + rest)) == [a, b] + SplitLines(rest)
  {
    calc {
      SplitLines(a + (b + rest));
      { SplitLinesCons(a, b + rest); }
      [a] + SplitLines(b + rest);
      { SplitLinesCons(b, rest); }
      [a] + ([b] + SplitLines(rest));
      [a, b] + SplitLines(rest);
    }
  }

  lemma SplitLinesLast(line: string)
    requires |line| > 0 && SingleLine(line) && line[|line| - 1] != '\n'
    ensures SplitLines(line) == [line]
  {
    assert IndexOf(line, '\n', 0) == |line|;
  }

  /** The characters Python's `str.strip()` removes. */
  predicate IsSpace(c: char)
  {
    c == ' ' || c == '\t' || c == '\n' || c == '\r' || c == '\U{B}' || c == '\U{C}'
  }

  function TrimLeft(s: string): (r: string)
    ensures |r| <= |s| && r == s[|s| - |r|..]
    ensures |r| > 0 ==> !IsSpace(r[0])
    ensures forall i :: 0 <= i < |s| - |r| ==> IsSpace(s[i])
  {
    if |s| > 0 && IsSpace(s[0]) then TrimLeft(s[1..]) else s
  }

  function TrimRight(s: string): (r: string)
    ensures |r| <= |s| && r == s[..|r|]
    ensures |r| > 0 ==> !IsSpace(r[|r| - 1])
    ensures forall i :: |r| <= i < |s| ==> IsSpace(s[i])
  {
    if |s| > 0 && IsSpace(s[|s| - 1]) then TrimRight(s[..|s| - 1]) else s
  }

  /** `str.strip()`. */
  function Strip(s: string): string
  {
    TrimRight(TrimLeft(s))
  }

  predicate AllSpace(w: string)
  {
    forall i :: 0 <= i < |w| ==> IsSpace(w[i])
  }

  /** Text that neither starts nor ends with a space is left as it is. */
  lemma StripPlain(t: string)
    requires |t| > 0 && !IsSpace(t[0]) && !IsSpace(t[|t| - 1])
    ensures Strip(t) == t
  {
  }

  lemma {:induction false} TrimLeftPadded(w: string, t: string)
    requires AllSpace(w)
    ensures TrimLeft(w + t) == TrimLeft(t)
    decreases |w|
  {
    if |w| > 0 {
      assert (w + t)[0] == w[0];
      assert (w + t)[1..] == w[1..] + t;
      TrimLeftPadded(w[1..], t);
    } else {
      assert w + t == t;
    }
  }

  lemma {:induction false} TrimRightPadded(t: string, w: string)
    requires AllSpace(w)
    ensures TrimRight(t + w) == TrimRight(t)
    decreases |w|
  {
    if |w| > 0 {
      var u := t + w;
      assert u[|u| - 1] == w[|w| - 1];
      assert u[..|u| - 1] == t + w[..|w| - 1];
      TrimRightPadded(t, w[..|w| - 1]);
    } else {
      assert t + w == t;
    }
  }

  /** Once some non-space is left, what follows it is kept whole. */
  lemma {:induction false} TrimLeftAppend(t: string, x: string)
    requires |TrimLeft(t)| > 0
    ensures TrimLeft(t + x) == TrimLeft(t) + x
    decreases |t|
  {
    assert (t + x)[0] == t[0];
    if IsSpace(t[0]) {
      assert (t + x)[1..] == t[1..] + x;
      TrimLeftAppend(t[1..], x);
    }
  }

  /** Text of spaces alone trims away entirely. */
  lemma TrimLeftAllSpace(w: string)
    requires AllSpace(w)
    ensures TrimLeft(w) == ""
  {
    TrimLeftPadded(w, "");
    assert w + "" == w;
  }

  /** `str.strip()` ignores any whitespace added around the text. */
  lemma StripPadded(w1: string, t: string, w2: string)
    requires AllSpace(w1) && AllSpace(w2)
    ensures Strip(w1 + t + w2) == Strip(t)
  {
    assert w1 + t + w2 == w1 + (t + w2);
    TrimLeftPadded(w1, t + w2);
    var r := TrimLeft(t);
    if |r| > 0 {
      TrimLeftAppend(t, w2);
      TrimRightPadded(r, w2);
    } else {
      assert AllSpace(t);
      TrimLeftPadded(t, w2);
      TrimLeftAllSpace(w2);
    }
  }
}
=== FILE: vmlist.dfy ===
/**
 `vmlist.get_vm_list`: builds the line `vm_names: ["a", "b"]` from a list
 of VM names and substitutes it for every line of the configuration file
 that begins with `vm_names`.  The line is `re.sub`'s replacement, so it
 is expanded as a template.  The file itself is not modelled, only its
 lines before and after.
 */
module VmList {

  import opened Wrappers
  import opened Strings
  import opened JsonString
  import opened VmNamesJson
  import opened ReTemplate
  import Config

  /** The first `i` names, each quoted and followed by `", "`: what the loop over `vms[:-1]` has appended after `i` rounds. */
  function Leading(names: seq<string>, i: nat): string
    requires i <= |names|
  {
    if i == 0 then "" else Leading(names, i - 1) + Quote(names[i - 1]) + ", "
  }

  lemma {:induction false} LeadingCons(names: seq<string>, i: nat)
    requires 0 < i <= |names|
    ensures Leading(names, i) == Quote(names[0]) + ", " + Leading(names[1..], i - 1)
  {
    if i > 1 {
      LeadingCons(names, i - 1);
      assert names[1..][i - 2] == names[i - 1];
    }
  }

  lemma {:induction false} ItemsAsLoop(names: seq<string>)
    requires |names| > 0
    ensures Items(names) == Leading(names, |names| - 1) + Quote(names[|names| - 1])
    decreases |names|
  {
    if |names| > 1 {
      ItemsAsLoop(names[1..]);
      LeadingCons(names, |names| - 1);
    }
  }

  /**
   The string `get_vm_list` builds.  An empty list raises `IndexError` at
   `vms[-1]` (here `None`); otherwise the line is `vm_names: ` followed by
   the names quoted verbatim, with no escaping, as a JSON-style list.
   */
  method BuildVmString(names: seq<string>) returns (line: Option<string>)
    ensures |names| == 0 <==> line.None?
    ensures line.Some? ==> line.value == "vm_names: " + Bracketed(names)
  {
    if |names| == 0 {
      return None;
    }
    var s := "vm_names: [";
    var i := 0;
    while i < |names| - 1
      invariant 0 <= i <= |names| - 1
      invariant s == "vm_names: [" + Leading(names, i)
    {
      s := s + ("\"" + names[i] + "\"" + ", ");
      i := i + 1;
    }
    s := s + ("\"" + names[|names| - 1] + "\"" + "]");
    ItemsAsLoop(names);
    assert s == "vm_names: " + ("[" + (Leading(names, |names| - 1) + Quote(names[|names| - 1])) + "]");
    line := Some(s);
  }

  /** `re.sub("^vm_names.*$", vmstring, line)`: the match stops before the line's own newline. */
  function SubstituteLine(line: string, vmstring: string): string
  {
    if "vm_names" <= line && SingleLine(line) then vmstring + LineEnd(line) else line
  }

  /**
   The file's lines after `get_vm_list`.  With no names the `IndexError`
   is caught before the file is opened, so the lines stay as they were.
   A template `re.sub` rejects raises `re.error` at its first call, before
   anything is written; that is caught too and the file is not renamed.
   */
  function GetVmList(names: seq<string>, lines: seq<string>): (out: seq<string>)
    ensures |out| == |lines|
  {
    if |names| == 0 then lines
    else match Expand("vm_names: " + Bracketed(names))
      case None => lines
      case Some(vmstring) =>
        seq(|lines|, i requires 0 <= i < |lines| => SubstituteLine(lines[i], vmstring))
  }

  /**
   Lines not beginning with `vm_names` are copied unchanged and in order;
   each line that does is replaced by the expanded string, keeping its
   newline, unless the template is rejected and the file stays as it was.
   */
  lemma GetVmListLines(names: seq<string>, lines: seq<string>, i: int)
    requires |names| > 0 && 0 <= i < |lines| && SingleLine(lines[i])
    ensures !("vm_names" <= lines[i]) ==> GetVmList(names, lines)[i] == lines[i]
    ensures "vm_names" <= lines[i] ==>
      GetVmList(names, lines)[i] == match Expand("vm_names: " + Bracketed(names))
        case Some(v) => v + LineEnd(lines[i])
        case None => lines[i]
  {
  }

  /** Names without a backslash are written as they are: the built string lands on every `vm_names` line. */
  lemma GetVmListPlain(names: seq<string>, lines: seq<string>, i: int)
    requires |names| > 0 && 0 <= i < |lines| && SingleLine(lines[i])
    requires forall k, j :: 0 <= k < |names| && 0 <= j < |names[k]| ==> names[k][j] != '\\'
    ensures "vm_names" <= lines[i] ==>
      GetVmList(names, lines)[i] == "vm_names: " + Bracketed(names) + LineEnd(lines[i])
  {
    forall k | 0 <= k < |names|
      ensures Kept(names[k])
    {
      PlainKept(names[k]);
    }
    BracketedKept(names);
    PlainKept("vm_names: ");
    KeptAppend("vm_names: ", Bracketed(names));
  }

  /** A name holding a group reference such as `\1` makes `re.sub` raise: the file stays as it was. */
  lemma GetVmListRejected(lines: seq<string>)
    ensures GetVmList(["\\1"], lines) == lines
  {
    var pre, post := "vm_names: [\"", "\\1\"]";
    assert Bracketed(["\\1"]) == "[\"\\1\"]";
    assert "vm_names: " + Bracketed(["\\1"]) == pre + post;
    PlainKept(pre);
    assert Token(post).None?;
    ExpandAppend(pre, post);
  }

  /** An empty list leaves the file untouched. */
  lemma GetVmListEmpty(lines: seq<string>)
    ensures GetVmList([], lines) == lines
  {
  }

  /**
   The line this module writes is one the configuration reader accepts,
   and its value reads back as the list of names.
   */
  lemma VmListReadsBack(names: seq<string>)
    requires |names| > 0 && SafeNames(names)
    ensures Config.IsVmNamesLine("vm_names: " + Bracketed(names))
    ensures ParseList(Config.LineValue("vm_names: " + Bracketed(names))) == Some(names)
  {
    var json := Bracketed(names);
    var l := "vm_names: " + json;
    SafePrintable(names);
    BracketedShape(names);
    PrintableLine(json);
    assert l[8] == ':';
    assert Config.SkipSpaces(l, 8) == 8;
    assert l[9..] == " " + json;
    StripSpaceBracketed(json);
    ParseDumps(names);
    DumpsSafe(names);
  }

  lemma PrintableLine(json: string)
    requires Printable(json)
    ensures SingleLine("vm_names: " + json)
  {
    var l := "vm_names: " + json;
    forall i | 0 <= i < |l| - 1
      ensures l[i] != '\n'
    {
      if 10 <= i {
        assert l[i] == json[i - 10];
      }
    }
  }

  lemma StripSpaceBracketed(json: string)
    requires |json| >= 2 && json[0] == '[' && json[|json| - 1] == ']'
    ensures Strip(" " + json) == json
  {
    assert (" " + json)[1..] == json;
    assert TrimLeft(" " + json) == json;
  }
}

=== FILE: vmnames_json.dfy ===
/**
 The JSON form of the `vm_names` option: a list of VM names as written by
 Python's `json.dumps` (default separators `", "`, each name escaped as
 `JsonString.Escape` says) and read back by `json.loads`, which takes any
 JSON whitespace between the tokens.  The reading side is modelled only
 for names made of printable ASCII other than `"`, `\` and `;`:
 `json.dumps` copies such names verbatim, with no escape sequence, and the
 configuration parser does not mistake any part of them for an inline
 comment.
 */
module VmNamesJson {

  import opened Wrappers
  import opened JsonString
  import opened ReTemplate

  /** A character written verbatim by `json.dumps` and read verbatim by the configuration parser. */
  predicate SafeChar(c: char)
  {
    Verbatim(c) && c != ';'
  }

  predicate SafeName(name: string)
  {
    forall i :: 0 <= i < |name| ==> SafeChar(name[i])
  }

  predicate SafeNames(names: seq<string>)
  {
    forall i :: 0 <= i < |names| ==> SafeName(names[i])
  }

  function Quote(name: string): string
  {
    "\"" + name + "\""
  }

  /** The items of a non-empty list, each quoted, separated by `", "`. */
  function Items(names: seq<string>): string
    requires |names| > 0
  {
    if |names| == 1 then Quote(names[0])
    else Quote(names[0]) + ", " + Items(names[1..])
  }

  /**
   The list with each name between quotes and `", "` between the items,
   nothing escaped: `get_vm_list` builds this text for any names.
   */
  function Bracketed(names: seq<string>): string
  {
    if |names| == 0 then "[]" else "[" + Items(names) + "]"
  }

  function EscapeAll(names: seq<string>): seq<string>
  {
    seq(|names|, i requires 0 <= i < |names| => Escape(names[i]))
  }

  /** `json.dumps(names)`: every name escaped, then quoted and listed. */
  function Dumps(names: seq<string>): string
  {
    Bracketed(EscapeAll(names))
  }

  /** For safe names `json.dumps` escapes nothing, so its text is the bracketed list. */
  lemma DumpsSafe(names: seq<string>)
    requires SafeNames(names)
    ensures Dumps(names) == Bracketed(names)
  {
    forall i | 0 <= i < |names|
      ensures Escape(names[i]) == names[i]
    {
      assert SafeName(names[i]);
      EscapeVerbatim(names[i]);
    }
    assert EscapeAll(names) == names;
  }

  // ----- the JSON text as an `re.sub` template -----

  /**
   A character whose JSON escape holds no escape of the replacement
   template: not a backslash, and none of the control characters that
   `json.dumps` writes as `\b`, `\f`, `\n`, `\r` or `\t`.
   */
  predicate TemplateSafe(c: char)
  {
    c != '\\' && c != '\n' && c != '\r' && c != '\t' && c as int != 8 && c as int != 12
  }

  predicate TemplateSafeNames(names: seq<string>)
  {
    forall i, j :: 0 <= i < |names| && 0 <= j < |names[i]| ==> TemplateSafe(names[i][j])
  }

  /** A character other than a backslash, in front of a kept template. */
  lemma PlainCons(c: char, rest: string)
    requires c != '\\' && Kept(rest)
    ensures Kept([c] + rest)
  {
    PlainKept([c]);
    KeptAppend([c], rest);
  }

  lemma HexKept(n: nat, rest: string)
    requires n < 0x10000 && Kept(rest)
    ensures Kept("\\u" + Hex4(n) + rest)
  {
    var h := Hex4(n);
    assert forall i :: 0 <= i < |h| ==> h[i] != '\\';
    PlainKept(h);
    KeptAppend(h, rest);
    OtherEscapeKept('u', h + rest);
    assert "\\" + ['u'] + (h + rest) == "\\u" + h + rest;
  }

  /** The escape of a template-safe character is inserted as it is. */
  lemma EscapeCharKept(c: char, rest: string)
    requires TemplateSafe(c) && Kept(rest)
    ensures Kept(EscapeChar(c) + rest)
  {
    if c == '"' {
      assert EscapeChar(c) + rest == "\\" + ['"'] + rest;
      OtherEscapeKept('"', rest);
    } else if ' ' <= c <= '~' {
      assert EscapeChar(c) == [c];
      PlainCons(c, rest);
    } else if c as int < 0x10000 {
      assert EscapeChar(c) == "\\u" + Hex4(c as int);
      HexKept(c as int, rest);
    } else {
      PairKept(c, rest);
    }
  }

  lemma PairKept(c: char, rest: string)
    requires c as int >= 0x10000 && Kept(rest)
    ensures Kept(EscapeChar(c) + rest)
  {
    var p := Surrogates(c);
    var low := "\\u" + Hex4(p.1) + rest;
    HexKept(p.1, rest);
    HexKept(p.0, low);
    assert EscapeChar(c) + rest == "\\u" + Hex4(p.0) + low;
  }

  lemma {:induction false} EscapeKept(s: string)
    requires forall i :: 0 <= i < |s| ==> TemplateSafe(s[i])
    ensures Kept(Escape(s))
    decreases |s|
  {
    if |s| == 0 {
      PlainKept("");
    } else {
      EscapeKept(s[1..]);
      EscapeCharKept(s[0], Escape(s[1..]));
    }
  }

  lemma {:induction false} ItemsKept(names: seq<string>)
    requires |names| > 0 && forall i :: 0 <= i < |names| ==> Kept(names[i])
    ensures Kept(Items(names))
    decreases |names|
  {
    var q := "\"";
    PlainKept(q);
    KeptAppend(q, names[0]);
    KeptAppend(q + names[0], q);
    if |names| > 1 {
      assert forall i :: 0 <= i < |names| - 1 ==> names[1..][i] == names[i + 1];
      ItemsKept(names[1..]);
      PlainKept(", ");
      KeptAppend(Quote(names[0]), ", ");
      KeptAppend(Quote(names[0]) + ", ", Items(names[1..]));
    }
  }

  /**
   `re.sub` writes the JSON text of a list unchanged when no name holds a
   backslash or one of the five control characters with a short escape.
   */
  lemma DumpsKept(names: seq<string>)
    requires TemplateSafeNames(names)
    ensures Kept(Dumps(names))
  {
    var escaped := EscapeAll(names);
    forall i | 0 <= i < |escaped|
      ensures Kept(escaped[i])
    {
      assert forall j :: 0 <= j < |names[i]| ==> TemplateSafe(names[i][j]);
      EscapeKept(names[i]);
    }
    BracketedKept(escaped);
  }

  /** `re.sub` accepts the escape of every character: the backslashes `json.dumps` writes never start a group reference. */
  lemma EscapeCharAccepted(c: char)
    ensures Expand(EscapeChar(c)).Some?
  {
    if TemplateSafe(c) {
      PlainKept("");
      EscapeCharKept(c, "");
      assert EscapeChar(c) + "" == EscapeChar(c);
    } else {
      TwoCharToken(EscapeChar(c));
    }
  }

  lemma {:induction false} EscapeAccepted(s: string)
    ensures Expand(Escape(s)).Some?
    decreases |s|
  {
    if |s| == 0 {
      PlainKept("");
    } else {
      EscapeAccepted(s[1..]);
      EscapeCharAccepted(s[0]);
      AcceptedAppend(EscapeChar(s[0]), Escape(s[1..]));
    }
  }

  lemma {:induction false} ItemsAccepted(names: seq<string>)
    requires |names| > 0 && forall i :: 0 <= i < |names| ==> Expand(names[i]).Some?
    ensures Expand(Items(names)).Some?
    decreases |names|
  {
    var q := "\"";
    PlainKept(q);
    AcceptedAppend(q, names[0]);
    AcceptedAppend(q + names[0], q);
    if |names| > 1 {
      assert forall i :: 0 <= i < |names| - 1 ==> names[1..][i] == names[i + 1];
      ItemsAccepted(names[1..]);
      PlainKept(", ");
      AcceptedAppend(Quote(names[0]), ", ");
      AcceptedAppend(Quote(names[0]) + ", ", Items(names[1..]));
    }
  }

  /** Whatever the names, `re.sub` accepts the JSON text of the list as its replacement. */
  lemma DumpsAccepted(names: seq<string>)
    ensures Expand(Dumps(names)).Some?
  {
    var escaped := EscapeAll(names);
    forall i | 0 <= i < |escaped|
      ensures Expand(escaped[i]).Some?
    {
      EscapeAccepted(names[i]);
    }
    PlainKept("[]");
    PlainKept("[");
    PlainKept("]");
    if |escaped| > 0 {
      ItemsAccepted(escaped);
      AcceptedAppend("[", Items(escaped));
      AcceptedAppend("[" + Items(escaped), "]");
    }
  }

  /** A list of kept names is inserted as it is. */
  lemma BracketedKept(names: seq<string>)
    requires forall i :: 0 <= i < |names| ==> Kept(names[i])
    ensures Kept(Bracketed(names))
  {
    PlainKept("[]");
    PlainKept("[");
    PlainKept("]");
    if |names| > 0 {
      ItemsKept(names);
      KeptAppend("[", Items(names));
      KeptAppend("[" + Items(names), "]");
    }
  }

  /** The first index at or after `from` that holds a `"`, or `|t|` if none does. */
  function QuoteIndex(t: string, from: nat): (k: nat)
    requires from <= |t|
    ensures from <= k <= |t|
    ensures k < |t| ==> t[k] == '"'
    ensures forall j :: from <= j < k ==> t[j] != '"'
    decreases |t| - from
  {
    if from == |t| then |t|
    else if t[from] == '"' then from
    else QuoteIndex(t, from + 1)
  }

  /** The whitespace JSON allows between tokens. */
  predicate IsJsonSpace(c: char)
  {
    c == ' ' || c == '\t' || c == '\n' || c == '\r'
  }

  predicate AllJsonSpace(w: string)
  {
    forall i :: 0 <= i < |w| ==> IsJsonSpace(w[i])
  }

  /** The text after its leading JSON whitespace. */
  function SkipJsonSpace(t: string): (r: string)
    ensures |r| <= |t|
  {
    if |t| > 0 && IsJsonSpace(t[0]) then SkipJsonSpace(t[1..]) else t
  }

  /** Whitespace put before a token is skipped up to the token. */
  lemma {:induction false} SkipPadded(w: string, t: string)
    requires AllJsonSpace(w) && (|t| == 0 || !IsJsonSpace(t[0]))
    ensures SkipJsonSpace(w + t) == t
    decreases |w|
  {
    if |w| > 0 {
      assert (w + t)[0] == w[0];
      assert (w + t)[1..] == w[1..] + t;
      SkipPadded(w[1..], t);
    } else {
      assert w + t == t;
    }
  }

  /** Reads the quoted items of a list body and the closing bracket. */
  function ParseItems(t: string): Option<seq<string>>
    decreases |t|
  {
    if |t| < 2 || t[0] != '"' then None
    else
      var k := QuoteIndex(t, 1);
      if k == |t| then None else ParseAfterItem(t[1..k], SkipJsonSpace(t[k + 1..]))
  }

  /**
   Continues after one quoted item `name`: the closing bracket and nothing
   but whitespace, or a comma and more items.
   */
  function ParseAfterItem(name: string, rest: string): Option<seq<string>>
    decreases |rest|
  {
    if !SafeName(name) || |rest| == 0 then None
    else if rest[0] == ']' then (if AllJsonSpace(rest[1..]) then Some([name]) else None)
    else if rest[0] == ',' then
      match ParseItems(SkipJsonSpace(rest[1..]))
      case Some(more) => Some([name] + more)
      case None => None
    else None
  }

  /**
   `json.loads` on the modelled subset: a list of safe names, with JSON
   whitespace allowed before and after every token.  `None` stands for
   text outside that subset (or not JSON at all).
   */
  function ParseList(s: string): Option<seq<string>>
  {
    var t := SkipJsonSpace(s);
    if |t| == 0 || t[0] != '[' then None
    else
      var u := SkipJsonSpace(t[1..]);
      if |u| > 0 && u[0] == ']' then (if AllJsonSpace(u[1..]) then Some([]) else None)
      else ParseItems(u)
  }

  predicate AllGaps(gaps: seq<string>)
  {
    forall i :: 0 <= i < |gaps| ==> AllJsonSpace(gaps[i])
  }

  /**
   The quoted items and the closing bracket: each item is followed by its
   gap, then by a comma and the next gap, or, after the last item, by the
   bracket and `trail`.
   */
  function ItemsClose(names: seq<string>, gaps: seq<string>, trail: string): string
    requires |names| > 0 && |gaps| == 2 * |names| - 1
  {
    if |names| == 1 then Quote(names[0]) + (gaps[0] + ("]" + trail))
    else Quote(names[0]) + (gaps[0] + ("," + (gaps[1] + ItemsClose(names[1..], gaps[2..], trail))))
  }

  /** How many gaps the items of `n` names have: after each item, and after each comma. */
  function InnerCount(n: nat): nat
  {
    if n == 0 then 0 else 2 * n - 1
  }

  /**
   The list `names` written with whitespace around its tokens: `lead`
   before the opening bracket, `open` after it, `inner` after each item and
   each comma, `trail` after the closing bracket.
   */
  function Layout(names: seq<string>, lead: string, open: string, inner: seq<string>, trail: string): string
    requires |inner| == InnerCount(|names|)
  {
    lead + ("[" + (open + (if |names| == 0 then "]" + trail else ItemsClose(names, inner, trail))))
  }

  /** Whitespace in every gap of a layout. */
  predicate Spaced(lead: string, open: string, inner: seq<string>, trail: string)
  {
    AllJsonSpace(lead) && AllJsonSpace(open) && AllGaps(inner) && AllJsonSpace(trail)
  }

  /** The gaps between the items `json.dumps` writes: none, except the space after each comma. */
  function ItemGaps(n: nat): (gaps: seq<string>)
    requires n > 0
    ensures |gaps| == 2 * n - 1 && AllGaps(gaps)
  {
    if n == 1 then [""] else ["", " "] + ItemGaps(n - 1)
  }

  function DumpsGaps(n: nat): (gaps: seq<string>)
    ensures |gaps| == InnerCount(n) && AllGaps(gaps)
  {
    if n == 0 then [] else ItemGaps(n)
  }

  lemma {:induction false} ItemsAsLayout(names: seq<string>)
    requires |names| > 0
    ensures Items(names) + "]" == ItemsClose(names, ItemGaps(|names|), "")
    decreases |names|
  {
    var x := names[0];
    var gaps := ItemGaps(|names|);
    if |names| > 1 {
      ItemsAsLayout(names[1..]);
      assert gaps[0] == "" && gaps[1] == " " && gaps[2..] == ItemGaps(|names| - 1);
      var r := Items(names[1..]);
      calc {
        Items(names) + "]";
        Quote(x) + ", " + r + "]";
        { Associative4(Quote(x), ", ", r, "]"); }
        Quote(x) + (", " + (r + "]"));
        Quote(x) + ("" + ("," + (" " + (r + "]"))));
      }
    } else {
      assert Items(names) + "]" == Quote(x) + ("" + ("]" + ""));
    }
  }

  lemma Associative4(a: string, b: string, c: string, d: string)
    ensures a + b + c + d == a + (b + (c + d))
  {
  }

  /** The bracketed list is one of the layouts of the list. */
  lemma BracketedLayout(names: seq<string>)
    ensures Bracketed(names) == Layout(names, "", "", DumpsGaps(|names|), "")
  {
    if |names| > 0 {
      ItemsAsLayout(names);
      assert Bracketed(names) == "[" + (Items(names) + "]");
    }
  }

  /** After a quoted safe name, the parser resumes at the first token that follows it. */
  lemma ParseItemsOfQuoted(name: string, tail: string)
    requires SafeName(name)
    ensures ParseItems(Quote(name) + tail) == ParseAfterItem(name, SkipJsonSpace(tail))
  {
    var t := Quote(name) + tail;
    forall j | 1 <= j < |name| + 1
      ensures t[j] != '"'
    {
      assert t[j] == name[j - 1];
    }
    assert t[|name| + 1] == '"';
    var k := QuoteIndex(t, 1);
    assert k == |name| + 1;
    assert t[1..k] == name;
    assert t[k + 1..] == tail;
  }

  lemma ItemsCloseStart(names: seq<string>, gaps: seq<string>, trail: string)
    requires |names| > 0 && |gaps| == 2 * |names| - 1
    ensures |ItemsClose(names, gaps, trail)| > 0 && ItemsClose(names, gaps, trail)[0] == '"'
  {
  }

  /** The items of a layout, closed by the bracket and any whitespace, read back as the names. */
  lemma {:induction false} ParseItemsClose(names: seq<string>, gaps: seq<string>, trail: string)
    requires |names| > 0 && |gaps| == 2 * |names| - 1 && SafeNames(names) && AllGaps(gaps) && AllJsonSpace(trail)
    ensures ParseItems(ItemsClose(names, gaps, trail)) == Some(names)
    decreases |names|
  {
    var x := names[0];
    assert SafeName(x) && AllJsonSpace(gaps[0]);
    if |names| == 1 {
      ParseItemsOfQuoted(x, gaps[0] + ("]" + trail));
      SkipPadded(gaps[0], "]" + trail);
      assert ("]" + trail)[1..] == trail;
      assert names == [x];
    } else {
      var more := names[1..];
      assert SafeNames(more) && AllGaps(gaps[2..]) && AllJsonSpace(gaps[1]);
      var r := ItemsClose(more, gaps[2..], trail);
      ParseItemsClose(more, gaps[2..], trail);
      ItemsCloseStart(more, gaps[2..], trail);
      ParseItemsOfQuoted(x, gaps[0] + ("," + (gaps[1] + r)));
      SkipPadded(gaps[0], "," + (gaps[1] + r));
      assert ("," + (gaps[1] + r))[1..] == gaps[1] + r;
      SkipPadded(gaps[1], r);
      assert names == [x] + more;
    }
  }

  /** Any layout of safe names, whatever its whitespace, reads back as the names. */
  lemma ParseLayout(names: seq<string>, lead: string, open: string, inner: seq<string>, trail: string)
    requires SafeNames(names) && |inner| == InnerCount(|names|) && Spaced(lead, open, inner, trail)
    ensures ParseList(Layout(names, lead, open, inner, trail)) == Some(names)
  {
    var x := if |names| == 0 then "]" + trail else ItemsClose(names, inner, trail);
    var t := "[" + (open + x);
    SkipPadded(lead, t);
    assert t[1..] == open + x;
    if |names| == 0 {
      SkipPadded(open, x);
      assert x[1..] == trail;
    } else {
      ItemsCloseStart(names, inner, trail);
      SkipPadded(open, x);
      ParseItemsClose(names, inner, trail);
    }
  }

  /** Reading back what `json.dumps` wrote yields the same list. */
  lemma ParseDumps(names: seq<string>)
    requires SafeNames(names)
    ensures ParseList(Dumps(names)) == Some(names)
  {
    DumpsSafe(names);
    BracketedLayout(names);
    ParseLayout(names, "", "", DumpsGaps(|names|), "");
  }

  lemma QuoteSplit(t: string, k: nat)
    requires 1 <= k < |t| && t[0] == '"' && t[k] == '"'
    ensures t == Quote(t[1..k]) + t[k + 1..]
  {
    var q := Quote(t[1..k]);
    assert |q| == k + 1;
    forall i | 0 <= i <= k
      ensures q[i] == t[i]
    {
      if 0 < i < k {
        assert q[i] == t[1..k][i - 1];
      }
    }
    assert q == t[..k + 1];
    assert t == t[..k + 1] + t[k + 1..];
  }

  lemma SafeNamesCons(name: string, more: seq<string>)
    requires SafeName(name) && SafeNames(more)
    ensures SafeNames([name] + more)
  {
    var all := [name] + more;
    forall i | 0 <= i < |all|
      ensures SafeName(all[i])
    {
      if i > 0 {
        assert all[i] == more[i - 1];
      }
    }
  }

  /** A parsed body starts with one quoted item, and the rest is parsed after it. */
  lemma ParseItemsShape(t: string, names: seq<string>)
    requires ParseItems(t) == Some(names)
    ensures var k := QuoteIndex(t, 1);
      && 1 <= k < |t| && t == Quote(t[1..k]) + t[k + 1..]
      && ParseAfterItem(t[1..k], SkipJsonSpace(t[k + 1..])) == Some(names)
  {
    var k := QuoteIndex(t, 1);
    QuoteSplit(t, k);
  }

  lemma ParseAfterShape(name: string, rest: string, names: seq<string>)
    requires ParseAfterItem(name, rest) == Some(names)
    ensures SafeName(name) && |rest| > 0 && |names| > 0 && names[0] == name
    ensures rest[0] == ']' ==> names == [name] && AllJsonSpace(rest[1..])
    ensures rest[0] != ']' ==> rest[0] == ',' && ParseItems(SkipJsonSpace(rest[1..])) == Some(names[1..])
  {
  }

  lemma GapsCons(a: string, b: string, gs: seq<string>)
    requires AllJsonSpace(a) && AllJsonSpace(b) && AllGaps(gs)
    ensures AllGaps([a, b] + gs)
  {
    var all := [a, b] + gs;
    forall i | 0 <= i < |all|
      ensures AllJsonSpace(all[i])
    {
      if i >= 2 {
        assert all[i] == gs[i - 2];
      }
    }
  }

  /** A text is its first character followed by its remainder. */
  lemma HeadSplit(t: string, c: char)
    requires |t| > 0 && t[0] == c
    ensures t == [c] + t[1..]
  {
  }

  /** The whitespace skipped and the text left, as one split. */
  lemma {:induction false} Skipped(t: string) returns (w: string)
    ensures AllJsonSpace(w) && t == w + SkipJsonSpace(t)
    ensures |SkipJsonSpace(t)| == 0 || !IsJsonSpace(SkipJsonSpace(t)[0])
    decreases |t|
  {
    if |t| > 0 && IsJsonSpace(t[0]) {
      var w1 := Skipped(t[1..]);
      w := [t[0]] + w1;
      HeadSplit(t, t[0]);
      assert [t[0]] + (w1 + SkipJsonSpace(t[1..])) == w + SkipJsonSpace(t[1..]);
    } else {
      w := [];
    }
  }

  /**
   The items a body parses to, with the gaps found between them and the
   whitespace after the closing bracket: the body is exactly their layout.
   */
  lemma {:induction false} ItemsOfParse(t: string, names: seq<string>) returns (gaps: seq<string>, trail: string)
    requires ParseItems(t) == Some(names)
    ensures |names| > 0 && SafeNames(names) && |gaps| == 2 * |names| - 1 && AllGaps(gaps) && AllJsonSpace(trail)
    ensures t == ItemsClose(names, gaps, trail)
    decreases |t|
  {
    ParseItemsShape(t, names);
    var k := QuoteIndex(t, 1);
    var name := t[1..k];
    var after := t[k + 1..];
    var rest := SkipJsonSpace(after);
    var w := Skipped(after);
    ParseAfterShape(name, rest, names);
    if rest[0] == ']' {
      gaps := [w];
      trail := rest[1..];
      HeadSplit(rest, ']');
      assert names == [name];
      assert ItemsClose(names, gaps, trail) == Quote(name) + (w + ("]" + trail));
    } else {
      var r2 := SkipJsonSpace(rest[1..]);
      var w2 := Skipped(rest[1..]);
      HeadSplit(rest, ',');
      var more := names[1..];
      var gaps2;
      gaps2, trail := ItemsOfParse(r2, more);
      gaps := [w, w2] + gaps2;
      GapsCons(w, w2, gaps2);
      assert names == [name] + more;
      SafeNamesCons(name, more);
      assert gaps[0] == w && gaps[1] == w2 && gaps[2..] == gaps2;
      assert ItemsClose(names, gaps, trail) == Quote(name) + (w + ("," + (w2 + ItemsClose(more, gaps2, trail))));
    }
  }

  /**
   Everything the parser accepts is a layout of the list it returns: the
   list's tokens with nothing but JSON whitespace around them.
   */
  lemma DumpsParse(s: string, names: seq<string>)
    requires ParseList(s) == Some(names)
    ensures SafeNames(names)
    ensures exists lead, open, inner, trail ::
      |inner| == InnerCount(|names|) && Spaced(lead, open, inner, trail) && Layout(names, lead, open, inner, trail) == s
  {
    var t := SkipJsonSpace(s);
    var lead := Skipped(s);
    var u := SkipJsonSpace(t[1..]);
    var open := Skipped(t[1..]);
    HeadSplit(t, '[');
    if |u| > 0 && u[0] == ']' {
      var trail := u[1..];
      HeadSplit(u, ']');
      assert names == [];
      assert Spaced(lead, open, [], trail);
      assert Layout(names, lead, open, [], trail) == s;
    } else {
      var inner, trail := ItemsOfParse(u, names);
      assert Layout(names, lead, open, inner, trail) == s;
    }
  }

  /** The fixture value `["vm1", "vm2"]` reads as the two names. */
  lemma ParseFixture()
    ensures ParseList("[\"vm1\", \"vm2\"]") == Some(["vm1", "vm2"])
  {
    assert Bracketed(["vm1", "vm2"]) == "[\"vm1\", \"vm2\"]";
    ParseDumps(["vm1", "vm2"]);
    DumpsSafe(["vm1", "vm2"]);
  }

  /** Two names written without the space after the comma, as in `["vm1","vm2"]`, read back as the two names. */
  lemma ParsePair(a: string, b: string)
    requires SafeName(a) && SafeName(b)
    ensures ParseList("[" + (Quote(a) + ("," + (Quote(b) + "]")))) == Some([a, b])
  {
    var names := [a, b];
    assert SafeNames(names);
    var gaps := ["", "", ""];
    assert AllGaps(gaps);
    assert names[1..] == [b] && gaps[2..] == [""];
    assert ItemsClose(names[1..], gaps[2..], "") == Quote(b) + ("" + ("]" + ""));
    assert Layout(names, "", "", gaps, "") == "[" + (Quote(a) + ("," + (Quote(b) + "]")));
    ParseLayout(names, "", "", gaps, "");
  }

  lemma {:induction false} ItemsPrintable(names: seq<string>)
    requires |names| > 0 && forall i :: 0 <= i < |names| ==> Printable(names[i])
    ensures Printable(Items(names))
    decreases |names|
  {
    if |names| > 1 {
      assert forall i :: 0 <= i < |names| - 1 ==> names[1..][i] == names[i + 1];
      ItemsPrintable(names[1..]);
    }
  }

  /** A bracketed list of printable names is one printable line, from `[` to `]`. */
  lemma BracketedShape(names: seq<string>)
    requires forall i :: 0 <= i < |names| ==> Printable(names[i])
    ensures var d := Bracketed(names); |d| >= 2 && d[0] == '[' && d[|d| - 1] == ']' && Printable(d)
  {
    if |names| > 0 {
      ItemsPrintable(names);
    }
  }

  /** Every name of a safe list is printable. */
  lemma SafePrintable(names: seq<string>)
    requires SafeNames(names)
    ensures forall i :: 0 <= i < |names| ==> Printable(names[i])
  {
    forall i | 0 <= i < |names|
      ensures Printable(names[i])
    {
      assert SafeName(names[i]);
    }
  }

  /**
   The JSON text of any list is one printable ASCII line, from `[` to `]`:
   `json.dumps` escapes every other character.
   */
  lemma DumpsShape(names: seq<string>)
    ensures var d := Dumps(names); |d| >= 2 && d[0] == '[' && d[|d| - 1] == ']' && Printable(d)
  {
    var escaped := EscapeAll(names);
    forall i | 0 <= i < |escaped|
      ensures Printable(escaped[i])
    {
      EscapePrintable(names[i]);
    }
    BracketedShape(escaped);
  }
}

=== FILE: waiter.dfy ===
/**
 The poll loops of `vmtools.py`.  The engine is seen only through a
 finite trace of observations, one per poll; a loop stops at the first
 observation that satisfies its exit test and sleeps once after every
 other one.  When no observation in the trace satisfies the test the loop
 is still waiting when the trace ends: the source places no bound on it.
 */
module Waiter {

  import opened Wrappers
  import opened Strings

  /**
   The index of the first poll whose observation satisfies `stop` (the
   number of sleeps taken before leaving the loop), or `None` while the
   loop is still waiting at the end of the trace.
   */
  method FirstStop<T>(trace: seq<T>, stop: T -> bool) returns (r: Option<nat>)
    ensures r.Some? ==> r.value < |trace| && stop(trace[r.value])
    ensures r.Some? ==> forall j :: 0 <= j < r.value ==> !stop(trace[j])
    ensures r.None? ==> forall j :: 0 <= j < |trace| ==> !stop(trace[j])
  {
    var i := 0;
    while i < |trace|
      invariant 0 <= i <= |trace|
      invariant forall j :: 0 <= j < i ==> !stop(trace[j])
    {
      if stop(trace[i]) {
        return Some(i);
      }
      i := i + 1;
    }
    return None;
  }

  // ----- wait_for_snapshot_operation -----

  /**
   One poll of the snapshots carrying the backup description: the text of
   each one's status, in the order the engine lists them.
   */
  type SnapshotPoll = seq<string>

  /** The loop leaves when no snapshot is listed or when the first one's status text contains `ok`. */
  predicate SnapshotSettled(poll: SnapshotPoll)
  {
    |poll| == 0 || Contains("ok", poll[0])
  }

  method WaitForSnapshot(trace: seq<SnapshotPoll>) returns (r: Option<nat>)
    ensures r.Some? ==> r.value < |trace| && (|trace[r.value]| == 0 || Contains("ok", trace[r.value][0]))
    ensures r.Some? ==> forall j :: 0 <= j < r.value ==> |trace[j]| > 0 && !Contains("ok", trace[j][0])
    ensures r.None? ==> forall j :: 0 <= j < |trace| ==> |trace[j]| > 0 && !Contains("ok", trace[j][0])
  {
    r := FirstStop(trace, SnapshotSettled);
  }

  /** Only the first listed snapshot is inspected: a later one that is `ok` does not end the wait. */
  lemma OnlyFirstSnapshotCounts()
    ensures !SnapshotSettled(["locked", "ok"])
    ensures SnapshotSettled([]) && SnapshotSettled(["ok", "locked"])
  {
    assert !Contains("ok", "locked") by {
      assert !Contains("ok", "") && !Contains("ok", "d");
      assert "d" == "ed"[1..] && "ed" == "ked"[1..] && "ked" == "cked"[1..];
      assert "cked" == "ocked"[1..] && "ocked" == "locked"[1..];
      assert "ocked"[1] == 'c' && "locked"[0] == 'l';
      assert !("ok" <= "ocked") && !("ok" <= "locked");
    }
    assert Contains("ok", "ok") by {
      assert "ok" <= "ok";
    }
  }

  // ----- wait_for_vm_operation -----

  /** One poll of the engine's VMs: the state text of every VM, by name. */
  type VmPoll = map<string, string>

  /** The name the VM wait looks up: source name, middle part and suffix. */
  function ComposedName(vmName: string, middle: string, suffix: string): (name: string)
    ensures |name| == |vmName| + |middle| + |suffix|
    ensures name[..|vmName|] == vmName && name[|vmName| + |middle|..] == suffix
  {
    vmName + middle + suffix
  }

  /** The loop leaves when the VM is gone or its lower-cased state is exactly `down`. */
  predicate VmSettled(name: string, poll: VmPoll)
  {
    name !in poll || Lower(poll[name]) == "down"
  }

  method WaitForVm(vmName: string, middle: string, suffix: string, trace: seq<VmPoll>) returns (r: Option<nat>)
    ensures var name := vmName + middle + suffix;
            r.Some? ==> r.value < |trace| && (name !in trace[r.value] || Lower(trace[r.value][name]) == "down")
    ensures var name := vmName + middle + suffix;
            r.Some? ==> forall j :: 0 <= j < r.value ==> name in trace[j] && Lower(trace[j][name]) != "down"
    ensures var name := vmName + middle + suffix;
            r.None? ==> forall j :: 0 <= j < |trace| ==> name in trace[j] && Lower(trace[j][name]) != "down"
  {
    var name := ComposedName(vmName, middle, suffix);
    r := FirstStop(trace, (poll: VmPoll) => VmSettled(name, poll));
  }

  /** The state comparison ignores letter case but not other text: `DOWN` ends the wait, `powering_down` does not. */
  lemma VmStateCase()
    ensures VmSettled("x", map["x" := "DOWN"]) && VmSettled("x", map[])
    ensures !VmSettled("x", map["x" := "powering_down"])
  {
    var d := Lower("DOWN");
    assert d[0] == LowerChar('D') && d[1] == LowerChar('O');
    assert d[2] == LowerChar('W') && d[3] == LowerChar('N');
    assert d == "down";
    assert |Lower("powering_down")| == 13;
  }

  // ----- deletion waits in delete_vm and delete_old_backups -----

  /** One poll of a collection: the names it still holds. */
  type NamePoll = set<string>

  /** `while get(name) is not None: sleep`: the first poll in which `name` is absent. */
  method WaitUntilGone(name: string, trace: seq<NamePoll>) returns (r: Option<nat>)
    ensures r.Some? ==> r.value < |trace| && name !in trace[r.value]
    ensures r.Some? ==> forall j :: 0 <= j < r.value ==> name in trace[j]
    ensures r.None? ==> forall j :: 0 <= j < |trace| ==> name in trace[j]
  {
    r := FirstStop(trace, (poll: NamePoll) => name !in poll);
  }
}

=== FILE: wrappers.dfy ===
/** Option and Result, the model's stand-ins for Python's `None` and raised errors. */
module Wrappers {

  datatype Option<+T> = None | Some(value: T)

  /** `Err` carries the exception the Python code would raise; usable with `:-`. */
  datatype Result<+T, +E> = Ok(value: T) | Err(error: E) {

    predicate IsFailure()
    {
      Err?
    }

    function PropagateFailure<U>(): Result<U, E>
      requires Err?
    {
      Err(error)
    }

    function Extract(): T
      requires Ok?
    {
      value
    }
  }
}
